=== FILE: README.md ===
# Project Euler harness in Dafny

This project models the pure logic of a Project Euler solution harness and
proves properties of that model. The harness is a Python command-line
program that lists, runs and times numbered solutions, each of which comes
in several versions.

The model covers six areas:

- **Range expressions.** `"1..3,5"` becomes a sorted list of integers. This
  is used to select problems and versions (`Arguments`).
- **Discovery and dispatch.** This covers the version-file name patterns
  (`Naming`), the version map a problem builds from its directory listing
  (`Classes`), and the `info`, `run` and `perf` workloads of the driver
  (`Euler`). The `perf` workload includes its sorted-insertion timing list.
- **Small utilities.** These are the arithmetic-series sums (`Algebra`), the
  two integer-palindrome checkers and their selector (`Misc`), and the
  bounded-integer factory (`Factories`).
- **The two generator tools.** This covers the argument checks of the
  version generator (`GenerateVersion`). It also covers the page scraper's
  state machine and the argument checks of the problem generator
  (`GenerateProblem`).
- **Solutions with several versions.** These are problems 1, 2, 4 and 9. In
  each, the straightforward version serves as the reference that the faster
  versions are proved equal to, or compared with (`Problem001`,
  `Problem002`, `Problem004`, `Problem009`).
- **Single-version solutions.** These are problems 5, 6 and 8 (`Problem005`,
  `Problem006`, `Problem008`).

## Python semantics in the model

Python exceptions become `Err` values of `Errors.Result`, named after the
exception they stand for. Python integers are unbounded, like Dafny's.

Python's `//` and `%` round toward negative infinity. They coincide with
Dafny's `/` and `%` whenever the divisor is positive, which holds at every
use in the solutions. `Algebra.FloorDiv` is Python's `//` for a divisor of
either sign.

Slices with out-of-range or negative bounds follow Python's clamping rules
(`Text.Slice`, `Text.SliceFrom`, `Text.SliceTo`).

Strings are `seq<char>`. Python's `\d`, `int()` and `str.isspace` are
modelled for ASCII digits and for the white-space characters `str.strip()`
removes.

The file system, `importlib`, the clock and printing are parameters or
outputs:

- A directory listing is a `seq<string>`.
- Importing a module is a function that returns the module or fails.
- The clock is a function that gives the duration of each timed call. It is keyed by the version's position in the selection and the iteration, so a version named twice in `-v` is timed afresh each time.
- Each workload returns the lines it would print, as datatype values.

The name formats `PROBLEM_NAME`, `VERSION_NAME` and `PROBLEM_NUMBER`, and
`PROBLEM_DIGITS`, are not defined in `constants.py`. They are the fields
of `Euler.Formats`: arbitrary functions from numbers to names. The
lemmas that need distinct names for distinct numbers require
`Euler.WellFormed`, which asks `problemName` and `versionName` to be
injective (`Euler.GetProblemClassIsolated`,
`Euler.SelectedVersionsDistinct`).

A loaded `solution` is a `Classes.Solution`: the number of positional
parameters it declares, and the call itself, which returns a value or
raises. `run_solution` passes one argument, so a solution declared as
`solution(resources, args)` raises `TypeError` there (see Findings). The
workloads are stated over `Classes.RunSolution`, the call as written.

## Model

| member | source | states |
|---|---|---|
| Arguments.Range | utils/arguments.py:63 | `list(range(N, M + 1))` has `M - N + 1` entries `N, N+1, ...` when `N <= M`, and none otherwise |
| Text.Strip | utils/arguments.py:50 | `str.strip()` keeps a contiguous piece of its input with no white space at either end, and removes only white space around it |
| Text.StripIdempotent | utils/arguments.py:50 | stripping twice is stripping once |
| Text.Split | utils/arguments.py:28 | `split(",")` gives at least one part and no part holds a comma |
| Text.SplitJoin | utils/arguments.py:28 | joining the parts with the separator gives back the input, so no character is lost |
| Arguments.ParseSegment | utils/arguments.py:49-63 | a segment either raises `ValueError` or yields values that are all non-negative, since no sign is accepted |
| Arguments.ParseSegmentAcceptsIffMatch | utils/arguments.py:49-55 | a segment is accepted exactly when its stripped text is matched in full by `^(\d+)(\.\.(\d+))?$` |
| Arguments.ParseSegmentLiteral | utils/arguments.py:57-63 | a stripped literal `N` yields exactly `[N]` |
| Arguments.ParseSegmentRange | utils/arguments.py:57-63 | a stripped `N..M` yields the inclusive range from `N` to `M` |
| Arguments.ParseLiteral | utils/arguments.py:57-63 | a digit string `N` yields `[N]` |
| Arguments.ParseRange | utils/arguments.py:57-63 | `N..M` yields `[N, ..., M]`; for `N > M` it yields `[]` without raising |
| Arguments.ParseSegmentIgnoresPadding | utils/arguments.py:50 | white space around a segment does not change its result |
| Arguments.RejectsLetters | utils/arguments.py:49-55 | `"abc"` raises `ValueError` |
| Arguments.RejectsEmpty | utils/arguments.py:49-55 | `""` raises `ValueError` |
| Arguments.RejectsOpenRange | utils/arguments.py:49-55 | `"1.."` raises `ValueError` |
| Arguments.RejectsChainedRange | utils/arguments.py:49-55 | `"1..2..3"` raises `ValueError` |
| Arguments.RejectedExample | utils/arguments.py:49-55 | a text whose leading digit run is followed neither by the end nor by `..` and a digit run raises `ValueError` |
| Arguments.ParseSegments | utils/arguments.py:28-29 | the concatenation succeeds exactly when every segment does, fails only with `ValueError`, and has as many values as the segments expand to |
| Arguments.ConcatOkIff | utils/arguments.py:28-29 | the `+=` loop over segment results succeeds exactly when every segment does, and a failing loop raises the error of some segment |
| Arguments.ConcatSize | utils/arguments.py:28-29 | a successful loop collects as many values as the segments hold together |
| Arguments.ConcatMembers | utils/arguments.py:28-29 | a successful loop holds a value exactly when some segment yields it |
| Arguments.ParseSegmentsMembers | utils/arguments.py:28-29 | a value is in the concatenation exactly when some segment's expansion holds it |
| Arguments.ExtendedRange | utils/arguments.py:27-32 | the result is sorted and is a permutation of the concatenated expansions, duplicates included; it fails exactly when some comma-separated segment fails |
| Arguments.ExtendedRangeIsSortedConcatenation | utils/arguments.py:31-32 | any sorted permutation of the concatenated expansions is the result |
| Arguments.OneBadSegmentSpoilsAll | utils/arguments.py:28-29 | one malformed segment anywhere makes the whole expression raise `ValueError` |
| ArgumentsExamples.ExampleRangeAndLiteral | utils/arguments.py:23 | `"1..3,5"` gives `[1, 2, 3, 5]` |
| ArgumentsExamples.ExampleTwoRanges | utils/arguments.py:24 | `"1..3,5..7"` gives `[1, 2, 3, 5, 6, 7]` |
| ArgumentsExamples.ExampleOutOfOrderRanges | utils/arguments.py:25 | `"4..6,1..3"` gives `[1, ..., 6]`: sorted, not in segment order |
| Sorting.Sort | utils/arguments.py:32 | `sorted` returns an ascending permutation of its input |
| Sorting.InsertSorted | euler.py:240 | `bisect.insort` keeps the list sorted and adds exactly the new value |
| Sorting.BisectRight | euler.py:240 | the insertion point has every smaller-or-equal entry before it and every greater entry after it |
| Sorting.SortedPermutationUnique | utils/arguments.py:32 | two sorted permutations of the same values are equal |
| Naming.MatchFrom | constants.py:14-21 | the backtracking `\d{3,3}` succeeds exactly when some allowed digit count matches |
| Naming.Match | constants.py:14-21 | `pattern.match(s)` succeeds exactly when the pattern matches a prefix of `s` |
| Naming.VersionRawShape | constants.py:8-15 | the version pattern is `version` and exactly three digits, followed by anything |
| Naming.VersionFileShape | constants.py:21 | the version-file pattern is `version`, three digits, one character other than a newline, then `py`, followed by anything |
| Naming.ProblemFileShape | constants.py:5-20 | the problem patterns have the same shapes with the prefix `problem` |
| Naming.FileMatchImpliesRaw | constants.py:14-21 | every name the file pattern matches is matched by the bare pattern |
| Naming.MatchesWithoutDot | constants.py:21 | the unescaped dot lets `version012Xpy` through |
| Naming.MatchesWithTrailer | classes.py:52 | `.match` anchors only at the start, so `version012.py.bak` matches |
| Naming.RejectsShortNumber | constants.py:14-21 | `version12.py` does not match |
| Naming.RejectsLongNumber | constants.py:14-21 | `version0123.py` does not match |
| Classes.Basename | classes.py:57 | `os.path.basename` is the suffix after the last `/` and holds no `/` |
| Classes.StemOf | classes.py:58 | `os.path.splitext(p)[0]` is a prefix of `p`, cut at a dot that has no dot after it |
| Classes.Dict.Put | classes.py:66 | `d[k] = v` maps `k` to `v`, appends a new key and keeps an old key in place |
| Classes.VersionFiles | classes.py:51-52 | the kept files are exactly the listed ones the version-file pattern matches |
| Classes.Register | classes.py:54-66 | registration succeeds exactly when every import succeeds; a failing registration raises the error of the first file whose import fails |
| Classes.RegisterKeys | classes.py:54-66 | after registration the key order is the old keys followed by each new stem at its first occurrence |
| Classes.RegisterTable | classes.py:54-66 | after registration the map holds exactly the old keys and the stems of the files |
| Classes.ImplementedVersions | classes.py:38-68 | discovery fails exactly when importing some matching file fails, and then with the error of the first such file in listing order |
| Classes.RegisterContents | classes.py:55-66 | registration adds exactly the stems of the files, each mapped to its import, with keys in order of first occurrence |
| Classes.ImplementedVersionsContents | classes.py:50-66 | the keys are exactly the stems of the matching files; each maps to what its import yields; a repeated stem keeps its first position and takes the later value |
| Classes.CreateParser | classes.py:25-36 | the base `create_parser` always raises `NotImplementedError` |
| Classes.IsVersionImplemented | classes.py:70-71 | a version is implemented exactly when it is a key of the version map |
| Classes.RunSolution | classes.py:73-82 | a missing version raises `KeyError`; a solution that does not take exactly one positional argument raises `TypeError`; otherwise the solution's own result or exception is passed on |
| Classes.RunSolutionCorrected | classes.py:73-82 | with each solution given the parameters it declares, a missing version raises `KeyError` and every other version yields the solution's own result |
| Classes.TwoParameterSolutionRaises | classes.py:82 | a solution declaring `(resources, args)` raises `TypeError` when run, while the corrected call yields its result |
| Classes.OneParameterAgrees | classes.py:82 | for a one-parameter solution the call as written and the corrected call give the same result |
| Classes.RunDiscovered | classes.py:38-82 | after discovery, a version is implemented exactly when some matching file has that stem; running it loads that file's `solution` and applies it as above; any other version raises `KeyError` |
| RunExamples.ProblemSixRunRaises | solutions/problem006/version001.py:8 | with problem 6's two-parameter solution, `run -p 6 -n 10` raises `TypeError` before printing any version line, while the corrected call returns 2640 |
| Classes.BaseProblemImplementsNothing | classes.py:16-23 | the base constructor leaves the version map empty, so every lookup fails |
| Euler.ExpandField | euler.py:164-167 | a selector is expanded only when present and not `None`; a malformed one raises `ValueError` |
| Euler.ArgparseFormat | euler.py:150-169 | `count` becomes `max(1, count)`, and both selectors are expanded as above |
| Euler.ClassName | euler.py:47 | the class name is the module name with its first letter upper-cased and the rest unchanged |
| Euler.GetProblemClass | euler.py:35-56 | an empty name raises `IndexError`; an import raising `ModuleNotFoundError` becomes `NotImplementedError`; any other exception of the import passes through unchanged; a missing class attribute raises `AttributeError`; otherwise the module's class attribute is returned |
| Euler.ImportPathInjective | euler.py:49 | distinct module names give distinct import paths |
| Euler.GetProblemClassIsolated | euler.py:46-56 | with injective formats, what is installed under another problem's import path does not change the class a problem resolves to |
| Euler.SelectedVersions | euler.py:222-225 | the formatted selector entries in selector order, or every key of the version map in insertion order |
| Euler.SelectedVersionsDistinct | euler.py:222-223 | with injective formats, distinct selector numbers give distinct version names |
| Euler.RunLines | euler.py:265-271 | one line per version, in order, until the first implemented version whose solution raises; an unimplemented version is reported and skipped; an implemented one is run once and its result printed; the raised error ends the loop |
| Euler.RunCompletesIff | euler.py:265-271 | the loop completes exactly when every implemented version's solution returns; when it stops, every earlier implemented version returned |
| Euler.WorkloadRun | euler.py:256-271 | `run` prints one line per selected version and completes exactly when every implemented selected version returns; otherwise it stops at the first that raises, with that error |
| Euler.RunAllVersions | euler.py:260-271 | without a selector, the workload completes exactly when every version returns, and the lines are every version's result in insertion order |
| Euler.RepeatedVersionRunsAgain | euler.py:265-271 | a version listed twice in the selector runs twice with the same printed result, and if it raises, the loop stops at or before its first occurrence |
| Euler.CollectTimings | euler.py:236-240 | when the solution raises in the first iteration the loop ends with that error; otherwise the timings are `count` entries, sorted, and a permutation of the durations measured for the version's position in the selection |
| Euler.PerfVersion | euler.py:228-246 | an unimplemented version gets a not-implemented line; for an implemented one the title from `get_version_name` is read first, and an import error there ends the workload with nothing printed for the version; once the title line is printed, the version ends the workload with the solution's error, with `IndexError` when `count < 1`, or with `StatisticsError` when `count == 1`, keeping only its title line (`Euler.PerfError` orders these errors); otherwise it gets the title line and a faithful report (`Euler.Reported`) |
| Euler.TimingsAreSortedMeasurements | euler.py:242-244 | `timings[0]` is the fastest measured call and `timings[-1]` the slowest |
| Euler.WorkloadPerf | euler.py:218-253 | `perf` completes exactly when no implemented selected version raises while its title is read or while it is timed (`Euler.PerfError`); otherwise it stops at the first that does (`Euler.FailedSlot`), with that error, and the failing version keeps its title line exactly when the title could be read; every version before it, and every version of a completed run, is `Euler.Reported` with its title and a faithful report |
| Euler.VersionTitles | euler.py:206-210 | one line per matching file from the given position on, in order, holding its imported version name indented and cut to 65 characters, until the first import that raises, whose exception ends the listing |
| Euler.VersionLines | euler.py:205-210 | the verbose listing covers exactly the files the version-file pattern matches, in listing order, with the lines and stopping point above |
| Euler.VersionLinesCompleteIff | euler.py:206-210 | the verbose listing completes exactly when importing every matching file succeeds |
| Euler.InfoFor | euler.py:186-210 | a problem without a directory is reported as not implemented and skipped; otherwise its title or a missing-file line comes first, then the version lines when verbose; the listing completes exactly when every import it makes succeeds, and a failing title import prints nothing |
| Euler.InfoLines | euler.py:186-210 | the loop completes exactly when every requested problem lists without raising, and otherwise raises the error of the first problem that does; when it completes, a problem file is reported missing exactly when some requested problem with a directory lacks it |
| Euler.RequestedProblems | euler.py:181-184 | the formatted requested numbers in request order, or every problem directory when none is requested |
| Euler.WorkloadInfo | euler.py:175-215 | `info` completes exactly when every import its listing makes succeeds, and otherwise raises the error of the first requested problem whose listing raises; the closing warning is stated by `Euler.WarningIffMissingFile` |
| Euler.InfoTitlesAreShort | euler.py:198-210 | every printed title is cut to 65 characters, whether or not the listing ends early |
| Euler.WarningIffMissingFile | euler.py:212-214 | when no import raises, the closing warning appears exactly when some requested problem with a directory lacks its problem file; when one raises, the warning is never printed |
| InfoExamples.StrayStem | euler.py:208 | `splitext` of `version012.py.bak` keeps the inner dot: `version012.py` |
| InfoExamples.StrayIsTheOnlyVersionFile | euler.py:206-209 | of `problem012.py` and `version012.py.bak`, only the second is a version file, and importing its dotted module name raises `ModuleNotFoundError` |
| InfoExamples.StrayProblemListing | euler.py:196-210 | the directory with the stray file lists its title, then raises when verbose; without `-v` it lists the title alone |
| InfoExamples.StrayFileEndsListing | euler.py:205-214 | `info -v` over that directory ends with `ModuleNotFoundError` after the title; `info` completes with the title alone |
| Algebra.FloorDiv | utils/algebra.py:12 | Python's `//`: the quotient rounded toward negative infinity, for either sign of the divisor |
| Algebra.HalvingIsExact | utils/algebra.py:27-28 | the product `arithmetic_sum_n` halves is always even |
| Algebra.ArithmeticSumN | utils/algebra.py:16-28 | for `n >= 0`, the sum of the first `n` terms `a_1 + i d`; 0 for `n == 0`; the halving is exact |
| Algebra.ArithmeticSum | utils/algebra.py:1-13 | a zero step raises `ZeroDivisionError`; otherwise the floor of the term count times the sum of the ends, halved |
| Algebra.ArithmeticSumIsSeriesSum | utils/algebra.py:12-13 | when `a_n` is `a_1` plus `k >= 0` steps, the result is the sum of the `k + 1` terms |
| Algebra.ArithmeticSumsAgree | utils/algebra.py:12-28 | for a non-zero step and `n >= 1`, `arithmetic_sum(a_1, a_1 + d (n - 1), d) == arithmetic_sum_n(a_1, d, n)` |
| Misc.IsPalindromeStrComp | utils/misc.py:37-39 | false for every negative number, because of the `-`; true for 0 |
| Misc.IsPalindromeIntComp | utils/misc.py:25-34 | false for every negative number; true for 0, where the loop is skipped |
| Misc.IntCompRevValue | utils/misc.py:30-32 | the reversal loop appends the digits of `copy`, last digit first, to `rev` |
| Misc.IntCompIsDigitPalindrome | utils/misc.py:25-34 | for `n >= 0`, the integer check holds exactly when the decimal digits of `n` read the same backwards |
| Misc.CheckersAgree | utils/misc.py:25-39 | the two checkers agree on every integer |
| Misc.GetIntegerPalindromeFunction | utils/misc.py:12-22 | the integer checker is selected exactly by `INTCOMPARE`; the default is the string checker |
| Misc.SelectionIsIrrelevant | utils/misc.py:12-22 | whichever checker is selected, the answer is the string checker's |
| Factories.ValidValue | utils/factories.py:26-31 | a value is valid exactly when no given bound excludes it |
| Factories.Construct | utils/factories.py:35-41 | a valid value is returned unchanged; any other raises `ValueError` |
| Factories.BoundsAreInclusive | utils/factories.py:27-30 | both bounds are inclusive |
| Factories.UnboundedAcceptsAll | utils/factories.py:26-31 | with neither bound, every integer is accepted |
| Factories.CrossedBoundsRejectAll | utils/factories.py:27-31 | with `lower > upper`, every value is rejected |
| Factories.WiderBoundsAcceptMore | utils/factories.py:26-31 | lowering the lower bound keeps every accepted value accepted |
| GenerateVersion.Overlap | tools/generate_version.py:57-63 | the warnings name exactly the requested versions whose files exist, and none under `--force` |
| GenerateVersion.CheckVersions | tools/generate_version.py:45-70 | an empty range raises `IndexError`; a start below 1 or after a missing version raises `ValueError`; otherwise the checks pass exactly when nothing overlaps or `force` is set, and the warnings name exactly the overlapping versions |
| GenerateVersion.ArgumentParser | tools/generate_version.py:12-70 | `problem < 1` raises `ValueError`; a missing problem file raises `NotImplementedError`; a malformed version range raises `ValueError`; otherwise the version checks decide, and success returns `(problem, versions)` unchanged |
| GenerateVersion.ProblemCheckedFirst | tools/generate_version.py:34-36 | a non-positive problem is rejected whatever is on disk |
| GenerateVersion.ReversedRangeHasNoFirstVersion | tools/generate_version.py:45-47 | a reversed range parses to nothing, and `versions[0]` raises `IndexError` |
| GenerateVersion.WarningsNameExistingVersions | tools/generate_version.py:57-68 | warnings occur only without `--force`, name exactly the existing requested versions, and are followed by one `ValueError` |
| GenerateProblem.NewParser | tools/generate_problem.py:24-32 | a new parser has both flags cleared, the name set to its heading, and an empty description |
| GenerateProblem.MarksProblem | tools/generate_problem.py:37-41 | a `div` is marked when some attribute value is case-insensitively `problem`; a missing value before it raises `AttributeError` |
| GenerateProblem.HandleStartTag | tools/generate_problem.py:34-41 | `h2` in any case opens the name; a marked `div` opens the description; nothing else changes |
| GenerateProblem.HandleData | tools/generate_problem.py:43-47 | data goes to the name if that is open, else to the description if that is open, else nowhere |
| GenerateProblem.HandleEndTag | tools/generate_problem.py:49-52 | closing a `div` or an `h2` clears both flags; other end tags change nothing |
| GenerateProblem.Feed | tools/generate_problem.py:34-52 | a parse fails only with `AttributeError` |
| GenerateProblem.FeedAppend | tools/generate_problem.py:34-52 | feeding two runs of events is feeding one after the other |
| GenerateProblem.FeedOnlyAppends | tools/generate_problem.py:43-47 | the name and the description only grow, so their initial values remain prefixes |
| GenerateProblem.DataOutsideIsDropped | tools/generate_problem.py:43-47 | data outside both sections is dropped |
| GenerateProblem.NameTakesPriority | tools/generate_problem.py:43-47 | data inside both sections goes to the name only |
| GenerateProblem.ArgumentParser | tools/generate_problem.py:74-85 | `problem < 1`, or an existing problem file without `--force`, raises `ValueError`; otherwise the problem is returned |
| Problem001.SumBelow | solutions/problem001/version001.py:21-25 | the reference sum of the multiples of 3 or 5 below `number` is 0 for `number <= 3` |
| Problem001.SumBelowTen | solutions/problem001/problem001.py:12-13 | the multiples of 3 or 5 below 10 sum to 23 |
| Problem001.Solution1 | solutions/problem001/version001.py:21-25 | version 1 returns the reference sum for every input |
| Problem001.IncrementCycle | solutions/problem001/version002.py:25 | one cycle of the increments advances by 15 |
| Problem001.NextOffset | solutions/problem001/version002.py:29-30 | each increment moves the residue modulo 15 to the next multiple of 3 or 5 |
| Problem001.OffsetTable | solutions/problem001/version002.py:25 | every offset is a multiple of 3 or 5, and the numbers an increment skips are not |
| Problem001.GapStep | solutions/problem001/version002.py:27-30 | every value an increment skips adds nothing to the reference sum |
| Problem001.Solution2 | solutions/problem001/version002.py:22-31 | version 2 returns the reference sum for every input |
| Problem001.Shift15 | solutions/problem001/version003.py:23 | being a multiple of 3 or 5 repeats every 15 numbers |
| Problem001.RepeatsSum | solutions/problem001/version003.py:23-29 | `sum(repeats)` is 60 |
| Problem001.BlockSum | solutions/problem001/version003.py:28-32 | the block of 15 numbers after `15 i` adds `105 i + 60`, which is `sum(repeats)` plus `15 * 7 * i` |
| Problem001.TailIsEmpty | solutions/problem001/version003.py:33-36 | numbers 1 and 2 of a block add nothing |
| Problem001.AddRemainder | solutions/problem001/version003.py:33-36 | the second loop adds the reference sum over the last partial block `15 i + 1, ..., 15 i + n` |
| Problem001.Solution3 | solutions/problem001/version003.py:22-37 | version 3 returns the reference sum for every input |
| Problem001.InclusionExclusion | solutions/problem001/version004.py:64-67 | the reference sum is the multiples of 3 plus those of 5, minus those of 15 |
| Problem001.MultiplesSum | solutions/problem001/version004.py:37-48 | `arithmetic_series_sum(0, k d, d)` is `d k (k + 1) / 2` for `k >= 0` and `d > 0` |
| Problem001.LargestMultiple | solutions/problem001/version004.py:64-66 | for `n >= 0`, `n - n % d` is the largest multiple of `d` not above `n` |
| Problem001.SumDivisibleByIsMultiples | solutions/problem001/version004.py:64-66 | each term is the sum of the multiples of `d` up to `n` |
| Problem001.GuardIsRedundant | solutions/problem001/version004.py:66 | the `n >= 15` guard changes nothing for `n >= 0` |
| Problem001.Solution4Correct | solutions/problem001/version004.py:63-67 | version 4 returns the reference sum for every `number >= 1` |
| Problem001.Solution4 | solutions/problem001/version004.py:51-67 | version 4 as written; `Problem001.Solution4Correct` proves it equal to the reference sum for `number >= 1`, and `Problem001.Solution4NegativeLimit` shows where it departs for negative limits |
| Problem001.Solution4NegativeLimit | solutions/problem001/version004.py:63-67 | version 4 as written returns 3 for `-3`, where the reference sum is 0 |
| Problem001.Solution4Corrected | solutions/problem001/version004.py:63-67 | the formula with negative limits cut off returns the reference sum for every input |
| Problem002.EvenFibsFrom | solutions/problem002/version001.py:24-27 | the sum of the even Fibonacci terms from a position on is even |
| Problem002.FibParity | solutions/problem002/version002.py:32-34 | every third Fibonacci term is even and the two between are odd |
| Problem002.FibEvenIff | solutions/problem002/version002.py:27-34 | a Fibonacci term is even exactly when its position is a multiple of 3 |
| Problem002.NothingBelowThree | solutions/problem002/version002.py:30 | for `number <= 2` the sum is 0 |
| Problem002.Solution1 | solutions/problem002/version001.py:20-28 | version 1 returns the sum of the even terms of 1, 1, 2, 3, 5, ... below `number` |
| Problem002.EvenStep | solutions/problem002/version002.py:30-34 | from an even term, the sum is that term plus the sum from three terms later |
| Problem002.Solution2 | solutions/problem002/version002.py:26-35 | version 2 returns the same sum as version 1 for every input |
| Problem002.A3IsCube | solutions/problem002/version003.py:51 | the hard-coded `[[3, 2], [2, 1]]` is the cube of `[[1, 1], [1, 0]]` |
| Problem002.AdvanceFib | solutions/problem002/version003.py:56 | `A3` moves a pair of consecutive Fibonacci terms three positions on |
| Problem002.Solution3 | solutions/problem002/version003.py:50-58 | version 3 returns version 1's sum for `number >= 3`, and raises `TypeError` exactly when `number <= 2` |
| Problem002.Solution3Corrected | solutions/problem002/version003.py:50-58 | the loop with the result taken as an integer returns version 1's sum for every input |
| Problem004.VisitImproves | solutions/problem004/version001.py:39-42 | a visited pair whose palindromic product beats the best becomes the best pair |
| Problem004.VisitKeeps | solutions/problem004/version001.py:39-42 | any other visited pair leaves the best pair as it is |
| Problem004.SearchRow | solutions/problem004/version001.py:38-42 | the inner loop keeps the best palindromic product of every visited pair, first in search order |
| Problem004.Search | solutions/problem004/version001.py:31-44 | the result is `[0, 0]` when no product is a palindrome; otherwise a pair with `10^(d-1) <= f1 <= f2 < 10^d` whose product is the largest palindrome, the first such pair in search order |
| Problem004.Solution1 | solutions/problem004/version001.py:31-44 | version 1 returns the largest-palindrome pair under the string check |
| Problem004.Solution2 | solutions/problem004/version002.py:40-53 | version 2 returns the largest-palindrome pair under the integer check |
| Problem004.LargestPairIsUnique | solutions/problem004/version001.py:40-42 | the strict `>` determines the answer: at most one pair fits the description |
| Problem004.VersionsAgree | solutions/problem004/version002.py:40-53 | versions 1 and 2 return the same pair for every number of digits |
| Problem005.FactorialDividesAll | solutions/problem005/version001.py:32-39 | `n!` is divisible by each of `1, ..., n`, so the search ends |
| Problem005.DividesAllUpTo | solutions/problem005/version001.py:33-37 | the `for`/`else` falls through exactly when every factor divides `product` |
| Problem005.NextMultiple | solutions/problem005/version001.py:39 | a multiple that fails is passed over without skipping any answer |
| Problem005.Solution | solutions/problem005/version001.py:31-39 | for `number >= 1`, the smallest positive number divisible by each of `1, ..., number`; otherwise `number` itself |
| Problem005.SmallestForTen | solutions/problem005/problem005.py:10-11 | 2520 is the smallest positive number divisible by each of `1, ..., 10` |
| Problem006.SumToClosedForm | solutions/problem006/version001.py:21 | twice `1 + ... + n` is `n (n + 1)` |
| Problem006.Step | solutions/problem006/version001.py:20-22 | going from `n - 1` to `n` adds `n^2 (n - 1)` |
| Problem006.ClosedForm | solutions/problem006/version001.py:20-22 | 12 times the result is `n (n + 1) (n - 1) (3 n + 2)` for `n >= 0` |
| Problem006.NeverNegative | solutions/problem006/version001.py:18-22 | the square of the sum minus the sum of squares is never negative, and is 0 for `n <= 1` |
| Problem006.FirstTen | solutions/problem006/problem006.py:9-13 | 3025 - 385 = 2640 for the first ten numbers |
| Problem006.Solution | solutions/problem006/version001.py:8-22 | the square of the sum minus the sum of squares of `1, ..., number`; its closed form and sign are proved by `Problem006.ClosedForm` and `Problem006.NeverNegative` |
| Problem008.WindowProduct | solutions/problem008/version001.py:31-33 | a window with a non-digit raises `ValueError`; an empty window raises `TypeError`; otherwise the product of its digits |
| Problem008.Scan | solutions/problem008/version001.py:30-34 | the running maximum never falls below the best so far |
| Problem008.ScanOkIff | solutions/problem008/version001.py:30-34 | the loop succeeds exactly when every window succeeds |
| Problem008.ScanFirstError | solutions/problem008/version001.py:30-34 | a failing loop raises the error of its first failing window |
| Problem008.ScanBoundsAll | solutions/problem008/version001.py:30-34 | a successful loop ends at least as high as every window's product |
| Problem008.ScanAttained | solutions/problem008/version001.py:30-34 | a successful loop ends with the start value or some window's product |
| Problem008.Solution | solutions/problem008/version001.py:28-36 | the result is never negative |
| Problem008.SolutionIsMaximum | solutions/problem008/version001.py:28-36 | the result is the largest window product, or 0; on failure, the error of the first bad window |
| Problem008.TooManyDigits | solutions/problem008/version001.py:30 | more digits than the number has gives no window and the result 0 |
| Problem008.ZeroDigits | solutions/problem008/version001.py:30-33 | zero digits makes `reduce` run on an empty list and raise `TypeError` |
| Problem008.NonDigitInFirstWindow | solutions/problem008/version001.py:32 | a non-digit inside the first window raises `ValueError` |
| Problem008.ZeroDigitZeroProduct | solutions/problem008/version001.py:32-33 | a window holding a `0` has product 0 |
| Problem008.FourDigits | solutions/problem008/problem008.py:11-12 | the adjacent digits 9, 9, 8, 9 give 5832 |
| Problem009.SearchBResult | solutions/problem009/version001.py:34-37 | the inner loop returns the first `b` that completes a triple, and nothing exactly when no `b` does |
| Problem009.SearchAResult | solutions/problem009/version001.py:33-37 | the outer loop returns the first hit from its row on, and nothing exactly when there is none |
| Problem009.BruteforceIsFirstHit | solutions/problem009/version001.py:23-41 | the search returns the first `(a, b)` in `a` in `[1, number // 3)` and `b` in `[2, (number - 1) // 2 + 1)`, in lexicographic order, that completes a triple; it returns `None` exactly when no pair does |
| Problem009.Bruteforce | solutions/problem009/version001.py:9-41 | the nested search of version 1, also `_bruteforce` of version 2; `Problem009.BruteforceIsFirstHit` proves it returns the first hit in search order, or `None` exactly when there is none |
| Problem009.HitIsTriple | solutions/problem009/version001.py:35-37 | a hit in range is a triple `0 < a`, `0 < b < c`, `a^2 + b^2 == c^2`, `a + b + c == number` |
| Problem009.BruteforceIsTriple | solutions/problem009/version001.py:33-37 | whatever the search returns is such a triple |
| Problem009.FirstHitUnique | solutions/problem009/version001.py:33-37 | at most one pair is the first hit |
| Problem009.FirstHitOrdered | solutions/problem009/version001.py:33-37 | the first hit has `a <= b`, since a mirrored hit comes earlier |
| Problem009.SumTwelve | solutions/problem009/problem009.py:13 | for 12 the first hit is 3, 4, 5 |
| Problem009.TableIsValid | solutions/problem009/version002.py:62-81 | the table has 47 rows, each `a, b, c, a + b + c` with `a^2 + b^2 == c^2` |
| Problem009.FromTableResult | solutions/problem009/version002.py:83-88 | the loop scales the first row whose sum divides `number` by the quotient, and falls back on the search when no row does |
| Problem009.ScaledRow | solutions/problem009/version002.py:84-86 | a valid row scaled by `number // sum` is a triple with sum `number` |
| Problem009.FromTableIsTriple | solutions/problem009/version002.py:83-88 | whatever the loop returns is a triple with sum `number` |
| Problem009.Solution2Result | solutions/problem009/version002.py:46-88 | version 2 scales the first dividing row, falls back on version 1's search, and always answers with a triple of the requested sum |
| Problem009.Solution2 | solutions/problem009/version002.py:46-88 | version 2; `Problem009.Solution2Result` proves it scales the first dividing table row, falls back on the search, and answers with a triple of the requested sum |
| Problem009.Solution2SumTwelve | solutions/problem009/version002.py:65 | for 12, version 2 returns 3, 4, 5 through the first row |
| Problem009.VersionsDisagreeAtSixty | solutions/problem009/version002.py:83-88 | for 60, version 2 returns 15, 20, 25, while 10, 24 is a hit the search reaches first |
| Problem009.ZeroSum | solutions/problem009/version002.py:83-86 | for 0, version 2 returns `(0, 0, 0)`, where version 1 returns `None` |

## Left out

- Printing, `format_timing`, `argparse_setup`, `main`, `time.time`, `os.walk` and `importlib` are left out. They are I/O or library wiring. Their inputs and outputs are parameters and datatype values.
- The float statistics of `perf` (`statistics.mean`, `median`, `stdev`) are left out. Only the one-sample `StatisticsError` of `stdev` and the integer facts (order, minimum, maximum, total) are modelled.
- The problem classes (`solutions/problemNNN/problemNNN.py`) are not part of this model. They are argparse subclasses and resource loading. From them, only the `digits >= 1` bound of problem 4 is carried over (`Problem004.Search`), together with the examples in their descriptions.
- `utils/primes.py` and `utils/resources.py` are not part of this model. Neither are the solutions built on them: problems 3, 7 and 10, and problem 5 version 2. They read files and use floating point.
- The parallel variants are not part of this model: problem 4 version 3 and problem 11 version 2. Their point is process orchestration.
- Problem 11 version 1 is not part of this model. It relies on numpy two-dimensional slicing.
- The message texts of raised exceptions and printed warnings are left out. Only the kind of exception and the values a warning names are modelled.
- The URL fetch, the HTML tokeniser, template reading and writing, and directory creation of the two tools are left out. The scraper is fed abstract start-tag, data and end-tag events.
- `create_version_from_template` is left out. It only writes files.
- Problem 8 reads its digit string from a resource file. Here the string is the parameter `resources`.
- Euler.ClassName: only ASCII letters are upper-cased. Python's `str.upper` maps every cased letter and can change the length (`'ß'` becomes `"SS"`); the formats in use start with an ASCII letter.
- Factories.Construct: the value is taken after argparse's `int()` conversion of the command-line string. The parsing inside `int()`, and its `ValueError` for texts such as `"abc"` or `"7.5"`, is not modelled.
- Euler.WorkloadRun and Euler.WorkloadPerf: the problem title printed before the version loop (euler.py:220 and 258) is not among the lines. The per-version titles of `perf` (euler.py:232-233) are modelled. It comes from the module `get_problem_class` has just imported, so only a missing `PROBLEM_NAME` attribute could make it raise, and that is not modelled.
- Classes.RunSolutionCorrected: the `resources` argument a two-parameter solution expects is not modelled; it is bound inside the solution's call.
- `Text.IsDigit`: `\d` and `int()` also accept non-ASCII Unicode digits. Only ASCII digits are modelled.
- Problem002.Solution3: numpy's `int64` arithmetic would wrap around for sums beyond 2^63. Integers here are unbounded.
- Problem004.Solution1: the description's example `[91, 99]` for two digits is not proved. Proving it would need a case analysis over all two-digit products.
- Problem006.Solution: the docstring promises the sum of squares minus the square of the sum. The code returns the opposite difference. The model follows the code.
- Problem001.Solution3: each first-loop iteration adds `60 + 105 i`. This is `sum(repeats)`, which counts 15, plus `15 * 7 * i`. The model follows the code.
- Problem009.Solution2: `VERSION_DESCRIPTION` (version002.py:5-8) speaks of 16 primitive triples with sides below 100, and the solution's docstring (version002.py:50-52) of 16 below 300; the table holds the 47 below 300, as the comment at version002.py:62 says. The model follows the table. For a negative multiple of 12, version 2 returns a triple of negative numbers, while version 1 returns `None`. Both are modelled as written.

## Findings

| source | as written | input that shows it | evidently intended | confidence | as-written member | corrected member |
|---|---|---|---|---|---|---|
| solutions/problem001/version004.py:63-67 | `n - n % d` with Python's `%` is `n` rounded down to a multiple of `d`; for `number <= -3` the three series sums do not cancel | `number = -3` returns 3 | 0, the sum over an empty range, as version 1 returns | high; not executed | Problem001.Solution4NegativeLimit | Problem001.Solution4Corrected |
| solutions/problem002/version003.py:50-58 | `retval` only becomes an array once the loop runs, and `retval[0]` indexes it | `number = 2` raises `TypeError` (an `int` is not subscriptable) | 0, as versions 1 and 2 return | high; not executed | Problem002.Solution3 | Problem002.Solution3Corrected |
| classes.py:82 | `self.problem_versions[version](self.args)` passes one argument, while seven solutions declare `solution(resources, args)`: problem 1 version 3, problem 2 versions 2 and 3, problem 6, problem 8, and problem 9 versions 1 and 2 | `run -p 6 -n 10` raises `TypeError` (missing positional argument) | the solution's own result, 2640 for `-n 10` | high; not executed | Classes.RunSolution | Classes.RunSolutionCorrected |

=== FILE: algebra.dfy ===
/** The arithmetic-series helpers of `utils/algebra.py`. */
module Algebra {
  import opened Errors

  /** Python's `x // d` for a non-zero divisor: rounds toward negative
      infinity. Dafny's `/` does the same when `d` is positive. */
  function FloorDiv(x: int, d: int): (q: int)
    requires d != 0
    ensures d > 0 ==> q * d <= x < q * d + d
    ensures d < 0 ==> q * d >= x > q * d + d
  {
    if d > 0 then x / d else (-x) / (-d)
  }

  /** A multiple of the divisor is divided exactly, whatever the signs. */
  lemma FloorDivExact(k: int, d: int)
    requires d != 0
    ensures FloorDiv(k * d, d) == k
  {
    if d > 0 {
      PositiveDivExact(k, d);
    } else {
      assert -(k * d) == k * (-d);
      PositiveDivExact(k, -d);
    }
  }

  lemma PositiveDivExact(k: int, d: int)
    requires d > 0
    ensures (k * d) / d == k
  {
    DivModUnique(k * d, d, k, 0);
  }

  /** Quotient and remainder are unique: `x == q d + j` with `0 <= j < d`
      determines `x / d` and `x % d`. */
  lemma DivModUnique(x: int, d: int, q: int, j: int)
    requires d > 0 && 0 <= j < d && x == q * d + j
    ensures x / d == q && x % d == j
  {
    var q' := x / d;
    var j' := x % d;
    assert d * (q - q') == j' - j by {
      assert x == d * q' + j';
      assert q * d - d * q' == d * (q - q');
    }
    if q - q' >= 1 {
      MulAtLeast(d, q - q');
    } else if q - q' <= -1 {
      MulAtLeast(d, q' - q);
    }
  }

  /** `d * x >= d` for positive `d` and `x`. */
  lemma MulAtLeast(d: int, x: int)
    requires d > 0 && x >= 1
    ensures d * x >= d
  {
    assert d * x == d + d * (x - 1);
  }

  /** `a_1 + (a_1 + d) + ... ` over the first `n` terms, term by term. */
  function SeriesSum(a1: int, d: int, n: nat): int {
    if n == 0 then 0 else SeriesSum(a1, d, n - 1) + a1 + (n - 1) * d
  }

  /** Twice the series sum is `2 n a_1 + d n (n - 1)`. */
  lemma {:induction false} SeriesSumClosedForm(a1: int, d: int, n: nat)
    ensures 2 * SeriesSum(a1, d, n) == 2 * n * a1 + d * (n * (n - 1))
  {
    if n > 0 {
      var m := n - 1;
      SeriesSumClosedForm(a1, d, m);
      assert 2 * SeriesSum(a1, d, n) == 2 * m * a1 + d * (m * (m - 1)) + 2 * a1 + 2 * m * d;
      assert m * (m - 1) + 2 * m == n * (n - 1) by {
        assert m * (m - 1) == m * m - m;
        assert n * (n - 1) == (m + 1) * m;
        assert (m + 1) * m == m * m + m;
      }
      assert d * (m * (m - 1)) + d * (2 * m) == d * (n * (n - 1));
    }
  }

  /** The product `arithmetic_sum_n` halves, rearranged. */
  lemma HalvedProduct(a1: int, d: int, n: int)
    ensures n * (a1 + (a1 + d * (n - 1))) == 2 * n * a1 + d * (n * (n - 1))
  {
    assert n * (a1 + (a1 + d * (n - 1))) == 2 * n * a1 + n * (d * (n - 1));
    assert n * (d * (n - 1)) == d * (n * (n - 1));
  }

  /** `n (n - 1)` is even for every integer `n`. */
  lemma ConsecutiveProductIsEven(n: int)
    ensures (n * (n - 1)) % 2 == 0
  {
    if n % 2 == 0 {
      assert n * (n - 1) == 2 * ((n / 2) * (n - 1));
    } else {
      assert n * (n - 1) == 2 * (n * ((n - 1) / 2));
    }
  }

  lemma HalvingIsExact(a1: int, d: int, n: int)
    ensures var p := n * (a1 + (a1 + d * (n - 1)));
      2 * (p / 2) == p && 2 * (p / 2) == 2 * n * a1 + d * (n * (n - 1))
  {
    var p := n * (a1 + (a1 + d * (n - 1)));
    var k := n * (n - 1);
    HalvedProduct(a1, d, n);
    ConsecutiveProductIsEven(n);
    assert k == 2 * (k / 2);
    assert d * k == 2 * (d * (k / 2));
    assert p == 2 * (n * a1 + d * (k / 2));
  }

  /** `arithmetic_sum_n(a_1, d, n)`: the sum of the first `n` terms of the
      series starting at `a_1` with step `d`. Every integer `n` is accepted,
      as in the source; for `n >= 0` the result is the series sum, and the
      final halving is exact for every `n`. */
  function ArithmeticSumN(a1: int, d: int, n: int): (s: int)
    ensures n >= 0 ==> s == SeriesSum(a1, d, n)
    ensures n == 0 ==> s == 0
    ensures 2 * s == n * (a1 + (a1 + d * (n - 1)))
  {
    var an := a1 + d * (n - 1);
    HalvingIsExact(a1, d, n);
    if n >= 0 then SeriesSumClosedForm(a1, d, n); n * (a1 + an) / 2
    else n * (a1 + an) / 2
  }

  /** `arithmetic_sum(a_1, a_n, d)`: the number of terms is
      `(a_n - a_1) // d + 1`, and the sum is that count times the sum of the
      end terms, halved. A zero step raises `ZeroDivisionError`. */
  function ArithmeticSum(a1: int, an: int, d: int): (r: Result<int>)
    ensures r.Err? <==> d == 0
    ensures r.Err? ==> r.error == ZeroDivisionError
    ensures r.Ok? ==> var n := FloorDiv(an - a1, d) + 1;
      2 * r.value <= n * (a1 + an) < 2 * r.value + 2
  {
    if d == 0 then Err(ZeroDivisionError)
    else
      var n := FloorDiv(an - a1, d) + 1;
      Ok(n * (a1 + an) / 2)
  }

  /** When `a_n` is reached from `a_1` in `k >= 0` steps of `d`, the sum
      is the series sum of the `k + 1` terms, for a step of either sign. */
  lemma ArithmeticSumIsSeriesSum(a1: int, d: int, k: nat)
    requires d != 0
    ensures ArithmeticSum(a1, a1 + k * d, d) == Ok(SeriesSum(a1, d, k + 1))
  {
    FloorDivExact(k, d);
    assert a1 + k * d - a1 == k * d;
    SeriesSumClosedForm(a1, d, k + 1);
    HalvedProduct(a1, d, k + 1);
    assert a1 + d * k == a1 + k * d;
  }

  /** The two helpers agree: summing from `a_1` to `a_1 + d (n - 1)` is
      summing the first `n` terms. */
  lemma ArithmeticSumsAgree(a1: int, d: int, n: int)
    requires d != 0 && n >= 1
    ensures ArithmeticSum(a1, a1 + d * (n - 1), d) == Ok(ArithmeticSumN(a1, d, n))
  {
    assert d * (n - 1) == (n - 1) * d;
    ArithmeticSumIsSeriesSum(a1, d, n - 1);
  }
}

=== FILE: arguments.dfy ===
/** The range-expression parser of `utils/arguments.py`.

    A segment is matched, after stripping, against `^(\d+)(\.\.(\d+))?$`;
    `N` expands to `[N]` and `N..M` to the inclusive `[N, N+1, ..., M]`
    (empty when `N > M`). A comma-separated expression concatenates the
    expansions of its segments and sorts the result, keeping duplicates. */
module Arguments {
  import opened Errors
  import opened Text
  import opened Sorting

  /** `list(range(lo, hi + 1))`. */
  function Range(lo: int, hi: int): (r: seq<int>)
    ensures |r| == if lo <= hi then hi - lo + 1 else 0
    ensures forall i | 0 <= i < |r| :: r[i] == lo + i
    decreases hi - lo
  {
    if lo > hi then [] else [lo] + Range(lo + 1, hi)
  }

  /** Number of leading ASCII digits of `t`: what the greedy `\d+` takes. */
  function LeadingDigits(t: string): (k: nat)
    ensures k <= |t|
    ensures AllDigits(t[..k])
    ensures k < |t| ==> !IsDigit(t[k])
  {
    if |t| == 0 || !IsDigit(t[0]) then 0
    else
      var k := 1 + LeadingDigits(t[1..]);
      assert t[..k] == [t[0]] + t[1..][..k - 1];
      k
  }

  /** `t` is a bare literal `\d+`. */
  predicate LiteralShape(t: string) {
    |t| > 0 && AllDigits(t)
  }

  /** `t` is `\d+\.\.\d+` with the first digit run of length `k`. */
  predicate RangeShape(t: string, k: int) {
    && 0 < k && k + 2 < |t|
    && AllDigits(t[..k]) && t[k..k + 2] == ".." && AllDigits(t[k + 2..])
  }

  /** The stripped segment is matched in full by `^(\d+)(\.\.(\d+))?$`. */
  ghost predicate FullMatch(t: string) {
    LiteralShape(t) || exists k :: RangeShape(t, k)
  }

  /** `range_string_to_list`: a well-formed segment gives its expansion, a
      malformed one raises `ValueError`. The segment is stripped first. */
  function ParseSegment(s: string): (r: Result<seq<int>>)
    ensures r.Err? ==> r.error == ValueError
    ensures r.Ok? ==> forall i | 0 <= i < |r.value| :: r.value[i] >= 0
  {
    ParseStripped(Strip(s))
  }

  /** The match against the stripped segment `t`. */
  function ParseStripped(t: string): (r: Result<seq<int>>)
    ensures r.Err? ==> r.error == ValueError
    ensures r.Ok? ==> forall i | 0 <= i < |r.value| :: r.value[i] >= 0
  {
    var k := LeadingDigits(t);
    if k == 0 then
      Err(ValueError)
    else if k == |t| then
      // No `..M` group: the end of the range is its start.
      Ok(Range(DigitsValue(t[..k]), DigitsValue(t[..k])))
    else if k + 2 < |t| && t[k..k + 2] == ".." && AllDigits(t[k + 2..]) then
      Ok(Range(DigitsValue(t[..k]), DigitsValue(t[k + 2..])))
    else
      Err(ValueError)
  }

  /** The digit run of a range shape is exactly the leading digits. */
  lemma RangeShapeSplit(t: string, j: int)
    requires RangeShape(t, j)
    ensures j == LeadingDigits(t)
  {
    assert t[j] == t[j..j + 2][0];
  }

  /** A segment is accepted exactly when its stripped text matches the
      pattern in full. */
  lemma ParseSegmentAcceptsIffMatch(s: string)
    ensures ParseSegment(s).Ok? <==> FullMatch(Strip(s))
  {
    var t := Strip(s);
    var k := LeadingDigits(t);
    if ParseSegment(s).Ok? {
      if k == |t| {
        assert t[..k] == t;
        assert LiteralShape(t);
      } else {
        assert RangeShape(t, k);
      }
    } else {
      forall j | RangeShape(t, j) ensures false {
        RangeShapeSplit(t, j);
      }
    }
  }

  /** A stripped literal `N` yields exactly `[N]`. */
  lemma ParseSegmentLiteral(s: string)
    requires LiteralShape(Strip(s))
    ensures ParseSegment(s) == Ok([DigitsValue(Strip(s))])
  {
    var t := Strip(s);
    assert t[..|t|] == t;
    var v := DigitsValue(t);
    assert Range(v, v) == [v];
  }

  /** A stripped `N..M` yields the inclusive range from `N` to `M`. */
  lemma ParseSegmentRange(s: string, k: int)
    requires RangeShape(Strip(s), k)
    ensures ParseSegment(s) ==
      Ok(Range(DigitsValue(Strip(s)[..k]), DigitsValue(Strip(s)[k + 2..])))
  {
    RangeShapeSplit(Strip(s), k);
  }

  /** The loop `for part in parts: values.extend(...)` over the segment
      results in order: the first error is raised, and otherwise the
      expansions are concatenated. */
  function Concat(rs: seq<Result<seq<int>>>): Result<seq<int>> {
    if |rs| == 0 then Ok([])
    else
      var head :- rs[0];
      var tail :- Concat(rs[1..]);
      Ok(head + tail)
  }

  /** Total number of values in the successful results. */
  ghost function Size(rs: seq<Result<seq<int>>>): nat {
    if |rs| == 0 then 0
    else (if rs[0].Ok? then |rs[0].value| else 0) + Size(rs[1..])
  }

  /** The loop succeeds exactly when every result does; a failing loop
      raises the error of some result. */
  lemma {:induction false} ConcatOkIff(rs: seq<Result<seq<int>>>)
    ensures Concat(rs).Ok? <==> forall i | 0 <= i < |rs| :: rs[i].Ok?
    ensures Concat(rs).Err? ==> exists i | 0 <= i < |rs| :: rs[i] == Err(Concat(rs).error)
  {
    if |rs| > 0 {
      ConcatOkIff(rs[1..]);
      assert forall i | 1 <= i < |rs| :: rs[i] == rs[1..][i - 1];
    }
  }

  /** A successful loop collects as many values as the results hold. */
  lemma {:induction false} ConcatSize(rs: seq<Result<seq<int>>>)
    ensures Concat(rs).Ok? ==> |Concat(rs).value| == Size(rs)
  {
    if |rs| > 0 {
      ConcatSize(rs[1..]);
    }
  }

  /** A successful loop collects exactly the values of the results. */
  lemma {:induction false} ConcatMembers(rs: seq<Result<seq<int>>>, x: int)
    requires Concat(rs).Ok?
    ensures x in Concat(rs).value <==> exists i | 0 <= i < |rs| :: rs[i].Ok? && x in rs[i].value
  {
    if |rs| > 0 {
      var tail := rs[1..];
      ConcatMembers(tail, x);
      if x in Concat(tail).value {
        var i :| 0 <= i < |tail| && tail[i].Ok? && x in tail[i].value;
        assert tail[i] == rs[i + 1];
      }
      if exists i | 0 <= i < |rs| :: rs[i].Ok? && x in rs[i].value {
        var i :| 0 <= i < |rs| && rs[i].Ok? && x in rs[i].value;
        if i > 0 {
          assert rs[i] == tail[i - 1];
        }
      }
    }
  }

  /** The result of every segment, in order. */
  function Segments(parts: seq<string>): (rs: seq<Result<seq<int>>>)
    ensures |rs| == |parts|
    ensures forall i | 0 <= i < |parts| :: rs[i] == ParseSegment(parts[i])
  {
    seq(|parts|, i requires 0 <= i < |parts| => ParseSegment(parts[i]))
  }

  /** Total number of values the segments expand to. */
  ghost function ExpansionSize(parts: seq<string>): nat {
    Size(Segments(parts))
  }

  /** Parses every segment in order; the first malformed one raises. */
  function ParseSegments(parts: seq<string>): (r: Result<seq<int>>)
    ensures r.Ok? <==> forall i | 0 <= i < |parts| :: ParseSegment(parts[i]).Ok?
    ensures r.Err? ==> r.error == ValueError
    ensures r.Ok? ==> |r.value| == ExpansionSize(parts)
  {
    var rs := Segments(parts);
    ConcatOkIff(rs);
    ConcatSize(rs);
    Concat(rs)
  }

  /** Every value of every segment appears in the concatenation, and only
      those values do. */
  lemma ParseSegmentsMembers(parts: seq<string>, x: int)
    requires ParseSegments(parts).Ok?
    ensures x in ParseSegments(parts).value <==>
      exists i | 0 <= i < |parts| :: x in ParseSegment(parts[i]).value
  {
    var rs := Segments(parts);
    ConcatMembers(rs, x);
  }

  /** `extended_range_string_to_list`: the sorted concatenation of the
      expansions of the comma-separated segments. */
  function ExtendedRange(s: string): (r: Result<seq<int>>)
    ensures r.Ok? <==> forall p | p in Split(s, ',') :: ParseSegment(p).Ok?
    ensures r.Err? ==> r.error == ValueError
    ensures r.Ok? ==> Sorted(r.value)
    ensures r.Ok? ==> multiset(r.value) == multiset(ParseSegments(Split(s, ',')).value)
  {
    var values :- ParseSegments(Split(s, ','));
    Ok(Sort(values))
  }

  /** The sorted result of a successful parse is the only sorted
      arrangement of the concatenated expansions. */
  lemma ExtendedRangeIsSortedConcatenation(s: string, sorted: seq<int>)
    requires ExtendedRange(s).Ok?
    requires Sorted(sorted)
    requires multiset(sorted) == multiset(ParseSegments(Split(s, ',')).value)
    ensures ExtendedRange(s).value == sorted
  {
    SortedPermutationUnique(ExtendedRange(s).value, sorted);
  }

  /** White space around a segment is ignored. */
  lemma ParseSegmentIgnoresPadding(pre: string, s: string, post: string)
    requires forall i | 0 <= i < |pre| :: IsSpace(pre[i])
    requires forall i | 0 <= i < |post| :: IsSpace(post[i])
    ensures ParseSegment(pre + Strip(s) + post) == ParseSegment(s)
  {
    StripPadded(pre, Strip(s), post);
    StripIdempotent(s);
  }

  /** A text that starts and ends with a digit is its own stripped form. */
  lemma StripDigitEnds(t: string)
    requires |t| > 0 && IsDigit(t[0]) && IsDigit(t[|t| - 1])
    ensures Strip(t) == t
  {
    StripClean(t);
  }

  /** A literal `N` yields exactly `[N]`. */
  lemma ParseLiteral(a: string)
    requires LiteralShape(a)
    ensures ParseSegment(a) == Ok([DigitsValue(a)])
  {
    StripClean(a);
    ParseSegmentLiteral(a);
  }

  /** `N..M` yields the inclusive range, empty and without error when
      `N > M`. */
  lemma ParseRange(a: string, b: string)
    requires LiteralShape(a) && LiteralShape(b)
    ensures ParseSegment(a + ".." + b) == Ok(Range(DigitsValue(a), DigitsValue(b)))
    ensures DigitsValue(a) > DigitsValue(b) ==> ParseSegment(a + ".." + b) == Ok([])
  {
    var t := a + ".." + b;
    StripDigitEnds(t);
    assert t[..|a|] == a && t[|a| + 2..] == b;
    assert RangeShape(t, |a|);
    ParseSegmentRange(t, |a|);
  }

  /** Malformed segments are rejected: letters, ... */
  lemma RejectsLetters()
    ensures ParseSegment("abc") == Err(ValueError)
  {
    RejectedExample("abc", 0);
  }

  /** ... the empty segment, ... */
  lemma RejectsEmpty()
    ensures ParseSegment("") == Err(ValueError)
  {
    RejectedExample("", 0);
  }

  /** ... a range without its end, ... */
  lemma RejectsOpenRange()
    ensures ParseSegment("1..") == Err(ValueError)
  {
    var t := "1..";
    assert t[..1] == "1" && !IsDigit(t[1]) && !IsSpace(t[0]) && !IsSpace(t[2]);
    RejectedExample(t, 1);
  }

  /** ... and a range with two `..`. */
  lemma RejectsChainedRange()
    ensures ParseSegment("1..2..3") == Err(ValueError)
  {
    var u := "1..2..3";
    assert u[..1] == "1" && !IsDigit(u[1]) && !IsSpace(u[0]) && !IsSpace(u[6]);
    assert !AllDigits(u[3..]) by { assert u[3..][1] == '.'; }
    RejectedExample(u, 1);
  }

  /** Rejection of a text without surrounding white space whose first `k`
      characters are its only leading digits, and that is neither a bare
      literal nor followed by `..` and a digit run. */
  lemma RejectedExample(t: string, k: nat)
    requires |t| > 0 ==> !IsSpace(t[0]) && !IsSpace(t[|t| - 1])
    requires k <= |t| && AllDigits(t[..k]) && (k < |t| ==> !IsDigit(t[k]))
    requires k == 0 || (k < |t| && !(k + 2 < |t| && t[k..k + 2] == ".." && AllDigits(t[k + 2..])))
    ensures ParseSegment(t) == Err(ValueError)
  {
    StripClean(t);
    LeadingDigitsUnique(t, k);
  }

  /** The leading digit run is the only digit prefix followed by a
      non-digit or the end. */
  lemma {:induction false} LeadingDigitsUnique(t: string, k: nat)
    requires k <= |t| && AllDigits(t[..k]) && (k < |t| ==> !IsDigit(t[k]))
    ensures LeadingDigits(t) == k
  {
    if k > 0 {
      assert IsDigit(t[..k][0]);
      assert t[1..][..k - 1] == t[..k][1..];
      LeadingDigitsUnique(t[1..], k - 1);
    }
  }

  /** One malformed segment anywhere makes the whole expression raise. */
  lemma OneBadSegmentSpoilsAll(s: string, i: int)
    requires 0 <= i < |Split(s, ',')|
    requires ParseSegment(Split(s, ',')[i]).Err?
    ensures ExtendedRange(s) == Err(ValueError)
  {
  }
}

=== FILE: arguments_examples.dfy ===
/** The documented examples of the range-expression parser, worked out. */
module ArgumentsExamples {
  import opened Errors
  import opened Text
  import opened Sorting
  import opened Arguments

  /** A segment `"a..b"` of literals with the values `lo` and `hi`
      expands to their range. */
  lemma RangeSegment(p: string, a: string, b: string, lo: int, hi: int)
    requires LiteralShape(a) && LiteralShape(b) && p == a + ".." + b
    requires DigitsValue(a) == lo && DigitsValue(b) == hi
    ensures ParseSegment(p) == Ok(Range(lo, hi))
  {
    ParseRange(a, b);
  }

  /** A literal segment with the value `v` expands to `[v]`. */
  lemma LiteralSegment(p: string, v: int)
    requires LiteralShape(p) && DigitsValue(p) == v
    ensures ParseSegment(p) == Ok([v])
  {
    ParseLiteral(p);
  }

  /** A two-segment expression with segments `p` and `q` expands to the
      sorted arrangement of both expansions. */
  lemma TwoSegments(p: string, q: string, vp: seq<int>, vq: seq<int>, sorted: seq<int>)
    requires ',' !in p && ',' !in q
    requires ParseSegment(p) == Ok(vp) && ParseSegment(q) == Ok(vq)
    requires Sorted(sorted) && multiset(sorted) == multiset(vp + vq)
    ensures ExtendedRange(p + "," + q) == Ok(sorted)
  {
    var s := p + "," + q;
    SplitTwo(p, q);
    ParseTwo(p, q, vp, vq);
    ExtendedRangeIsSortedConcatenation(s, sorted);
  }

  lemma SplitTwo(p: string, q: string)
    requires ',' !in p && ',' !in q
    ensures Split(p + "," + q, ',') == [p, q]
  {
    var s := p + "," + q;
    assert IndexOf(s, ',') == |p| by {
      assert s[|p|] == ',';
      forall i | 0 <= i < |p| ensures s[i] != ',' { assert s[i] == p[i]; }
    }
    assert s[..|p|] == p && s[|p| + 1..] == q;
    SplitNoSeparator(q, ',');
  }

  lemma ParseTwo(p: string, q: string, vp: seq<int>, vq: seq<int>)
    requires ParseSegment(p) == Ok(vp) && ParseSegment(q) == Ok(vq)
    ensures ParseSegments([p, q]) == Ok(vp + vq)
  {
    assert Segments([p, q]) == [Ok(vp), Ok(vq)];
    ConcatTwo(vp, vq);
  }

  lemma ConcatTwo(a: seq<int>, b: seq<int>)
    ensures Concat([Ok(a), Ok(b)]) == Ok(a + b)
  {
    var one: seq<Result<seq<int>>> := [Ok(b)];
    assert one[1..] == [];
    assert b + [] == b;
    assert Concat(one) == Ok(b);
    assert [Ok(a), Ok(b)][1..] == one;
  }

  /** The segment `"1..3"` expands to `[1, 2, 3]`. */
  lemma SegmentOneToThree(p: string)
    requires p == "1..3"
    ensures ParseSegment(p) == Ok([1, 2, 3])
  {
    RangeSegment(p, "1", "3", 1, 3);
    RangeOneToThree();
  }

  /** The segment `"4..6"` expands to `[4, 5, 6]`. */
  lemma SegmentFourToSix(p: string)
    requires p == "4..6"
    ensures ParseSegment(p) == Ok([4, 5, 6])
  {
    RangeSegment(p, "4", "6", 4, 6);
    RangeFourToSix();
  }

  /** The segment `"5..7"` expands to `[5, 6, 7]`. */
  lemma SegmentFiveToSeven(p: string)
    requires p == "5..7"
    ensures ParseSegment(p) == Ok([5, 6, 7])
  {
    RangeSegment(p, "5", "7", 5, 7);
    RangeFiveToSeven();
  }

  /** The segment `"5"` expands to `[5]`. */
  lemma SegmentFive(p: string)
    requires p == "5"
    ensures ParseSegment(p) == Ok([5])
  {
    LiteralSegment(p, 5);
  }

  lemma RangeOneToThree()
    ensures Range(1, 3) == [1, 2, 3]
  {
  }

  lemma RangeFourToSix()
    ensures Range(4, 6) == [4, 5, 6]
  {
  }

  lemma RangeFiveToSeven()
    ensures Range(5, 7) == [5, 6, 7]
  {
  }

  /** Two segments whose expansions are already in order, one after the
      other, give their concatenation. */
  lemma TwoSegmentsInOrder(p: string, q: string, vp: seq<int>, vq: seq<int>)
    requires ',' !in p && ',' !in q
    requires ParseSegment(p) == Ok(vp) && ParseSegment(q) == Ok(vq)
    requires Sorted(vp + vq)
    ensures ExtendedRange(p + "," + q) == Ok(vp + vq)
  {
    TwoSegments(p, q, vp, vq, vp + vq);
  }

  /** Two segments whose expansions are in order the other way round give
      the second expansion followed by the first. */
  lemma TwoSegmentsSwapped(p: string, q: string, vp: seq<int>, vq: seq<int>)
    requires ',' !in p && ',' !in q
    requires ParseSegment(p) == Ok(vp) && ParseSegment(q) == Ok(vq)
    requires Sorted(vq + vp)
    ensures ExtendedRange(p + "," + q) == Ok(vq + vp)
  {
    assert multiset(vq + vp) == multiset(vp + vq);
    TwoSegments(p, q, vp, vq, vq + vp);
  }

  lemma SortedOneToThreeAndFive()
    ensures Sorted([1, 2, 3] + [5]) && [1, 2, 3] + [5] == [1, 2, 3, 5]
  {
  }

  lemma SortedOneToThreeAndFiveToSeven()
    ensures Sorted([1, 2, 3] + [5, 6, 7]) && [1, 2, 3] + [5, 6, 7] == [1, 2, 3, 5, 6, 7]
  {
  }

  lemma SortedOneToSix()
    ensures Sorted([1, 2, 3] + [4, 5, 6]) && [1, 2, 3] + [4, 5, 6] == [1, 2, 3, 4, 5, 6]
  {
  }

  /** The documented example `"1..3,5"` gives `[1, 2, 3, 5]`. */
  lemma ExampleRangeAndLiteral(p: string, q: string)
    requires p == "1..3" && q == "5"
    ensures ExtendedRange(p + "," + q) == Ok([1, 2, 3, 5])
  {
    NoCommas(p, q);
    SegmentOneToThree(p);
    SegmentFive(q);
    SortedOneToThreeAndFive();
    TwoSegmentsInOrder(p, q, [1, 2, 3], [5]);
  }

  /** The documented example `"1..3,5..7"` gives `[1, 2, 3, 5, 6, 7]`. */
  lemma ExampleTwoRanges(p: string, q: string)
    requires p == "1..3" && q == "5..7"
    ensures ExtendedRange(p + "," + q) == Ok([1, 2, 3, 5, 6, 7])
  {
    NoCommas(p, q);
    SegmentOneToThree(p);
    SegmentFiveToSeven(q);
    SortedOneToThreeAndFiveToSeven();
    TwoSegmentsInOrder(p, q, [1, 2, 3], [5, 6, 7]);
  }

  /** The documented example `"4..6,1..3"` gives `[1, ..., 6]`: the result is
      sorted, not in segment order. */
  lemma ExampleOutOfOrderRanges(p: string, q: string)
    requires p == "4..6" && q == "1..3"
    ensures ExtendedRange(p + "," + q) == Ok([1, 2, 3, 4, 5, 6])
  {
    NoCommas(p, q);
    SegmentFourToSix(p);
    SegmentOneToThree(q);
    SortedOneToSix();
    TwoSegmentsSwapped(p, q, [4, 5, 6], [1, 2, 3]);
  }

  /** The example segments contain no comma. */
  lemma NoCommas(p: string, q: string)
    requires p in ["1..3", "4..6"] && q in ["5", "5..7", "1..3"]
    ensures ',' !in p && ',' !in q
  {
  }
}

=== FILE: classes.dfy ===
/** The `Problem` base class of `classes.py`: discovery of the implemented
    versions from a directory listing, and membership and dispatch on the
    resulting map.

    The directory listing is a sequence of file names in the order the
    file system returns them. Importing `solutions.<problem>.<version>` and
    reading its `solution` attribute is the parameter `load`, which either
    yields the solution or fails with the exception the import raises. */
module Classes {
  import opened Errors
  import opened Naming

  /** `s[..n].rfind(c)`: the last index below `n` holding `c`, or -1. */
  function RFind(s: string, c: char, n: nat): (k: int)
    requires n <= |s|
    ensures -1 <= k < n
    ensures k >= 0 ==> s[k] == c
    ensures forall i | k < i < n :: s[i] != c
    decreases n
  {
    if n == 0 then -1
    else if s[n - 1] == c then n - 1
    else RFind(s, c, n - 1)
  }

  /** `os.path.basename(p)`: what follows the last `/`. */
  function Basename(p: string): (r: string)
    ensures '/' !in r
    ensures |r| <= |p| && r == p[|p| - |r|..]
  {
    p[RFind(p, '/', |p|) + 1..]
  }

  /** `os.path.splitext(p)[0]`: `p` without its extension. The extension
      starts at the last dot of the last path component, unless only dots
      precede that dot in the component, as in `.bashrc`. */
  function StemOf(p: string): (r: string)
    ensures |r| <= |p| && r == p[..|r|]
    ensures |r| < |p| ==> p[|r|] == '.' && '.' !in p[|r| + 1..]
  {
    var sep := RFind(p, '/', |p|);
    var dot := RFind(p, '.', |p|);
    if dot > sep && exists i | sep < i < dot :: p[i] != '.' then p[..dot]
    else p
  }

  /** The key a version file is registered under: its base name without its
      extension. */
  function VersionKey(f: string): string {
    StemOf(Basename(f))
  }

  /** A dictionary with Python's insertion order: `keys` lists the keys in
      the order they were first inserted. */
  datatype Dict<V> = Dict(keys: seq<string>, table: map<string, V>) {

    ghost predicate Valid() {
      && (forall i, j | 0 <= i < j < |keys| :: keys[i] != keys[j])
      && (forall k :: k in table <==> k in keys)
    }

    /** `d[k] = v`: a new key goes to the end, an existing key keeps its
        place and gets the new value. */
    function Put(k: string, v: V): (d: Dict<V>)
      requires Valid()
      ensures d.Valid()
      ensures d.table == table[k := v]
      ensures d.keys == if k in table then keys else keys + [k]
    {
      if k in table then Dict(keys, table[k := v]) else Dict(keys + [k], table[k := v])
    }
  }

  function EmptyDict<V>(): (d: Dict<V>)
    ensures d.Valid() && d.keys == [] && d.table == map[]
  {
    Dict([], map[])
  }

  /** The listed files the version file pattern matches, in listing order. */
  function VersionFiles(files: seq<string>): (r: seq<string>)
    ensures forall f :: f in r <==> f in files && Match(VersionFile, f)
  {
    if |files| == 0 then []
    else if Match(VersionFile, files[0]) then [files[0]] + VersionFiles(files[1..])
    else VersionFiles(files[1..])
  }

  /** The import of `files[i]` fails with `e`, and every import before it
      succeeds. */
  ghost predicate FirstFailure<S>(problemName: string, files: seq<string>,
                                  load: (string, string) -> Result<S>, i: int, e: Error) {
    && 0 <= i < |files|
    && load(problemName, VersionKey(files[i])) == Err(e)
    && forall j | 0 <= j < i :: load(problemName, VersionKey(files[j])).Ok?
  }

  /** A first failure in the rest of the listing, after a successful first
      import, is the first failure of the whole listing. */
  lemma FirstFailureShift<S>(problemName: string, files: seq<string>,
                             load: (string, string) -> Result<S>, i: int, e: Error)
    requires |files| > 0 && load(problemName, VersionKey(files[0])).Ok?
    requires FirstFailure(problemName, files[1..], load, i, e)
    ensures FirstFailure(problemName, files, load, i + 1, e)
  {
    assert forall j | 1 <= j < i + 1 :: files[j] == files[1..][j - 1];
  }

  /** Inserts the version files in order, importing each; the first failed
      import aborts the discovery with its error. */
  function Register<S>(d: Dict<S>, problemName: string, files: seq<string>,
                       load: (string, string) -> Result<S>): (r: Result<Dict<S>>)
    requires d.Valid()
    ensures r.Ok? ==> r.value.Valid()
    ensures r.Ok? <==> forall f | f in files :: load(problemName, VersionKey(f)).Ok?
    ensures r.Err? ==> exists i :: FirstFailure(problemName, files, load, i, r.error)
    decreases |files|
  {
    if |files| == 0 then Ok(d)
    else
      var name := VersionKey(files[0]);
      var imported := load(problemName, name);
      if imported.Err? then
        assert FirstFailure(problemName, files, load, 0, imported.error);
        Err(imported.error)
      else
        var rest := Register(d.Put(name, imported.value), problemName, files[1..], load);
        assert forall f | f in files[1..] :: f in files;
        assert rest.Err? ==> exists i :: FirstFailure(problemName, files, load, i, rest.error) by {
          if rest.Err? {
            var i :| FirstFailure(problemName, files[1..], load, i, rest.error);
            FirstFailureShift(problemName, files, load, i, rest.error);
          }
        }
        rest
  }

  /** `Problem.get_implemented_versions` for the directory `problemName`
      whose listing is `files`. */
  function ImplementedVersions<S>(problemName: string, files: seq<string>,
                                 load: (string, string) -> Result<S>): (r: Result<Dict<S>>)
    ensures r.Ok? ==> r.value.Valid()
    ensures r.Ok? <==>
      forall f | f in files && Match(VersionFile, f) :: load(problemName, VersionKey(f)).Ok?
    ensures r.Err? ==> exists i :: FirstFailure(problemName, VersionFiles(files), load, i, r.error)
  {
    Register(EmptyDict(), problemName, VersionFiles(files), load)
  }

  /** Every entry of `d` holds what importing its key yields. */
  ghost predicate Loaded<S>(d: Dict<S>, problemName: string, load: (string, string) -> Result<S>) {
    forall k | k in d.table :: load(problemName, k) == Ok(d.table[k])
  }

  /** The key order after inserting the keys of `files` into a dictionary
      whose keys are `keys`: each new key is appended once, at its first
      occurrence. */
  function NewKeys(keys: seq<string>, files: seq<string>): seq<string>
    decreases |files|
  {
    if |files| == 0 then keys
    else
      var k := VersionKey(files[0]);
      NewKeys(if k in keys then keys else keys + [k], files[1..])
  }

  /** Registration adds exactly the stems of the files, each mapped to what
      importing it yields, with the keys in order of first occurrence. */
  lemma RegisterContents<S>(d: Dict<S>, problemName: string, files: seq<string>,
                            load: (string, string) -> Result<S>)
    requires d.Valid() && Loaded(d, problemName, load)
    requires Register(d, problemName, files, load).Ok?
    ensures var r := Register(d, problemName, files, load).value;
      && r.keys == NewKeys(d.keys, files)
      && (forall k :: k in r.table <==> k in d.table || exists f | f in files :: VersionKey(f) == k)
      && Loaded(r, problemName, load)
  {
    RegisterKeys(d, problemName, files, load);
    RegisterTable(d, problemName, files, load);
    RegisterLoaded(d, problemName, files, load);
    forall k
      ensures k in StemsOf(files) <==> exists f | f in files :: VersionKey(f) == k
    {
      StemsOfMembers(files, k);
    }
  }

  lemma {:induction false} RegisterKeys<S>(d: Dict<S>, problemName: string, files: seq<string>,
                                          load: (string, string) -> Result<S>)
    requires d.Valid()
    requires Register(d, problemName, files, load).Ok?
    ensures Register(d, problemName, files, load).value.keys == NewKeys(d.keys, files)
    decreases |files|
  {
    if |files| > 0 {
      var name := VersionKey(files[0]);
      RegisterKeys(d.Put(name, load(problemName, name).value), problemName, files[1..], load);
    }
  }

  /** The stems of `files`. */
  ghost function StemsOf(files: seq<string>): set<string> {
    if |files| == 0 then {} else {VersionKey(files[0])} + StemsOf(files[1..])
  }

  lemma {:induction false} StemsOfMembers(files: seq<string>, k: string)
    ensures k in StemsOf(files) <==> exists f | f in files :: VersionKey(f) == k
  {
    if |files| > 0 {
      StemsOfMembers(files[1..], k);
      assert forall f | f in files[1..] :: f in files;
      assert forall f | f in files :: f == files[0] || f in files[1..];
    }
  }

  lemma {:induction false} RegisterTable<S>(d: Dict<S>, problemName: string, files: seq<string>,
                                           load: (string, string) -> Result<S>)
    requires d.Valid()
    requires Register(d, problemName, files, load).Ok?
    ensures Register(d, problemName, files, load).value.table.Keys == d.table.Keys + StemsOf(files)
    decreases |files|
  {
    if |files| > 0 {
      var name := VersionKey(files[0]);
      RegisterTable(d.Put(name, load(problemName, name).value), problemName, files[1..], load);
    }
  }

  lemma {:induction false} RegisterLoaded<S>(d: Dict<S>, problemName: string, files: seq<string>,
                                            load: (string, string) -> Result<S>)
    requires d.Valid() && Loaded(d, problemName, load)
    requires Register(d, problemName, files, load).Ok?
    ensures Loaded(Register(d, problemName, files, load).value, problemName, load)
    decreases |files|
  {
    if |files| > 0 {
      var name := VersionKey(files[0]);
      RegisterLoaded(d.Put(name, load(problemName, name).value), problemName, files[1..], load);
    }
  }

  /** The discovered keys are exactly the stems of the listed files the
      version file pattern matches; each is mapped to the solution its
      import yields, and the keys keep the order of first occurrence. A
      later file with the same stem overwrites the earlier entry; since
      both import the same module, the value is the same. */
  lemma ImplementedVersionsContents<S>(problemName: string, files: seq<string>,
                                      load: (string, string) -> Result<S>)
    requires ImplementedVersions(problemName, files, load).Ok?
    ensures var r := ImplementedVersions(problemName, files, load).value;
      && r.keys == NewKeys([], VersionFiles(files))
      && (forall k :: k in r.table <==>
            exists f | f in files :: Match(VersionFile, f) && VersionKey(f) == k)
      && (forall k | k in r.table :: load(problemName, k) == Ok(r.table[k]))
  {
    RegisterContents(EmptyDict(), problemName, VersionFiles(files), load);
  }

  /** A loaded `solution` function: the number of positional parameters it
      declares, and what it computes from the problem's arguments, which may
      raise. A second parameter, `resources`, is bound inside `call`. */
  datatype Solution<!A, R> = Solution(arity: nat, call: Option<A> -> Result<R>)

  /** A problem: its parsed arguments and its implemented versions. */
  datatype Problem<!A, R> = Problem(
    args: Option<A>,
    name: string,
    summary: string,
    desc: string,
    versions: Dict<Solution<A, R>>)

  /** The base constructor: nothing parsed, nothing implemented. */
  function NewProblem<A, R>(): Problem<A, R> {
    Problem(None, "", "", "", EmptyDict())
  }

  /** The base `create_parser` must be overridden: it always raises. */
  function CreateParser<A, R>(p: Problem<A, R>): (r: Result<()>)
    ensures r == Err(NotImplementedError)
  {
    Err(NotImplementedError)
  }

  /** `Problem.is_version_implemented`. */
  function IsVersionImplemented<A, R>(p: Problem<A, R>, version: string): (b: bool)
    requires p.versions.Valid()
    ensures b <==> version in p.versions.keys
  {
    version in p.versions.table
  }

  /** `Problem.run_solution`: the solution registered under `version` called
      with the arguments alone. A missing version raises `KeyError`; a
      solution that declares any other number of parameters than one raises
      `TypeError` at the call; otherwise whatever the solution returns or
      raises is passed on. */
  function RunSolution<A, R>(p: Problem<A, R>, version: string): (r: Result<R>)
    requires p.versions.Valid()
    ensures !IsVersionImplemented(p, version) ==> r == Err(KeyError)
    ensures IsVersionImplemented(p, version) && p.versions.table[version].arity != 1 ==> r == Err(TypeError)
    ensures IsVersionImplemented(p, version) && p.versions.table[version].arity == 1 ==>
      r == p.versions.table[version].call(p.args)
  {
    if version !in p.versions.table then Err(KeyError)
    else
      var solution := p.versions.table[version];
      if solution.arity != 1 then Err(TypeError) else solution.call(p.args)
  }

  /** `run_solution` as evidently intended: the solution is called with the
      parameters it declares, so its own result is passed on whatever its
      arity. */
  function RunSolutionCorrected<A, R>(p: Problem<A, R>, version: string): (r: Result<R>)
    requires p.versions.Valid()
    ensures !IsVersionImplemented(p, version) ==> r == Err(KeyError)
    ensures IsVersionImplemented(p, version) ==> r == p.versions.table[version].call(p.args)
  {
    if version !in p.versions.table then Err(KeyError)
    else p.versions.table[version].call(p.args)
  }

  /** A registered solution that declares two parameters is never run: the
      call raises `TypeError`, where the corrected call yields the
      solution's own result. */
  lemma TwoParameterSolutionRaises<A, R>(p: Problem<A, R>, version: string)
    requires p.versions.Valid() && version in p.versions.table
    requires p.versions.table[version].arity == 2
    ensures RunSolution(p, version) == Err(TypeError)
    ensures RunSolutionCorrected(p, version) == p.versions.table[version].call(p.args)
  {
  }

  /** For a solution that declares one parameter the two calls agree. */
  lemma OneParameterAgrees<A, R>(p: Problem<A, R>, version: string)
    requires p.versions.Valid()
    requires version in p.versions.table ==> p.versions.table[version].arity == 1
    ensures RunSolution(p, version) == RunSolutionCorrected(p, version)
  {
  }

  /** Running a version of a problem whose map was discovered from a
      directory listing: the version is found exactly when some matching
      file has it as its stem, and then the solution its import yields is
      called. */
  lemma RunDiscovered<A, R>(p: Problem<A, R>, problemName: string, files: seq<string>,
                            load: (string, string) -> Result<Solution<A, R>>, version: string)
    requires ImplementedVersions(problemName, files, load).Ok?
    requires p.versions == ImplementedVersions(problemName, files, load).value
    ensures IsVersionImplemented(p, version) <==>
      exists f | f in files :: Match(VersionFile, f) && VersionKey(f) == version
    ensures IsVersionImplemented(p, version) ==>
      && load(problemName, version).Ok?
      && var solution := load(problemName, version).value;
         RunSolution(p, version) == if solution.arity == 1 then solution.call(p.args) else Err(TypeError)
    ensures !IsVersionImplemented(p, version) ==> RunSolution(p, version) == Err(KeyError)
  {
    ImplementedVersionsContents(problemName, files, load);
  }

  /** The base class implements no version: every lookup fails. */
  lemma BaseProblemImplementsNothing<A, R>(version: string)
    ensures NewProblem<A, R>().versions.Valid()
    ensures !IsVersionImplemented(NewProblem<A, R>(), version)
    ensures RunSolution(NewProblem<A, R>(), version) == Err(KeyError)
  {
  }
}

=== FILE: errors.dfy ===
/** Failure-compatible wrappers for the exceptions the harness raises.

    Every Python exception the modelled code can raise on its own becomes an
    `Error` value; an operation that may raise returns a `Result`. */
module Errors {

  /** The exception kinds raised by the modelled code. */
  datatype Error =
    | ValueError
    | KeyError
    | IndexError
    | TypeError
    | ZeroDivisionError
    | NotImplementedError
    | AttributeError
    | ImportError
    | ModuleNotFoundError
    | StatisticsError

  datatype Option<+T> = None | Some(value: T)

  datatype Result<+T> = Ok(value: T) | Err(error: Error) {

    predicate IsFailure() {
      Err?
    }

    function PropagateFailure<U>(): Result<U>
      requires Err?
    {
      Err(error)
    }

    function Extract(): T
      requires Ok?
    {
      value
    }
  }
}

=== FILE: euler.dfy ===
/** The command-line driver `euler.py`: argument normalisation, loading a
    problem's class, and the `info`, `run` and `perf` workloads.

    Printing is modelled as the sequence of lines a workload emits, each a
    datatype value carrying the text that varies. The clock is the
    parameter `measure`, giving the duration of one timed call. Importing a
    module, reading a module attribute and listing a directory are
    parameters too. */
module Euler {
  import opened Errors
  import opened Text
  import opened Sorting
  import opened Arguments
  import opened Naming
  import opened Classes

  /** `const.PROBLEM_NAME`, `const.VERSION_NAME` and `const.PROBLEM_NUMBER`
      formatted with a number, and `const.PROBLEM_DIGITS`. The constants are
      not part of this model, so the formats are arbitrary functions; the
      lemmas that need distinct names for distinct numbers require
      `WellFormed`. */
  datatype Formats = Formats(
    problemName: int -> string,
    versionName: int -> string,
    problemNumber: int -> string,
    problemDigits: int)

  ghost predicate Injective(f: int -> string) {
    forall a, b :: f(a) == f(b) ==> a == b
  }

  ghost predicate WellFormed(fmt: Formats) {
    Injective(fmt.problemName) && Injective(fmt.versionName)
  }

  // ---------------------------------------------------------------------
  // Argument normalisation
  // ---------------------------------------------------------------------

  /** An optional command-line attribute: not defined by the chosen
      sub-command, defined but `None`, or given. */
  datatype Field<T> = Absent | NoneValue | Given(value: T)

  /** The attributes `argparse_format` looks at, as parsed. `count` has a
      default, so it is never `None`. */
  datatype RawArgs = RawArgs(count: Option<int>, problems: Field<string>, versions: Field<string>)

  /** The same attributes after `argparse_format`. */
  datatype Args = Args(count: Option<int>, problems: Field<seq<int>>, versions: Field<seq<int>>)

  /** Expands a given range expression, leaves the other cases alone. */
  function ExpandField(f: Field<string>): (r: Result<Field<seq<int>>>)
    ensures r.Ok? <==> !f.Given? || ExtendedRange(f.value).Ok?
    ensures r.Err? ==> r.error == ValueError
    ensures r.Ok? ==> (r.value.Absent? <==> f.Absent?) && (r.value.NoneValue? <==> f.NoneValue?)
    ensures r.Ok? && f.Given? ==> r.value == Given(ExtendedRange(f.value).value)
  {
    match f
    case Absent => Ok(Absent)
    case NoneValue => Ok(NoneValue)
    case Given(s) =>
      var values :- ExtendedRange(s);
      Ok(Given(values))
  }

  /** `argparse_format`: the run count is raised to at least 1, and the
      problem and version selectors that are present and not `None` are
      expanded; a malformed selector raises `ValueError`. */
  function ArgparseFormat(a: RawArgs): (r: Result<Args>)
    ensures r.Ok? <==> ExpandField(a.problems).Ok? && ExpandField(a.versions).Ok?
    ensures r.Err? ==> r.error == ValueError
    ensures r.Ok? ==> (r.value.count.Some? <==> a.count.Some?)
    ensures r.Ok? && a.count.Some? ==>
      && r.value.count.value >= 1
      && (a.count.value >= 1 ==> r.value.count.value == a.count.value)
      && (a.count.value < 1 ==> r.value.count.value == 1)
    ensures r.Ok? ==>
      r.value.problems == ExpandField(a.problems).value && r.value.versions == ExpandField(a.versions).value
  {
    var count := match a.count
      case None => None
      case Some(c) => Some(if c < 1 then 1 else c);
    var problems :- ExpandField(a.problems);
    var versions :- ExpandField(a.versions);
    Ok(Args(count, problems, versions))
  }

  // ---------------------------------------------------------------------
  // Loading a problem class
  // ---------------------------------------------------------------------

  /** The dotted path `solutions.<name>.<name>` of a problem's module. */
  function ImportPath(name: string): string {
    "solutions." + name + "." + name
  }

  /** The class name: the module name with its first letter upper-cased. */
  function ClassName(name: string): (r: string)
    requires |name| > 0
    ensures |r| == |name| && r[1..] == name[1..] && r[0] == UpperChar(name[0])
  {
    [UpperChar(name[0])] + name[1..]
  }

  /** `get_problem_class`: imports the problem's module through `modules`,
      which returns the module or the exception the import raises, and
      reads its class attribute through `attribute`. Only
      `ModuleNotFoundError` is caught, and becomes `NotImplementedError`;
      any other exception of the import passes through. An empty name fails
      on `name[0]` before anything is imported. */
  function GetProblemClass<M, C>(problem: int, fmt: Formats,
                                 modules: string -> Result<M>,
                                 attribute: (M, string) -> Option<C>): (r: Result<C>)
    ensures var name := fmt.problemName(problem);
      && (|name| == 0 ==> r == Err(IndexError))
      && (|name| > 0 && modules(ImportPath(name)) == Err(ModuleNotFoundError) ==> r == Err(NotImplementedError))
      && (|name| > 0 && modules(ImportPath(name)).Err? && modules(ImportPath(name)).error != ModuleNotFoundError ==>
            r == Err(modules(ImportPath(name)).error))
      && (|name| > 0 && modules(ImportPath(name)).Ok? ==>
            && (r.Ok? <==> attribute(modules(ImportPath(name)).value, ClassName(name)).Some?)
            && (r.Err? ==> r.error == AttributeError))
      && (r.Ok? ==>
            && |name| > 0 && modules(ImportPath(name)).Ok?
            && attribute(modules(ImportPath(name)).value, ClassName(name)) == Some(r.value))
  {
    var name := fmt.problemName(problem);
    if |name| == 0 then Err(IndexError)
    else
      var className := ClassName(name);
      match modules(ImportPath(name))
      case Err(ModuleNotFoundError) => Err(NotImplementedError)
      case Err(e) => Err(e)
      case Ok(m) =>
        match attribute(m, className)
        case None => Err(AttributeError)
        case Some(c) => Ok(c)
  }

  /** Different module names give different import paths. */
  lemma ImportPathInjective(a: string, b: string)
    ensures ImportPath(a) == ImportPath(b) ==> a == b
  {
    if ImportPath(a) == ImportPath(b) {
      assert |a| == |b|;
      assert ImportPath(a)[10..10 + |a|] == a;
      assert ImportPath(b)[10..10 + |b|] == b;
    }
  }

  /** Loading a problem's class looks at its own module only: with
      injective name formats, replacing the module of any other problem
      leaves the result unchanged. */
  lemma GetProblemClassIsolated<M, C>(problem: int, other: int, fmt: Formats,
                                      modules: string -> Result<M>, modules': string -> Result<M>,
                                      attribute: (M, string) -> Option<C>)
    requires WellFormed(fmt) && problem != other
    requires forall path | path != ImportPath(fmt.problemName(other)) :: modules'(path) == modules(path)
    ensures GetProblemClass(problem, fmt, modules', attribute) == GetProblemClass(problem, fmt, modules, attribute)
  {
    ImportPathInjective(fmt.problemName(problem), fmt.problemName(other));
    assert fmt.problemName(problem) != fmt.problemName(other);
  }

  // ---------------------------------------------------------------------
  // Version selection
  // ---------------------------------------------------------------------

  /** The versions a `run` or `perf` workload walks through: the formatted
      selector entries in selector order, or every implemented version in
      insertion order when there is no selector. */
  function SelectedVersions<A, R>(p: Problem<A, R>, versions: Option<seq<int>>, fmt: Formats): (r: seq<string>)
    ensures versions.Some? ==>
      && |r| == |versions.value|
      && forall i | 0 <= i < |r| :: r[i] == fmt.versionName(versions.value[i])
    ensures versions.None? ==> r == p.versions.keys
  {
    match versions
    case None => p.versions.keys
    case Some(vs) => seq(|vs|, i requires 0 <= i < |vs| => fmt.versionName(vs[i]))
  }

  /** With an injective version format, distinct selector entries select
      distinct versions. */
  lemma SelectedVersionsDistinct<A, R>(p: Problem<A, R>, vs: seq<int>, fmt: Formats)
    requires WellFormed(fmt)
    requires forall i, j | 0 <= i < j < |vs| :: vs[i] != vs[j]
    ensures var selected := SelectedVersions(p, Some(vs), fmt);
      forall i, j | 0 <= i < j < |selected| :: selected[i] != selected[j]
  {
    var selected := SelectedVersions(p, Some(vs), fmt);
    forall i, j | 0 <= i < j < |selected|
      ensures selected[i] != selected[j]
    {
      assert fmt.versionName(vs[i]) != fmt.versionName(vs[j]);
    }
  }

  /** One line of the `run` workload. */
  datatype RunLine<R> = NotImplementedLine(version: string) | Returned(version: string, value: R)

  /** The lines `workload_run` prints, and the exception that ended it
      early, if any. */
  datatype RunOutcome<R> = RunOutcome(lines: seq<RunLine<R>>, error: Option<Error>)

  /** The loop of `workload_run` over the selected versions: an
      unimplemented version is reported and skipped, an implemented one is
      run once, and the first solution that raises ends the workload with
      its exception. */
  function RunLines<A, R>(p: Problem<A, R>, versions: seq<string>): (o: RunOutcome<R>)
    requires p.versions.Valid()
    ensures |o.lines| <= |versions|
    ensures forall i | 0 <= i < |o.lines| :: o.lines[i].version == versions[i]
    ensures forall i | 0 <= i < |o.lines| ::
      o.lines[i].Returned? <==> IsVersionImplemented(p, versions[i])
    ensures forall i | 0 <= i < |o.lines| && o.lines[i].Returned? ::
      RunSolution(p, versions[i]) == Ok(o.lines[i].value)
    ensures o.error.None? ==> |o.lines| == |versions|
    ensures o.error.Some? ==>
      && |o.lines| < |versions| && IsVersionImplemented(p, versions[|o.lines|])
      && RunSolution(p, versions[|o.lines|]) == Err(o.error.value)
  {
    if |versions| == 0 then RunOutcome([], None)
    else
      var v := versions[0];
      if IsVersionImplemented(p, v) && RunSolution(p, v).Err? then
        RunOutcome([], Some(RunSolution(p, v).error))
      else
        var line :=
          if IsVersionImplemented(p, v) then Returned(v, RunSolution(p, v).value)
          else NotImplementedLine(v);
        var rest := RunLines(p, versions[1..]);
        var o := RunOutcome([line] + rest.lines, rest.error);
        assert forall i | 0 < i < |o.lines| ::
          o.lines[i] == rest.lines[i - 1] && versions[i] == versions[1..][i - 1];
        o
  }

  /** The run completes exactly when every selected version that is
      implemented returns; otherwise it stops at the first one that raises,
      with that exception, after every earlier implemented version
      returned. */
  lemma RunCompletesIff<A, R>(p: Problem<A, R>, versions: seq<string>)
    requires p.versions.Valid()
    ensures var o := RunLines(p, versions);
      && (o.error.None? <==>
            forall i | 0 <= i < |versions| && IsVersionImplemented(p, versions[i]) ::
              RunSolution(p, versions[i]).Ok?)
      && (o.error.Some? ==>
            forall i | 0 <= i < |o.lines| && IsVersionImplemented(p, versions[i]) ::
              RunSolution(p, versions[i]).Ok?)
  {
    var o := RunLines(p, versions);
    if o.error.None? {
      forall i | 0 <= i < |versions| && IsVersionImplemented(p, versions[i])
        ensures RunSolution(p, versions[i]).Ok?
      {
        assert o.lines[i].Returned?;
      }
    }
    forall i | 0 <= i < |o.lines| && IsVersionImplemented(p, versions[i])
      ensures RunSolution(p, versions[i]).Ok?
    {
      assert o.lines[i].Returned?;
    }
  }

  /** `workload_run` after the problem has been loaded. */
  function WorkloadRun<A, R>(p: Problem<A, R>, versions: Option<seq<int>>, fmt: Formats): (o: RunOutcome<R>)
    requires p.versions.Valid()
    ensures var selected := SelectedVersions(p, versions, fmt);
      && |o.lines| <= |selected|
      && (o.error.None? <==>
            forall i | 0 <= i < |selected| && IsVersionImplemented(p, selected[i]) ::
              RunSolution(p, selected[i]).Ok?)
      && (o.error.None? ==> |o.lines| == |selected|)
      && (o.error.Some? ==> |o.lines| < |selected| && RunSolution(p, selected[|o.lines|]) == Err(o.error.value))
      && (forall i | 0 <= i < |o.lines| :: o.lines[i].version == selected[i])
      && (forall i | 0 <= i < |o.lines| ::
            if IsVersionImplemented(p, selected[i])
            then o.lines[i].Returned? && RunSolution(p, selected[i]) == Ok(o.lines[i].value)
            else o.lines[i] == NotImplementedLine(selected[i]))
  {
    var selected := SelectedVersions(p, versions, fmt);
    RunCompletesIff(p, selected);
    RunLines(p, selected)
  }

  /** Without a selector every implemented version runs, in insertion
      order, until the first one that raises. */
  lemma RunAllVersions<A, R>(p: Problem<A, R>, fmt: Formats)
    requires p.versions.Valid()
    ensures var o := WorkloadRun(p, None, fmt);
      var keys := p.versions.keys;
      && (o.error.None? <==> forall i | 0 <= i < |keys| :: RunSolution(p, keys[i]).Ok?)
      && (o.error.None? ==> |o.lines| == |keys|)
      && (o.error.Some? ==> |o.lines| < |keys| && RunSolution(p, keys[|o.lines|]) == Err(o.error.value))
      && forall i | 0 <= i < |o.lines| ::
           RunSolution(p, keys[i]).Ok? && o.lines[i] == Returned(keys[i], RunSolution(p, keys[i]).value)
  {
    var o := WorkloadRun(p, None, fmt);
    var keys := p.versions.keys;
    assert SelectedVersions(p, None, fmt) == keys;
    AllKeysImplemented(p);
  }

  /** Every key of the version map is implemented. */
  lemma AllKeysImplemented<A, R>(p: Problem<A, R>)
    requires p.versions.Valid()
    ensures forall i | 0 <= i < |p.versions.keys| :: IsVersionImplemented(p, p.versions.keys[i])
  {
  }

  /** A version listed twice in the selector runs twice, and a version
      whose solution raises stops the run at its first occurrence. */
  lemma RepeatedVersionRunsAgain<A, R>(p: Problem<A, R>, vs: seq<int>, fmt: Formats, i: int, j: int)
    requires p.versions.Valid()
    requires 0 <= i < j < |vs| && vs[i] == vs[j]
    requires IsVersionImplemented(p, fmt.versionName(vs[i]))
    ensures var o := WorkloadRun(p, Some(vs), fmt);
      && (j < |o.lines| ==> o.lines[i].Returned? && o.lines[j] == o.lines[i])
      && (RunSolution(p, fmt.versionName(vs[i])).Err? ==> |o.lines| <= i && o.error.Some?)
  {
  }

  // ---------------------------------------------------------------------
  // Timing
  // ---------------------------------------------------------------------

  /** The durations of the timed calls of the version in position `slot`
      of the selection, in call order. The clock `measure` is keyed by
      position and iteration, so a version selected twice is timed afresh. */
  function Measurements(slot: nat, count: nat, measure: (nat, nat) -> int): (ms: seq<int>)
    ensures |ms| == count
    ensures forall i | 0 <= i < count :: ms[i] == measure(slot, i)
  {
    seq(count, i requires 0 <= i < count => measure(slot, i))
  }

  /** `for iteration in range(count)`: each iteration runs the solution and
      inserts the duration of the call with `bisect.insort`. A solution that
      raises ends the loop at once with its exception. */
  method CollectTimings<A, R>(p: Problem<A, R>, version: string, slot: nat, count: int, measure: (nat, nat) -> int)
    returns (timings: seq<int>, error: Option<Error>)
    requires p.versions.Valid()
    ensures error.Some? <==> count > 0 && RunSolution(p, version).Err?
    ensures error.Some? ==> error.value == RunSolution(p, version).error
    ensures error.None? && count <= 0 ==> timings == []
    ensures error.None? && count > 0 ==> |timings| == count
    ensures error.None? ==> Sorted(timings)
    ensures error.None? && count > 0 ==> multiset(timings) == multiset(Measurements(slot, count, measure))
  {
    timings := [];
    error := None;
    if count <= 0 {
      return;
    }
    var ms := Measurements(slot, count, measure);
    var iteration := 0;
    while iteration < count
      invariant 0 <= iteration <= count
      invariant |timings| == iteration
      invariant Sorted(timings)
      invariant multiset(timings) == multiset(ms[..iteration])
      invariant iteration > 0 ==> RunSolution(p, version).Ok?
    {
      var r := RunSolution(p, version);
      if r.Err? {
        error := Some(r.error);
        return;
      }
      assert ms[..iteration + 1] == ms[..iteration] + [ms[iteration]];
      timings := InsertSorted(timings, measure(slot, iteration));
      iteration := iteration + 1;
    }
    assert ms[..count] == ms;
  }

  /** The timings are the measurements in ascending order, so the first is
      the fastest call and the last the slowest. */
  lemma TimingsAreSortedMeasurements(timings: seq<int>, ms: seq<int>)
    requires Sorted(timings) && multiset(timings) == multiset(ms)
    ensures timings == Sort(ms)
    ensures |ms| > 0 ==> timings[0] in ms && forall m | m in ms :: timings[0] <= m
    ensures |ms| > 0 ==> timings[|timings| - 1] in ms && forall m | m in ms :: m <= timings[|timings| - 1]
  {
    SortedPermutationUnique(timings, Sort(ms));
    if |ms| > 0 {
      assert |timings| == |ms| by {
        assert |multiset(timings)| == |multiset(ms)|;
      }
      forall m | m in ms
        ensures timings[0] <= m <= timings[|timings| - 1]
      {
        assert m in multiset(timings);
      }
      assert timings[0] in multiset(ms);
      assert timings[|timings| - 1] in multiset(ms);
    }
  }

  /** The statistics `perf` prints for a version that do not need floating
      point. */
  datatype Report = Report(timings: seq<int>, minimum: int, maximum: int, total: int)

  /** What `perf` prints for one selected version: a not-implemented line,
      or the version's title line followed by its report. The report is
      missing when timing the version raised after the title was printed. */
  datatype PerfEntry =
    | PerfNotImplemented(version: string)
    | PerfTimed(version: string, title: string, report: Option<Report>)

  /** A report holds at least two timings: the measurements of the version
      in position `slot`, in ascending order, with their extremes and their
      total. */
  ghost predicate FaithfulReport(r: Report, slot: nat, count: int, measure: (nat, nat) -> int) {
    var t := r.timings;
    && count >= 2 && |t| == count && Sorted(t)
    && multiset(t) == multiset(Measurements(slot, count, measure))
    && r.minimum == t[0] && r.maximum == t[|t| - 1] && r.total == Sum(t)
  }

  /** The title line of a timed entry is the version's `VERSION_NAME`,
      indented by two spaces, as `get_version_name` read it. */
  ghost predicate Titled(e: PerfEntry, problemName: string, versionTitle: (string, string) -> Result<string>)
    requires e.PerfTimed?
  {
    && versionTitle(problemName, e.version).Ok?
    && e.title == "  " + versionTitle(problemName, e.version).value
  }

  /** How timing an implemented version ends the workload, if it does: with
      no timed call `timings[0]` raises `IndexError`; a solution that raises
      ends it with its exception; with a single timing `statistics.stdev`
      raises `StatisticsError`. */
  function TimingError<A, R>(p: Problem<A, R>, version: string, count: int): Option<Error>
    requires p.versions.Valid()
  {
    if count <= 0 then Some(IndexError)
    else if RunSolution(p, version).Err? then Some(RunSolution(p, version).error)
    else if count == 1 then Some(StatisticsError)
    else None
  }

  /** How an implemented version ends the workload, if it does: reading its
      title raises first, before anything is timed; otherwise as timing it
      does. */
  function PerfError<A, R>(p: Problem<A, R>, problemName: string, version: string, count: int,
                           versionTitle: (string, string) -> Result<string>): Option<Error>
    requires p.versions.Valid()
  {
    if versionTitle(problemName, version).Err? then Some(versionTitle(problemName, version).error)
    else TimingError(p, version, count)
  }

  /** What `perf` prints in full for `version` in position `slot`: a
      not-implemented line, or its title line and a faithful report. */
  ghost predicate Reported<A, R>(e: PerfEntry, p: Problem<A, R>, problemName: string, version: string, slot: nat,
                                 count: int, measure: (nat, nat) -> int,
                                 versionTitle: (string, string) -> Result<string>)
    requires p.versions.Valid()
  {
    && e.version == version
    && (e.PerfTimed? <==> IsVersionImplemented(p, version))
    && (e.PerfTimed? ==>
          Titled(e, problemName, versionTitle) && e.report.Some? && FaithfulReport(e.report.value, slot, count, measure))
  }

  /** The position of the version whose exception ended the workload: the
      one whose entry lacks its report, or else the one after the last
      entry, whose title could not be read. */
  function FailedSlot(entries: seq<PerfEntry>): nat {
    if |entries| > 0 && entries[|entries| - 1].PerfTimed? && entries[|entries| - 1].report.None? then |entries| - 1
    else |entries|
  }

  /** `workload_perf` after the problem has been loaded. Each implemented
      version's title is read and printed, then the version is timed
      `count` times; the first version whose title or timing raises ends
      the workload with that exception, after printing the title if it
      could be read. */
  method WorkloadPerf<A, R>(p: Problem<A, R>, problem: int, versions: Option<seq<int>>, count: int, fmt: Formats,
                            measure: (nat, nat) -> int, versionTitle: (string, string) -> Result<string>)
    returns (entries: seq<PerfEntry>, error: Option<Error>)
    requires p.versions.Valid()
    ensures var selected := SelectedVersions(p, versions, fmt);
      var name := fmt.problemName(problem);
      && (error.None? <==>
            forall i | 0 <= i < |selected| && IsVersionImplemented(p, selected[i]) ::
              PerfError(p, name, selected[i], count, versionTitle).None?)
      && (error.None? ==> |entries| == |selected|)
      && |entries| <= |selected|
      && (forall i | 0 <= i < |entries| && (error.None? || i < FailedSlot(entries)) ::
            Reported(entries[i], p, name, selected[i], i, count, measure, versionTitle))
    ensures var selected := SelectedVersions(p, versions, fmt);
      var name := fmt.problemName(problem);
      var k := FailedSlot(entries);
      error.Some? ==>
        && k < |selected| && IsVersionImplemented(p, selected[k])
        && error == PerfError(p, name, selected[k], count, versionTitle)
        && (k == |entries| <==> versionTitle(name, selected[k]).Err?)
        && (k < |entries| ==> entries[k] == PerfTimed(selected[k], "  " + versionTitle(name, selected[k]).value, None))
  {
    var selected := SelectedVersions(p, versions, fmt);
    var name := fmt.problemName(problem);
    entries := [];
    error := None;
    var k := 0;
    while k < |selected|
      invariant 0 <= k <= |selected|
      invariant |entries| == k
      invariant forall i | 0 <= i < k :: Reported(entries[i], p, name, selected[i], i, count, measure, versionTitle)
      invariant forall i | 0 <= i < k && IsVersionImplemented(p, selected[i]) ::
        PerfError(p, name, selected[i], count, versionTitle).None?
    {
      var entry, e := PerfVersion(p, name, selected[k], k, count, measure, versionTitle);
      var prev := entries;
      if e.Some? {
        if entry.Some? {
          entries := prev + [entry.value];
          assert forall i | 0 <= i < k :: entries[i] == prev[i];
        }
        assert FailedSlot(entries) == k;
        error := e;
        return;
      }
      entries := prev + [entry.value];
      assert forall i | 0 <= i < k :: entries[i] == prev[i];
      k := k + 1;
    }
  }

  /** One version of `workload_perf`, in position `slot` of the selection:
      a not-implemented line; or, for an implemented version, its title
      line, then `count` timings sorted and summarised, or the exception
      that ends the workload. */
  method PerfVersion<A, R>(p: Problem<A, R>, problemName: string, version: string, slot: nat, count: int,
                           measure: (nat, nat) -> int, versionTitle: (string, string) -> Result<string>)
    returns (entry: Option<PerfEntry>, error: Option<Error>)
    requires p.versions.Valid()
    ensures !IsVersionImplemented(p, version) ==> entry == Some(PerfNotImplemented(version)) && error.None?
    ensures IsVersionImplemented(p, version) ==> error == PerfError(p, problemName, version, count, versionTitle)
    ensures IsVersionImplemented(p, version) ==> (entry.None? <==> versionTitle(problemName, version).Err?)
    ensures error.None? ==>
      entry.Some? && Reported(entry.value, p, problemName, version, slot, count, measure, versionTitle)
    ensures IsVersionImplemented(p, version) && versionTitle(problemName, version).Ok? && error.Some? ==>
      entry == Some(PerfTimed(version, "  " + versionTitle(problemName, version).value, None))
  {
    error := None;
    if !IsVersionImplemented(p, version) {
      entry := Some(PerfNotImplemented(version));
      return;
    }
    var t := versionTitle(problemName, version);
    if t.Err? {
      entry := None;
      error := Some(t.error);
      return;
    }
    var title := "  " + t.value;
    entry := Some(PerfTimed(version, title, None));
    var timings, e := CollectTimings(p, version, slot, count, measure);
    if e.Some? {
      error := e;
      return;
    }
    if |timings| == 0 {
      error := Some(IndexError);
      return;
    }
    if |timings| == 1 {
      error := Some(StatisticsError);
      return;
    }
    entry := Some(PerfTimed(version, title, Some(Report(timings, timings[0], timings[|timings| - 1], Sum(timings)))));
  }

  // ---------------------------------------------------------------------
  // Listing
  // ---------------------------------------------------------------------

  /** One line of the `info` workload. */
  datatype InfoLine =
    | ProblemNotImplemented(code: string)
    | ProblemTitle(text: string)
    | NoProblemFile(code: string)
    | VersionTitle(text: string)
    | MissingProblemsWarning

  /** The number shown for a problem: the last `PROBLEM_DIGITS` characters
      of its directory name, as `name[-PROBLEM_DIGITS:]` slices it. */
  function ProblemCode(name: string, fmt: Formats): string {
    SliceFrom(name, -fmt.problemDigits)
  }

  /** The solutions directory as `workload_info` sees it: the problem
      directories `os.walk` lists, the files of each, and the imports made
      by `get_problem_name` and `get_version_name`. Each import returns
      the module's name attribute, or the exception it raises; neither
      function catches anything. */
  datatype SolutionsDir = SolutionsDir(
    implemented: seq<string>,
    filesOf: string -> seq<string>,
    title: string -> Result<string>,
    versionTitle: (string, string) -> Result<string>)

  /** The lines printed so far, and the exception that ended the listing
      early, if any. */
  datatype Listing = Listing(lines: seq<InfoLine>, error: Option<Error>)

  /** The line printed for a version named `name`: indented by four
      spaces, then cut to 65 characters. */
  function VersionLine(name: string): (line: InfoLine)
    ensures line.VersionTitle? && |line.text| <= 65
    ensures line.text == SliceTo("    " + name, 65)
  {
    VersionTitle(SliceTo("    " + name, 65))
  }

  /** `line` is what the verbose listing prints for version file `file`:
      its import succeeds and the line holds its version name. */
  ghost predicate ListedAs(problem: string, file: string, dir: SolutionsDir, line: InfoLine) {
    var t := dir.versionTitle(problem, StemOf(file));
    t.Ok? && line == VersionLine(t.value)
  }

  /** The verbose version lines for the matching files `kept` from
      position `from` on, in order: each file's version name, indented and
      cut to 65 characters. The first import that raises ends the listing. */
  function VersionTitles(problem: string, kept: seq<string>, from: nat, dir: SolutionsDir): (o: Listing)
    requires from <= |kept|
    decreases |kept| - from
    ensures from + |o.lines| <= |kept|
    ensures forall i | 0 <= i < |o.lines| :: ListedAs(problem, kept[from + i], dir, o.lines[i])
    ensures o.error.None? ==> from + |o.lines| == |kept|
    ensures o.error.Some? ==>
      from + |o.lines| < |kept| && dir.versionTitle(problem, StemOf(kept[from + |o.lines|])) == Err(o.error.value)
  {
    if from == |kept| then Listing([], None)
    else
      var first := dir.versionTitle(problem, StemOf(kept[from]));
      if first.Err? then Listing([], Some(first.error))
      else
        var rest := VersionTitles(problem, kept, from + 1, dir);
        var o := Listing([VersionLine(first.value)] + rest.lines, rest.error);
        assert forall i | 0 < i < |o.lines| :: o.lines[i] == rest.lines[i - 1];
        o
  }

  /** The verbose loop over one problem directory's files: only the files
      the version-file pattern matches are imported and listed, in listing
      order. */
  function VersionLines(problem: string, files: seq<string>, dir: SolutionsDir): (o: Listing)
    ensures var kept := VersionFiles(files);
      && |o.lines| <= |kept|
      && (forall i | 0 <= i < |o.lines| :: ListedAs(problem, kept[i], dir, o.lines[i]))
      && (o.error.None? ==> |o.lines| == |kept|)
      && (o.error.Some? ==>
            |o.lines| < |kept| && dir.versionTitle(problem, StemOf(kept[|o.lines|])) == Err(o.error.value))
    ensures forall i | 0 <= i < |o.lines| :: o.lines[i].VersionTitle? && |o.lines[i].text| <= 65
  {
    VersionTitles(problem, VersionFiles(files), 0, dir)
  }

  /** The version listing completes exactly when importing every matching
      file succeeds. */
  lemma VersionLinesCompleteIff(problem: string, files: seq<string>, dir: SolutionsDir)
    ensures VersionLines(problem, files, dir).error.None? <==>
      forall f | f in VersionFiles(files) :: dir.versionTitle(problem, StemOf(f)).Ok?
  {
    var o := VersionLines(problem, files, dir);
    var kept := VersionFiles(files);
    if o.error.None? {
      forall f | f in kept
        ensures dir.versionTitle(problem, StemOf(f)).Ok?
      {
        var i :| 0 <= i < |kept| && kept[i] == f;
      }
    } else {
      assert kept[|o.lines|] in kept;
    }
  }

  /** Every import the listing of `problem` makes succeeds: its problem
      file's, when there is one, and every matching version file's, when
      the listing is verbose. */
  ghost predicate ImportsSucceed(problem: string, verbose: bool, dir: SolutionsDir) {
    problem in dir.implemented ==>
      && (problem + ".py" in dir.filesOf(problem) ==> dir.title(problem).Ok?)
      && (verbose ==> forall f | f in VersionFiles(dir.filesOf(problem)) :: dir.versionTitle(problem, StemOf(f)).Ok?)
  }

  /** The lines printed for one requested problem, and whether its problem
      file is missing. A problem without a directory is reported and
      skipped; otherwise the title comes first, or a missing-file line,
      then the version lines when verbose. */
  function InfoFor(problem: string, verbose: bool, dir: SolutionsDir, fmt: Formats): (r: (Listing, bool))
    ensures problem !in dir.implemented ==>
      r == (Listing([ProblemNotImplemented(ProblemCode(problem, fmt))], None), false)
    ensures problem in dir.implemented ==> (r.1 <==> problem + ".py" !in dir.filesOf(problem))
    ensures r.0.error.None? <==> ImportsSucceed(problem, verbose, dir)
    ensures problem in dir.implemented && problem + ".py" in dir.filesOf(problem) && dir.title(problem).Err? ==>
      r.0 == Listing([], Some(dir.title(problem).error))
    ensures problem in dir.implemented && (problem + ".py" !in dir.filesOf(problem) || dir.title(problem).Ok?) ==>
      && |r.0.lines| >= 1
      && (r.0.lines[0] == if r.1 then NoProblemFile(ProblemCode(problem, fmt))
                          else ProblemTitle(SliceTo(dir.title(problem).value, 65)))
      && Listing(r.0.lines[1..], r.0.error) ==
           if verbose then VersionLines(problem, dir.filesOf(problem), dir) else Listing([], None)
  {
    if problem !in dir.implemented then (Listing([ProblemNotImplemented(ProblemCode(problem, fmt))], None), false)
    else
      var files := dir.filesOf(problem);
      var missing := problem + ".py" !in files;
      if !missing && dir.title(problem).Err? then (Listing([], Some(dir.title(problem).error)), false)
      else
        var head := if missing then NoProblemFile(ProblemCode(problem, fmt))
                    else ProblemTitle(SliceTo(dir.title(problem).value, 65));
        var versions := if verbose then VersionLines(problem, files, dir) else Listing([], None);
        VersionLinesCompleteIff(problem, files, dir);
        (Listing([head] + versions.lines, versions.error), missing)
  }

  /** Problem `k` is the first whose listing raises. */
  ghost predicate FirstFailingProblem(problems: seq<string>, verbose: bool, dir: SolutionsDir, k: int) {
    && 0 <= k < |problems|
    && !ImportsSucceed(problems[k], verbose, dir)
    && forall j | 0 <= j < k :: ImportsSucceed(problems[j], verbose, dir)
  }

  /** A first failure in the rest of the requests, after a first request
      that lists without raising, is the first failure of all of them. */
  lemma FirstFailingProblemShift(problems: seq<string>, verbose: bool, dir: SolutionsDir, k: int)
    requires |problems| > 0 && ImportsSucceed(problems[0], verbose, dir)
    requires FirstFailingProblem(problems[1..], verbose, dir, k)
    ensures FirstFailingProblem(problems, verbose, dir, k + 1)
  {
    assert forall j | 1 <= j < k + 1 :: problems[j] == problems[1..][j - 1];
  }

  /** The loop of `workload_info` over the requested problems: the printed
      lines, whether some problem file was missing, and the exception of
      the first import that raised, which ends the loop. */
  function InfoLines(problems: seq<string>, verbose: bool, dir: SolutionsDir, fmt: Formats): (r: (Listing, bool))
    ensures r.0.error.None? <==> forall i | 0 <= i < |problems| :: ImportsSucceed(problems[i], verbose, dir)
    ensures r.0.error.None? ==>
      (r.1 <==> exists i | 0 <= i < |problems| ::
                  problems[i] in dir.implemented && problems[i] + ".py" !in dir.filesOf(problems[i]))
    ensures r.0.error.Some? ==> exists k ::
      FirstFailingProblem(problems, verbose, dir, k) && r.0.error == InfoFor(problems[k], verbose, dir, fmt).0.error
  {
    if |problems| == 0 then (Listing([], None), false)
    else
      var first := InfoFor(problems[0], verbose, dir, fmt);
      if first.0.error.Some? then
        assert FirstFailingProblem(problems, verbose, dir, 0);
        first
      else
        var rest := InfoLines(problems[1..], verbose, dir, fmt);
        assert forall i | 1 <= i < |problems| :: problems[i] == problems[1..][i - 1];
        assert rest.0.error.Some? ==> exists k ::
          FirstFailingProblem(problems, verbose, dir, k) && rest.0.error == InfoFor(problems[k], verbose, dir, fmt).0.error
        by {
          if rest.0.error.Some? {
            var k :| FirstFailingProblem(problems[1..], verbose, dir, k)
                     && rest.0.error == InfoFor(problems[1..][k], verbose, dir, fmt).0.error;
            FirstFailingProblemShift(problems, verbose, dir, k);
          }
        }
        (Listing(first.0.lines + rest.0.lines, rest.0.error), first.1 || rest.1)
  }

  /** The problem directories `workload_info` walks through: the formatted
      requested numbers in request order, or every problem directory in
      listing order when none is requested. */
  function RequestedProblems(problems: Option<seq<int>>, dir: SolutionsDir, fmt: Formats): (names: seq<string>)
    ensures problems.Some? ==>
      && |names| == |problems.value|
      && forall i | 0 <= i < |names| :: names[i] == fmt.problemName(problems.value[i])
    ensures problems.None? ==> names == dir.implemented
  {
    match problems
    case None => dir.implemented
    case Some(ps) => seq(|ps|, i requires 0 <= i < |ps| => fmt.problemName(ps[i]))
  }

  /** `workload_info`: the listing of every requested problem, closed by a
      warning when a problem file was missing. The first import that raises
      ends the workload, before the warning. */
  function WorkloadInfo(problems: Option<seq<int>>, verbose: bool, dir: SolutionsDir, fmt: Formats): (o: Listing)
    ensures var names := RequestedProblems(problems, dir, fmt);
      && (o.error.None? <==> forall i | 0 <= i < |names| :: ImportsSucceed(names[i], verbose, dir))
      && (o.error.Some? ==> exists k ::
            FirstFailingProblem(names, verbose, dir, k) && o.error == InfoFor(names[k], verbose, dir, fmt).0.error)
  {
    var r := InfoLines(RequestedProblems(problems, dir, fmt), verbose, dir, fmt);
    if r.0.error.Some? then r.0
    else Listing(r.0.lines + if r.1 then [MissingProblemsWarning] else [], None)
  }

  /** Every title among `lines` is at most 65 characters long. */
  predicate ShortTitles(lines: seq<InfoLine>) {
    forall i | 0 <= i < |lines| && (lines[i].ProblemTitle? || lines[i].VersionTitle?) :: |lines[i].text| <= 65
  }

  /** The lines of one problem cut every title to 65 characters. */
  lemma InfoForShort(problem: string, verbose: bool, dir: SolutionsDir, fmt: Formats)
    ensures ShortTitles(InfoFor(problem, verbose, dir, fmt).0.lines)
  {
    var lines := InfoFor(problem, verbose, dir, fmt).0.lines;
    if problem in dir.implemented && |lines| > 0 && verbose {
      assert forall i | 0 < i < |lines| :: lines[i] == lines[1..][i - 1];
    }
  }

  /** Every title line is cut to 65 characters, whether or not the listing
      ends early. */
  lemma {:induction false} InfoTitlesAreShort(problems: seq<string>, verbose: bool, dir: SolutionsDir, fmt: Formats)
    ensures ShortTitles(InfoLines(problems, verbose, dir, fmt).0.lines)
  {
    if |problems| > 0 {
      InfoForShort(problems[0], verbose, dir, fmt);
      var first := InfoFor(problems[0], verbose, dir, fmt).0;
      if first.error.None? {
        InfoTitlesAreShort(problems[1..], verbose, dir, fmt);
        ShortTitlesConcat(first.lines, InfoLines(problems[1..], verbose, dir, fmt).0.lines);
      }
    }
  }

  lemma ShortTitlesConcat(a: seq<InfoLine>, b: seq<InfoLine>)
    requires ShortTitles(a) && ShortTitles(b)
    ensures ShortTitles(a + b)
  {
    assert forall i | |a| <= i < |a + b| :: (a + b)[i] == b[i - |a|];
  }

  /** When no import raises, the warning closes the listing exactly when
      some requested problem that has a directory lacks its problem file;
      when one raises, the warning is never printed. */
  lemma WarningIffMissingFile(problems: Option<seq<int>>, verbose: bool, dir: SolutionsDir, fmt: Formats)
    ensures var o := WorkloadInfo(problems, verbose, dir, fmt);
      var names := RequestedProblems(problems, dir, fmt);
      && (o.error.None? ==>
            ((|o.lines| > 0 && o.lines[|o.lines| - 1] == MissingProblemsWarning) <==>
               exists i | 0 <= i < |names| :: names[i] in dir.implemented && names[i] + ".py" !in dir.filesOf(names[i])))
      && (o.error.Some? ==> MissingProblemsWarning !in o.lines)
  {
    var names := RequestedProblems(problems, dir, fmt);
    var r := InfoLines(names, verbose, dir, fmt);
    NoWarningInside(names, verbose, dir, fmt);
    if !r.1 && |r.0.lines| > 0 {
      assert r.0.lines[|r.0.lines| - 1] != MissingProblemsWarning;
    }
  }

  /** The per-problem lines never contain the warning. */
  lemma {:induction false} NoWarningInside(problems: seq<string>, verbose: bool, dir: SolutionsDir, fmt: Formats)
    ensures MissingProblemsWarning !in InfoLines(problems, verbose, dir, fmt).0.lines
  {
    if |problems| > 0 {
      var first := InfoFor(problems[0], verbose, dir, fmt).0;
      if problems[0] in dir.implemented && |first.lines| > 0 && verbose {
        assert forall i | 0 < i < |first.lines| :: first.lines[i] == first.lines[1..][i - 1];
      }
      if first.error.None? {
        NoWarningInside(problems[1..], verbose, dir, fmt);
      }
    }
  }
}

=== FILE: factories.dfy ===
/** `restricted_integer_factory` of `utils/factories.py`: an integer type
    whose constructor rejects values outside optional inclusive bounds. */
module Factories {
  import opened Errors

  /** The optional bounds a restricted integer class is made with. */
  datatype Bounds = Bounds(lower: Option<int>, upper: Option<int>)

  /** `valid_value`: the upper bound is checked first, then the lower one. */
  function ValidValue(b: Bounds, value: int): (ok: bool)
    ensures ok <==> (b.upper.None? || value <= b.upper.value) && (b.lower.None? || b.lower.value <= value)
  {
    if b.upper.Some? && value > b.upper.value then false
    else if b.lower.Some? && value < b.lower.value then false
    else true
  }

  /** `RestrictedInteger(value)`: the value itself, or `ValueError`. */
  function Construct(b: Bounds, value: int): (r: Result<int>)
    ensures r.Ok? <==> ValidValue(b, value)
    ensures r.Ok? ==> r.value == value
    ensures r.Err? ==> r.error == ValueError
  {
    if ValidValue(b, value) then Ok(value) else Err(ValueError)
  }

  /** Both bounds are inclusive. */
  lemma BoundsAreInclusive(lo: int, hi: int)
    requires lo <= hi
    ensures Construct(Bounds(Some(lo), Some(hi)), lo) == Ok(lo)
    ensures Construct(Bounds(Some(lo), Some(hi)), hi) == Ok(hi)
    ensures Construct(Bounds(Some(lo), Some(hi)), lo - 1) == Err(ValueError)
    ensures Construct(Bounds(Some(lo), Some(hi)), hi + 1) == Err(ValueError)
  {
  }

  /** Without bounds every integer is accepted unchanged. */
  lemma UnboundedAcceptsAll(value: int)
    ensures Construct(Bounds(None, None), value) == Ok(value)
  {
  }

  /** Crossed bounds admit no value at all. */
  lemma CrossedBoundsRejectAll(lo: int, hi: int, value: int)
    requires lo > hi
    ensures Construct(Bounds(Some(lo), Some(hi)), value) == Err(ValueError)
  {
  }

  /** Loosening a bound never rejects a value that was accepted. */
  lemma WiderBoundsAcceptMore(b: Bounds, lo: int, value: int)
    requires b.lower.Some? && lo <= b.lower.value
    requires Construct(b, value).Ok?
    ensures Construct(b.(lower := Some(lo)), value) == Construct(b, value)
  {
  }
}

=== FILE: generate_problem.dfy ===
/** The page scraper and argument checks of `tools/generate_problem.py`.

    The HTML tokeniser is not modelled: the parser's callbacks are fed a
    sequence of events. An attribute without a value (`<div hidden>`) has
    the value `None`, on which the parser's `.lower()` call raises
    `AttributeError`. */
module GenerateProblem {
  import opened Errors
  import opened Text

  /** One tokenizer callback. */
  datatype Event =
    | StartTag(tag: string, attrs: seq<(string, Option<string>)>)
    | Data(text: string)
    | EndTag(tag: string)

  /** The scraper's fields: the text gathered so far and whether data
      currently goes to the name or to the description. */
  datatype ParserState = ParserState(name: string, desc: string, inName: bool, inDesc: bool)

  /** The constructor: both flags cleared, the name started with the given
      heading (`"Problem {} - "` formatted with the problem-number
      constant, which is not part of this model), the description empty. */
  function NewParser(heading: string): (st: ParserState)
    ensures st.name == heading && st.desc == [] && !st.inName && !st.inDesc
  {
    ParserState(heading, "", false, false)
  }

  /** The attribute loop of `handle_starttag` for a `div`: true at the first
      value that is case-insensitively `problem`, an error at a missing
      value met before it. */
  function MarksProblem(attrs: seq<(string, Option<string>)>): (r: Result<bool>)
    ensures r.Err? ==> r.error == AttributeError
    ensures r == Ok(true) <==> exists i | 0 <= i < |attrs| ::
      && attrs[i].1.Some? && Lower(attrs[i].1.value) == "problem"
      && forall j | 0 <= j < i :: attrs[j].1.Some?
    ensures r == Ok(false) <==> forall i | 0 <= i < |attrs| ::
      attrs[i].1.Some? && Lower(attrs[i].1.value) != "problem"
  {
    if |attrs| == 0 then Ok(false)
    else match attrs[0].1
      case None => Err(AttributeError)
      case Some(value) =>
        if Lower(value) == "problem" then Ok(true)
        else
          var rest := MarksProblem(attrs[1..]);
          assert forall i | 1 <= i < |attrs| :: attrs[i] == attrs[1..][i - 1];
          if rest == Ok(true) then
            var i :| 0 <= i < |attrs[1..]| && attrs[1..][i].1.Some? && Lower(attrs[1..][i].1.value) == "problem"
                      && forall j | 0 <= j < i :: attrs[1..][j].1.Some?;
            assert forall j | 0 <= j < i + 1 :: attrs[j].1.Some? by {
              forall j | 0 <= j < i + 1 ensures attrs[j].1.Some? {
                if j > 0 { assert attrs[j] == attrs[1..][j - 1]; }
              }
            }
            rest
          else rest
  }

  /** `handle_starttag`: `h2` opens the name, a `div` marked `problem`
      opens the description; the tag is compared case-insensitively. */
  function HandleStartTag(st: ParserState, tag: string, attrs: seq<(string, Option<string>)>): (r: Result<ParserState>)
    ensures r.Err? <==> Lower(tag) == "div" && MarksProblem(attrs).Err?
    ensures r.Err? ==> r.error == AttributeError
    ensures r.Ok? ==> r.value.name == st.name && r.value.desc == st.desc
    ensures r.Ok? ==> r.value.inName == (st.inName || Lower(tag) == "h2")
    ensures r.Ok? ==> r.value.inDesc == (st.inDesc || (Lower(tag) == "div" && MarksProblem(attrs) == Ok(true)))
  {
    var st1 := if Lower(tag) == "h2" then st.(inName := true) else st;
    if Lower(tag) == "div" then
      var marked :- MarksProblem(attrs);
      Ok(if marked then st1.(inDesc := true) else st1)
    else Ok(st1)
  }

  /** `handle_data`: the text goes to the name while it is open, else to
      the description while that is open, else nowhere. */
  function HandleData(st: ParserState, text: string): (r: ParserState)
    ensures r.inName == st.inName && r.inDesc == st.inDesc
    ensures r.name == if st.inName then st.name + text else st.name
    ensures r.desc == if !st.inName && st.inDesc then st.desc + text else st.desc
  {
    if st.inName then st.(name := st.name + text)
    else if st.inDesc then st.(desc := st.desc + text)
    else st
  }

  /** `handle_endtag`: closing a `div` or an `h2` closes both. */
  function HandleEndTag(st: ParserState, tag: string): (r: ParserState)
    ensures r.name == st.name && r.desc == st.desc
    ensures Lower(tag) in ["div", "h2"] ==> !r.inName && !r.inDesc
    ensures Lower(tag) !in ["div", "h2"] ==> r == st
  {
    if Lower(tag) in ["div", "h2"] then st.(inName := false, inDesc := false) else st
  }

  function Step(st: ParserState, e: Event): Result<ParserState> {
    match e
    case StartTag(tag, attrs) => HandleStartTag(st, tag, attrs)
    case Data(text) => Ok(HandleData(st, text))
    case EndTag(tag) => Ok(HandleEndTag(st, tag))
  }

  /** Feeds the events in order; the first error ends the parse. */
  function Feed(st: ParserState, events: seq<Event>): (r: Result<ParserState>)
    ensures r.Err? ==> r.error == AttributeError
    decreases |events|
  {
    if |events| == 0 then Ok(st)
    else
      var next :- Step(st, events[0]);
      Feed(next, events[1..])
  }

  /** Feeding two runs of events is feeding the first, then the second. */
  lemma {:induction false} FeedAppend(st: ParserState, a: seq<Event>, b: seq<Event>)
    ensures Feed(st, a + b) == match Feed(st, a)
      case Err(e) => Err(e)
      case Ok(mid) => Feed(mid, b)
    decreases |a|
  {
    if |a| > 0 {
      assert (a + b)[1..] == a[1..] + b;
      if Step(st, a[0]).Ok? {
        FeedAppend(Step(st, a[0]).value, a[1..], b);
      }
    } else {
      assert a + b == b;
    }
  }

  /** The name and the description only grow: what they held before the
      events remains a prefix of what they hold after. */
  lemma {:induction false} FeedOnlyAppends(st: ParserState, events: seq<Event>)
    requires Feed(st, events).Ok?
    ensures st.name <= Feed(st, events).value.name
    ensures st.desc <= Feed(st, events).value.desc
    decreases |events|
  {
    if |events| > 0 {
      var next := Step(st, events[0]).value;
      FeedOnlyAppends(next, events[1..]);
      assert st.name <= next.name && st.desc <= next.desc;
    }
  }

  /** Text outside an `h2` and a marked `div` is dropped. */
  lemma DataOutsideIsDropped(st: ParserState, text: string)
    requires !st.inName && !st.inDesc
    ensures Feed(st, [Data(text)]) == Ok(st)
  {
  }

  /** The name takes priority: text inside both goes to the name only. */
  lemma NameTakesPriority(st: ParserState, text: string)
    requires st.inName && st.inDesc
    ensures Feed(st, [Data(text)]) == Ok(st.(name := st.name + text))
  {
  }

  /** `argument_parser`: the problem number must be positive, and an
      existing problem file is only overwritten with `--force`. */
  function ArgumentParser(problem: int, force: bool, problemFiles: set<int>): (r: Result<int>)
    ensures r.Ok? <==> problem >= 1 && (force || problem !in problemFiles)
    ensures r.Ok? ==> r.value == problem
    ensures r.Err? ==> r.error == ValueError
  {
    if problem < 1 then Err(ValueError)
    else if !force && problem in problemFiles then Err(ValueError)
    else Ok(problem)
  }
}

=== FILE: generate_version.dfy ===
/** The argument checks of `tools/generate_version.py`, which creates new
    version files for a problem.

    The file system is two sets: the problems whose problem file exists, and
    the version numbers whose version file exists in the problem's
    directory. The printed warnings are returned as the version numbers
    they name. */
module GenerateVersion {
  import opened Errors
  import opened Arguments

  /** The command line: a problem number, a version range and `--force`. */
  datatype Request = Request(problem: int, version: string, force: bool)

  /** What is on disk for the requested problem. */
  datatype Disk = Disk(problemFiles: set<int>, versionFiles: set<int>)

  /** The warnings printed, then the result or the exception raised. */
  datatype Outcome = Outcome(warnings: seq<int>, result: Result<(int, seq<int>)>)

  /** The requested versions that already exist, in request order; none when
      overwriting is forced. */
  function Overlap(versions: seq<int>, force: bool, disk: Disk): (w: seq<int>)
    ensures force ==> w == []
    ensures !force ==> forall v :: v in w <==> v in versions && v in disk.versionFiles
    ensures |w| <= |versions|
  {
    if force || |versions| == 0 then []
    else
      (if versions[0] in disk.versionFiles then [versions[0]] else [])
        + Overlap(versions[1..], force, disk)
  }

  /** The checks on the parsed versions, in source order. */
  function CheckVersions(problem: int, versions: seq<int>, force: bool, disk: Disk): (o: Outcome)
    ensures |versions| == 0 ==> o == Outcome([], Err(IndexError))
    ensures |versions| > 0 && versions[0] < 1 ==> o == Outcome([], Err(ValueError))
    ensures |versions| > 0 && versions[0] > 1 && versions[0] - 1 !in disk.versionFiles ==>
      o == Outcome([], Err(ValueError))
    ensures |versions| > 0 && versions[0] >= 1 && (versions[0] > 1 ==> versions[0] - 1 in disk.versionFiles) ==>
      o.warnings == Overlap(versions, force, disk)
    ensures o.warnings != [] ==> !force && o.result == Err(ValueError)
    ensures o.result.Ok? ==> o.result.value == (problem, versions)
    ensures o.result.Ok? <==>
      && |versions| > 0 && versions[0] >= 1
      && (versions[0] > 1 ==> versions[0] - 1 in disk.versionFiles)
      && (force || forall v | v in versions :: v !in disk.versionFiles)
  {
    if |versions| == 0 then Outcome([], Err(IndexError))
    else if versions[0] < 1 then Outcome([], Err(ValueError))
    else if versions[0] > 1 && versions[0] - 1 !in disk.versionFiles then Outcome([], Err(ValueError))
    else
      var warnings := Overlap(versions, force, disk);
      assert !force && (exists v | v in versions :: v in disk.versionFiles) ==> warnings != [] by {
        if !force && exists v | v in versions :: v in disk.versionFiles {
          var v :| v in versions && v in disk.versionFiles;
          assert v in warnings;
        }
      }
      if warnings != [] then
        assert warnings[0] in versions && warnings[0] in disk.versionFiles;
        Outcome(warnings, Err(ValueError))
      else Outcome([], Ok((problem, versions)))
  }

  /** `argument_parser`: the problem number must be positive and its problem
      file must exist; the version must be one range segment whose first
      value is positive and, past 1, follows an existing version; without
      `--force`, every requested version that exists is warned about and
      then one `ValueError` is raised. */
  function ArgumentParser(req: Request, disk: Disk): (o: Outcome)
    ensures o.warnings != [] ==> !req.force && o.result == Err(ValueError)
    ensures req.problem < 1 ==> o == Outcome([], Err(ValueError))
    ensures req.problem >= 1 && req.problem !in disk.problemFiles ==> o == Outcome([], Err(NotImplementedError))
    ensures req.problem >= 1 && req.problem in disk.problemFiles && ParseSegment(req.version).Err? ==>
      o == Outcome([], Err(ValueError))
    ensures req.problem >= 1 && req.problem in disk.problemFiles && ParseSegment(req.version).Ok? ==>
      o == CheckVersions(req.problem, ParseSegment(req.version).value, req.force, disk)
    ensures o.result.Ok? <==>
      && req.problem >= 1 && req.problem in disk.problemFiles
      && ParseSegment(req.version).Ok?
      && CheckVersions(req.problem, ParseSegment(req.version).value, req.force, disk).result.Ok?
    ensures o.result.Ok? ==>
      ParseSegment(req.version).Ok? && o.result.value == (req.problem, ParseSegment(req.version).value)
  {
    if req.problem < 1 then Outcome([], Err(ValueError))
    else if req.problem !in disk.problemFiles then Outcome([], Err(NotImplementedError))
    else match ParseSegment(req.version)
      case Err(e) => Outcome([], Err(e))
      case Ok(versions) => CheckVersions(req.problem, versions, req.force, disk)
  }

  /** A non-positive problem number is rejected before the disk is looked
      at. */
  lemma ProblemCheckedFirst(req: Request, disk: Disk, other: Disk)
    requires req.problem < 1
    ensures ArgumentParser(req, disk) == ArgumentParser(req, other)
  {
  }

  /** A reversed range parses to nothing, and taking its first version
      raises `IndexError`. */
  lemma ReversedRangeHasNoFirstVersion(req: Request, disk: Disk, a: string, b: string)
    requires req.problem >= 1 && req.problem in disk.problemFiles
    requires LiteralShape(a) && LiteralShape(b) && req.version == a + ".." + b
    requires Text.DigitsValue(a) > Text.DigitsValue(b)
    ensures ArgumentParser(req, disk).result == Err(IndexError)
  {
    ParseRange(a, b);
  }

  /** Without `--force` the warnings name exactly the requested versions
      that exist, in request order, and the request then fails; with it,
      existing versions are never an error. */
  lemma WarningsNameExistingVersions(req: Request, disk: Disk)
    requires ArgumentParser(req, disk).warnings != []
    ensures !req.force && ParseSegment(req.version).Ok?
    ensures var vs := ParseSegment(req.version).value;
      && ArgumentParser(req, disk).warnings == Overlap(vs, false, disk)
      && forall v :: v in ArgumentParser(req, disk).warnings <==> v in vs && v in disk.versionFiles
  {
  }
}

=== FILE: info_examples.dfy ===
/** The `info` workload on a problem directory holding a stray
    `version012.py.bak`: the version-file pattern accepts it, and importing
    `solutions.problem012.version012.py` raises `ModuleNotFoundError`. */
module InfoExamples {
  import opened Errors
  import opened Text
  import opened Naming
  import opened Classes
  import opened Euler

  const Stray := "version012.py.bak"

  /** `problem012` with its problem file and the stray file. A dotted
      module name cannot be imported. */
  function StrayFileDir(): (dir: SolutionsDir)
    ensures dir.implemented == ["problem012"]
    ensures dir.filesOf("problem012") == ["problem012.py", Stray]
  {
    SolutionsDir(["problem012"], d => ["problem012.py", Stray], d => Ok("Problem 012"),
                 (d, v) => if '.' in v then Err(ModuleNotFoundError) else Ok(v))
  }

  /** `splitext` keeps the inner `.py` of the stray file. */
  lemma StrayStem()
    ensures StemOf(Stray) == "version012.py"
  {
    assert '/' !in Stray;
    assert RFind(Stray, '/', |Stray|) == -1;
    assert Stray[13] == '.' && Stray[14] != '.' && Stray[15] != '.' && Stray[16] != '.';
    assert RFind(Stray, '.', 14) == 13;
    assert RFind(Stray, '.', 15) == 13;
    assert RFind(Stray, '.', 16) == 13;
    assert RFind(Stray, '.', |Stray|) == 13;
    assert Stray[0] != '.';
  }

  /** Of the two files, only the stray one is a version file, and its
      import raises. */
  lemma StrayIsTheOnlyVersionFile()
    ensures VersionFiles(StrayFileDir().filesOf("problem012")) == [Stray]
    ensures StrayFileDir().versionTitle("problem012", StemOf(Stray)) == Err(ModuleNotFoundError)
  {
    MatchesWithTrailer(Stray);
    assert !Match(VersionFile, "problem012.py") by {
      VersionFileShape("problem012.py");
      assert "problem012.py"[..7][0] != 'v';
    }
    var files := ["problem012.py", Stray];
    assert files[1..] == [Stray] && [Stray][1..] == [];
    assert VersionFiles([Stray]) == [Stray] + VersionFiles([]);
    assert VersionFiles(files) == VersionFiles([Stray]);
    StrayStem();
    assert '.' in StemOf(Stray) by {
      assert StemOf(Stray)[10] == '.';
    }
  }

  /** The listing of `problem012` alone: the title, then the stray
      file's exception when verbose. */
  lemma StrayProblemListing(fmt: Formats)
    ensures InfoFor("problem012", true, StrayFileDir(), fmt) ==
      (Listing([ProblemTitle("Problem 012")], Some(ModuleNotFoundError)), false)
    ensures InfoFor("problem012", false, StrayFileDir(), fmt) == (Listing([ProblemTitle("Problem 012")], None), false)
  {
    var dir := StrayFileDir();
    StrayIsTheOnlyVersionFile();
    assert [Stray][1..] == [];
    assert VersionTitles("problem012", [Stray], 0, dir) == Listing([], Some(ModuleNotFoundError));
    assert "problem012" + ".py" == "problem012.py";
    assert dir.filesOf("problem012")[0] == "problem012.py";
    assert dir.title("problem012") == Ok("Problem 012");
    assert SliceTo("Problem 012", 65) == "Problem 012";
    assert VersionLines("problem012", dir.filesOf("problem012"), dir) == Listing([], Some(ModuleNotFoundError));
    var r := InfoFor("problem012", true, dir, fmt);
    assert r.0.lines[1..] == [] && r.0.error == Some(ModuleNotFoundError);
    assert r.0.lines == [r.0.lines[0]];
  }

  /** `info -v` prints the title, then raises on the stray file before the
      closing warning could be printed; without `-v` the listing
      completes. */
  lemma StrayFileEndsListing(fmt: Formats)
    ensures WorkloadInfo(None, true, StrayFileDir(), fmt) ==
      Listing([ProblemTitle("Problem 012")], Some(ModuleNotFoundError))
    ensures WorkloadInfo(None, false, StrayFileDir(), fmt) == Listing([ProblemTitle("Problem 012")], None)
  {
    var dir := StrayFileDir();
    var names := RequestedProblems(None, dir, fmt);
    assert names == ["problem012"] && names[1..] == [];
    StrayProblemListing(fmt);
    assert InfoLines(names, true, dir, fmt) ==
      (Listing([ProblemTitle("Problem 012")], Some(ModuleNotFoundError)), false);
    assert InfoLines(names, false, dir, fmt) == (Listing([ProblemTitle("Problem 012")], None), false);
  }
}

=== FILE: misc.dfy ===
/** The integer-palindrome checkers of `utils/misc.py` and the selector that
    picks one of them. */
module Misc {
  import opened Text

  /** `10 ** k`. */
  function Pow10(k: nat): (p: nat)
    ensures p >= 1
  {
    if k == 0 then 1 else 10 * Pow10(k - 1)
  }

  function DigitChar(k: int): (c: char)
    requires 0 <= k < 10
    ensures IsDigit(c) && DigitValue(c) == k
  {
    ('0' as int + k) as char
  }

  /** The decimal digits of `n` without leading zeros; empty for 0. */
  function Decimal(n: nat): (r: string)
    ensures AllDigits(r) && DigitsValue(r) == n
    ensures n > 0 ==> |r| > 0 && r[0] != '0'
    ensures n == 0 <==> |r| == 0
  {
    if n == 0 then ""
    else
      var r := Decimal(n / 10) + [DigitChar(n % 10)];
      assert r[..|r| - 1] == Decimal(n / 10);
      r
  }

  /** `str(n)`. */
  function Str(n: int): (r: string)
    ensures |r| > 0
    ensures r[0] == '-' <==> n < 0
    ensures n >= 0 ==> AllDigits(r) && DigitsValue(r) == n
    ensures n < 0 ==> AllDigits(r[1..]) && DigitsValue(r[1..]) == -n
  {
    if n == 0 then "0"
    else if n > 0 then Decimal(n)
    else "-" + Decimal(-n)
  }

  /** `_is_palindrome_strcomp(n)`: `str(n)` read backwards is itself. */
  function IsPalindromeStrComp(n: int): (b: bool)
    ensures n < 0 ==> !b
    ensures n == 0 ==> b
  {
    var s := Str(n);
    if n < 0 then
      assert Reverse(s)[0] == s[|s| - 1] && IsDigit(s[1..][|s| - 2]);
      s == Reverse(s)
    else s == Reverse(s)
  }

  /** The `while copy > 0` loop of `_is_palindrome_intcomp`: moves the
      decimal digits of `copy`, lowest first, onto the end of `rev`. */
  function IntCompRev(copy: int, rev: int): int
    decreases if copy > 0 then copy else 0
  {
    if copy <= 0 then rev else IntCompRev(copy / 10, 10 * rev + copy % 10)
  }

  /** `_is_palindrome_intcomp(n)`: the digit reversal of `n` equals `n`. */
  function IsPalindromeIntComp(n: int): (b: bool)
    ensures n < 0 ==> !b
    ensures n == 0 ==> b
  {
    IntCompRev(n, 0) == n
  }

  /** The value of a digit string, read from its first digit. */
  lemma {:induction false} ValueOfCons(c: char, t: string)
    requires IsDigit(c) && AllDigits(t)
    ensures AllDigits([c] + t)
    ensures DigitsValue([c] + t) == DigitValue(c) * Pow10(|t|) + DigitsValue(t)
  {
    if |t| > 0 {
      var u := t[..|t| - 1];
      ValueOfCons(c, u);
      assert ([c] + t)[..|t|] == [c] + u;
      var x := DigitValue(c);
      calc {
        DigitsValue([c] + t);
        DigitsValue([c] + u) * 10 + DigitValue(t[|t| - 1]);
        (x * Pow10(|u|) + DigitsValue(u)) * 10 + DigitValue(t[|t| - 1]);
        { assert (x * Pow10(|u|)) * 10 == x * Pow10(|t|); }
        x * Pow10(|t|) + DigitsValue(t);
      }
    }
  }

  /** After the loop has consumed `m`, `rev` has been shifted left by the
      number of digits of `m` and the reversed digits of `m` appended. */
  lemma {:induction false} IntCompRevValue(m: nat, r: int)
    ensures AllDigits(Reverse(Decimal(m)))
    ensures IntCompRev(m, r) == r * Pow10(|Decimal(m)|) + DigitsValue(Reverse(Decimal(m)))
    decreases m
  {
    if m > 0 {
      var c := DigitChar(m % 10);
      var t := Decimal(m / 10);
      IntCompRevValue(m / 10, 10 * r + m % 10);
      assert Reverse(Decimal(m)) == [c] + Reverse(t);
      ValueOfCons(c, Reverse(t));
      var p := Pow10(|t|);
      assert Pow10(|Decimal(m)|) == 10 * p;
      ShiftStep(r, m % 10, p);
    }
  }

  lemma ShiftStep(r: int, x: int, p: int)
    ensures (10 * r + x) * p == r * (10 * p) + x * p
  {
  }

  /** Two digit strings of the same length and the same value are equal. */
  lemma {:induction false} SameLengthSameValue(a: string, b: string)
    requires AllDigits(a) && AllDigits(b) && |a| == |b|
    requires DigitsValue(a) == DigitsValue(b)
    ensures a == b
  {
    if |a| > 0 {
      var n := |a| - 1;
      var x := DigitsValue(a[..n]);
      var y := DigitsValue(b[..n]);
      assert (x * 10 + DigitValue(a[n])) % 10 == DigitValue(a[n]);
      assert (y * 10 + DigitValue(b[n])) % 10 == DigitValue(b[n]);
      assert x == y;
      SameLengthSameValue(a[..n], b[..n]);
      assert a == a[..n] + [a[n]] && b == b[..n] + [b[n]];
    }
  }

  /** For a natural number the integer check holds exactly when the digits
      read the same backwards. */
  lemma IntCompIsDigitPalindrome(n: nat)
    ensures IsPalindromeIntComp(n) <==> Decimal(n) == Reverse(Decimal(n))
  {
    var d := Decimal(n);
    IntCompRevValue(n, 0);
    if IsPalindromeIntComp(n) {
      SameLengthSameValue(d, Reverse(d));
    }
  }

  /** The two checkers agree on every integer. */
  lemma CheckersAgree(n: int)
    ensures IsPalindromeIntComp(n) <==> IsPalindromeStrComp(n)
  {
    if n > 0 {
      IntCompIsDigitPalindrome(n);
    }
  }

  /** The members of `PalindromeAlgorithm`, and any other argument. */
  datatype Algorithm = IntCompare | StrCompare | Unrecognised

  /** The two checkers the selector can return. */
  datatype Checker = IntComp | StrComp

  /** `get_integer_palindrome_function`: the integer checker for
      `INTCOMPARE`, the string checker for `STRCOMPARE` (the default) and
      for anything else. */
  function GetIntegerPalindromeFunction(algorithm: Algorithm := StrCompare): (c: Checker)
    ensures c == IntComp <==> algorithm == IntCompare
  {
    if algorithm == IntCompare then IntComp
    else if algorithm == StrCompare then StrComp
    else StrComp
  }

  function Check(c: Checker, n: int): bool {
    match c
    case IntComp => IsPalindromeIntComp(n)
    case StrComp => IsPalindromeStrComp(n)
  }

  /** Whichever checker is selected, the answer is the same. */
  lemma SelectionIsIrrelevant(a: Algorithm, b: Algorithm, n: int)
    ensures Check(GetIntegerPalindromeFunction(a), n) == Check(GetIntegerPalindromeFunction(b), n)
    ensures Check(GetIntegerPalindromeFunction(), n) == IsPalindromeStrComp(n)
  {
    CheckersAgree(n);
  }
}

=== FILE: naming.dfy ===
/** The file-name patterns of `constants.py`.

    `RE_PROBLEM_RAW` and `RE_VERSION_RAW` are a literal prefix followed by
    `\d{min,max}`; the `_FILE` patterns append `.py` without escaping the dot,
    so any character other than a newline may stand before `py`. The patterns
    are used with `re.match`, which anchors at the start of the string only:
    whatever follows a match is ignored. */
module Naming {
  import opened Text

  const MinProblemDigits: nat := 3
  const MaxProblemDigits: nat := 3
  const MinVersionDigits: nat := 3
  const MaxVersionDigits: nat := 3

  /** `<prefix>\d{lo,hi}`, followed by `.py` when `pyTail` holds. */
  datatype Pattern = Pattern(prefix: string, lo: nat, hi: nat, pyTail: bool)

  const ProblemRaw := Pattern("problem", MinProblemDigits, MaxProblemDigits, false)
  const VersionRaw := Pattern("version", MinVersionDigits, MaxVersionDigits, false)
  const ProblemFile := Pattern("problem", MinProblemDigits, MaxProblemDigits, true)
  const VersionFile := Pattern("version", MinVersionDigits, MaxVersionDigits, true)

  /** `p` matches a prefix of `s` taking exactly `k` digits. */
  predicate MatchesWith(p: Pattern, s: string, k: nat) {
    var n := |p.prefix|;
    && p.lo <= k <= p.hi
    && n + k <= |s| && s[..n] == p.prefix && AllDigits(s[n..n + k])
    && (p.pyTail ==> n + k + 3 <= |s| && s[n + k] != '\n' && s[n + k + 1..n + k + 3] == "py")
  }

  /** Some digit count lets `p` match a prefix of `s`. */
  ghost predicate Matches(p: Pattern, s: string) {
    exists k :: MatchesWith(p, s, k)
  }

  /** Tries the digit counts from `k` down to `p.lo`, as the greedy
      quantifier backtracks. */
  function MatchFrom(p: Pattern, s: string, k: int): (b: bool)
    ensures b <==> exists j: nat | j <= k :: MatchesWith(p, s, j)
    decreases k
  {
    if k < p.lo then false
    else MatchesWith(p, s, k) || MatchFrom(p, s, k - 1)
  }

  /** `pattern.match(s) is not None`. */
  function Match(p: Pattern, s: string): (b: bool)
    ensures b <==> Matches(p, s)
  {
    MatchFrom(p, s, p.hi)
  }

  /** The version pattern is `version` followed by exactly three digits;
      anything may follow. */
  lemma VersionRawShape(s: string)
    ensures Match(VersionRaw, s) <==>
      |s| >= 10 && s[..7] == "version" && AllDigits(s[7..10])
  {
    if |s| >= 10 && s[..7] == "version" && AllDigits(s[7..10]) {
      assert MatchesWith(VersionRaw, s, 3);
    }
  }

  /** The version file pattern: `version`, three digits, one character that
      is not a newline, then `py`; anything may follow. */
  lemma VersionFileShape(s: string)
    ensures Match(VersionFile, s) <==>
      && |s| >= 13 && s[..7] == "version" && AllDigits(s[7..10])
      && s[10] != '\n' && s[11..13] == "py"
  {
    if |s| >= 13 && s[..7] == "version" && AllDigits(s[7..10]) && s[10] != '\n' && s[11..13] == "py" {
      assert MatchesWith(VersionFile, s, 3);
    }
  }

  /** The problem patterns have the same shape with prefix `problem`. */
  lemma ProblemFileShape(s: string)
    ensures Match(ProblemRaw, s) <==>
      |s| >= 10 && s[..7] == "problem" && AllDigits(s[7..10])
    ensures Match(ProblemFile, s) <==>
      && |s| >= 13 && s[..7] == "problem" && AllDigits(s[7..10])
      && s[10] != '\n' && s[11..13] == "py"
  {
    if |s| >= 10 && s[..7] == "problem" && AllDigits(s[7..10]) {
      assert MatchesWith(ProblemRaw, s, 3);
      if |s| >= 13 && s[10] != '\n' && s[11..13] == "py" {
        assert MatchesWith(ProblemFile, s, 3);
      }
    }
  }

  /** Every name the file pattern matches is also matched by the bare
      pattern. */
  lemma FileMatchImpliesRaw(p: Pattern, s: string)
    requires p.pyTail
    ensures Match(p, s) ==> Match(p.(pyTail := false), s)
  {
    var q := p.(pyTail := false);
    if Match(p, s) {
      var k :| MatchesWith(p, s, k);
      DropTail(p, s, k);
      assert Matches(q, s);
    }
  }

  /** Leaving out the `.py` tail keeps a match with the same digits. */
  lemma DropTail(p: Pattern, s: string, k: nat)
    requires MatchesWith(p, s, k)
    ensures MatchesWith(p.(pyTail := false), s, k)
  {
  }

  /** The unescaped dot lets `version012Xpy` through, ... */
  lemma MatchesWithoutDot(s: string)
    requires s == "version012Xpy"
    ensures Match(VersionFile, s)
  {
    VersionFileShape(s);
    assert s[..7] == "version" && s[7..10] == "012" && s[11..13] == "py";
  }

  /** ... and the missing end anchor lets `version012.py.bak` through. */
  lemma MatchesWithTrailer(s: string)
    requires s == "version012.py.bak"
    ensures Match(VersionFile, s)
  {
    VersionFileShape(s);
    assert s[..7] == "version" && s[7..10] == "012" && s[11..13] == "py";
  }

  /** Two digits are too few, ... */
  lemma RejectsShortNumber(s: string)
    requires s == "version12.py"
    ensures !Match(VersionFile, s)
  {
    VersionFileShape(s);
    assert !IsDigit(s[7..10][2]);
  }

  /** ... and four are too many. */
  lemma RejectsLongNumber(s: string)
    requires s == "version0123.py"
    ensures !Match(VersionFile, s)
  {
    VersionFileShape(s);
    assert s[11..13] != "py" by { assert s[11..13][0] == '.'; }
  }
}

=== FILE: problem001.dfy ===
/** Problem 1: the sum of the natural numbers below a limit that are
    multiples of 3 or 5, in four versions. `SumBelow` is the reference the
    versions are proved against. */
module Problem001 {
  import opened Errors
  import Algebra
  import Sorting

  predicate Multiple35(n: int) {
    n % 3 == 0 || n % 5 == 0
  }

  /** The sum of the `n` in `[1, number)` that are multiples of 3 or 5. */
  function SumBelow(number: int): (s: int)
    ensures number <= 3 ==> s == 0
    decreases number
  {
    if number <= 1 then 0
    else SumBelow(number - 1) + (if Multiple35(number - 1) then number - 1 else 0)
  }

  /** The example of the problem statement: below 10 the sum is 23. */
  lemma SumBelowTen()
    ensures SumBelow(10) == 23
  {
  }

  // ---------------------------------------------------------------------
  // Version 1: test every number
  // ---------------------------------------------------------------------

  /** Version 1 walks `[1, number)` and adds the multiples. */
  method Solution1(number: int) returns (retval: int)
    ensures retval == SumBelow(number)
  {
    retval := 0;
    var n := 1;
    while n < number
      invariant n == 1 || n <= number
      invariant retval == SumBelow(n)
    {
      if n % 3 == 0 || n % 5 == 0 {
        retval := retval + n;
      }
      n := n + 1;
    }
  }

  // ---------------------------------------------------------------------
  // Version 2: jump from multiple to multiple
  // ---------------------------------------------------------------------

  /** The gaps between consecutive multiples of 3 or 5, starting at 3. */
  const Increments: seq<int> := [2, 1, 3, 1, 2, 3, 3]

  /** The residue modulo 15 of the multiple each increment starts from. */
  const Offsets: seq<int> := [3, 5, 6, 9, 10, 12, 0]

  /** Whether `n` is a multiple of 3 or 5 only depends on `n % 15`. */
  lemma Mod15(n: int)
    ensures Multiple35(n) <==> Multiple35(n % 15)
  {
    var q := n / 15;
    var r := n % 15;
    assert n == 3 * (5 * q) + r;
    assert n == 5 * (3 * q) + r;
  }

  /** The sum of a list of seven numbers. */
  lemma SumOfSeven(a: int, b: int, c: int, d: int, e: int, f: int, g: int)
    ensures Sorting.Sum([a, b, c, d, e, f, g]) == a + b + c + d + e + f + g
  {
    assert [a, b, c, d, e, f, g][..6] == [a, b, c, d, e, f];
    assert [a, b, c, d, e, f][..5] == [a, b, c, d, e];
    assert [a, b, c, d, e][..4] == [a, b, c, d];
    assert [a, b, c, d][..3] == [a, b, c];
    assert [a, b, c][..2] == [a, b];
    assert [a, b][..1] == [a];
    assert Sorting.Sum([a]) == a;
    assert Sorting.Sum([a, b]) == a + b;
    assert Sorting.Sum([a, b, c]) == a + b + c;
    assert Sorting.Sum([a, b, c, d]) == a + b + c + d;
    assert Sorting.Sum([a, b, c, d, e]) == a + b + c + d + e;
    assert Sorting.Sum([a, b, c, d, e, f]) == a + b + c + d + e + f;
  }

  /** One full cycle of increments advances by 15. */
  lemma IncrementCycle()
    ensures Sorting.Sum(Increments) == 15
  {
    SumOfSeven(2, 1, 3, 1, 2, 3, 3);
  }

  /** From the multiple `x`, the increment lands on the residue of the next
      offset. */
  lemma NextOffset(x: int, index: int)
    requires 0 <= index < 7 && x % 15 == Offsets[index]
    ensures (x + Increments[index]) % 15 == Offsets[(index + 1) % 7]
  {
    var q := x / 15;
    var r := Offsets[index];
    var inc := Increments[index];
    assert x == 15 * q + r;
    Algebra.DivModUnique(x + inc, 15, if r + inc == 15 then q + 1 else q, Offsets[(index + 1) % 7]);
  }

  /** Every offset is a multiple, and the numbers an increment skips over
      are not. */
  lemma OffsetTable(index: int)
    requires 0 <= index < 7
    ensures Multiple35(Offsets[index])
    ensures Increments[index] >= 2 ==> !Multiple35(Offsets[index] + 1)
    ensures Increments[index] >= 3 ==> !Multiple35(Offsets[index] + 2)
  {
  }

  /** One step of version 2 from a multiple `x` adds `x` and skips no
      multiple. */
  lemma GapStep(x: int, index: int)
    requires x >= 3 && 0 <= index < 7 && x % 15 == Offsets[index]
    ensures Multiple35(x)
    ensures forall y | x < y <= x + Increments[index] :: SumBelow(y) == SumBelow(x) + x
  {
    var q := x / 15;
    var r := Offsets[index];
    var inc := Increments[index];
    assert x == 15 * q + r;
    Shift15(q, r);
    OffsetTable(index);
    forall y | x < y <= x + inc
      ensures SumBelow(y) == SumBelow(x) + x
    {
      assert SumBelow(x + 1) == SumBelow(x) + x;
      if y >= x + 2 {
        Shift15(q, r + 1);
        assert SumBelow(x + 2) == SumBelow(x + 1);
      }
      if y == x + 3 {
        Shift15(q, r + 2);
        assert SumBelow(x + 3) == SumBelow(x + 2);
      }
    }
  }

  /** Version 2 starts at 3 and adds the increments in turn, summing each
      number it lands on below the limit. */
  method Solution2(limit: int) returns (retval: int)
    ensures retval == SumBelow(limit)
  {
    retval := 0;
    var index := 0;
    var number := 3;
    while number < limit
      invariant 0 <= index < 7 && number >= 3
      invariant number % 15 == Offsets[index]
      invariant retval == SumBelow(number)
      invariant limit <= number ==> retval == SumBelow(limit)
      decreases limit - number
    {
      GapStep(number, index);
      NextOffset(number, index);
      retval := retval + number;
      number := number + Increments[index];
      index := (index + 1) % |Increments|;
    }
  }

  // ---------------------------------------------------------------------
  // Version 3: whole blocks of 15, then the remainder
  // ---------------------------------------------------------------------

  /** Shifting by a multiple of 15 keeps the multiples. */
  lemma Shift15(i: int, n: int)
    ensures Multiple35(15 * i + n) <==> Multiple35(n)
  {
    assert 15 * i + n == 3 * (5 * i) + n;
    assert 15 * i + n == 5 * (3 * i) + n;
  }

  /** One number of the block starting after `15 i`. */
  lemma BlockStep(i: int, k: int)
    requires i >= 0 && k >= 1
    ensures SumBelow(15 * i + k + 1) == SumBelow(15 * i + k) + (if Multiple35(k) then 15 * i + k else 0)
  {
    Shift15(i, k);
  }

  /** The multiples in `(b, b + 15]` for `b == 15 i` are
      `b + 3, b + 5, b + 6, b + 9, b + 10, b + 12, b + 15`: seven numbers
      summing to `7 b + 60`, that is `105 i + 60`. */
  lemma BlockSum(i: int)
    requires i >= 0
    ensures SumBelow(15 * i + 16) == SumBelow(15 * i + 1) + 105 * i + 60
  {
    BlockStep(i, 1); BlockStep(i, 2); BlockStep(i, 3); BlockStep(i, 4); BlockStep(i, 5);
    BlockStep(i, 6); BlockStep(i, 7); BlockStep(i, 8); BlockStep(i, 9); BlockStep(i, 10);
    BlockStep(i, 11); BlockStep(i, 12); BlockStep(i, 13); BlockStep(i, 14); BlockStep(i, 15);
  }

  /** What is left below a block boundary holds no multiple. */
  lemma TailIsEmpty(i: int, n: int)
    requires i >= 0 && n <= 2 && (i > 0 ==> n > 0)
    ensures SumBelow(15 * i + n + 1) == SumBelow(15 * i + 1)
  {
    if n >= 1 {
      BlockStep(i, 1);
    }
    if n >= 2 {
      BlockStep(i, 2);
    }
  }

  /** The sum of the multiples in the first block of 15. */
  lemma RepeatsSum()
    ensures Sorting.Sum([3, 5, 6, 9, 10, 12, 15]) == 60
  {
    SumOfSeven(3, 5, 6, 9, 10, 12, 15);
  }

  /** Version 3 adds whole blocks of 15 by formula while more than 15
      numbers remain, then tests the remaining numbers from the top down,
      each shifted by the blocks already summed. */
  method Solution3(number: int) returns (retval: int)
    ensures retval == SumBelow(number)
  {
    retval := 0;
    var repeats := [3, 5, 6, 9, 10, 12, 15];
    RepeatsSum();
    var i := 0;
    var n := number - 1;
    while n > 15
      invariant i >= 0 && 15 * i + n == number - 1
      invariant i > 0 ==> n > 0
      invariant retval == SumBelow(15 * i + 1)
      decreases n
    {
      BlockSum(i);
      assert 15 * |repeats| * i == 105 * i;
      retval := retval + Sorting.Sum(repeats);
      retval := retval + 15 * |repeats| * i;
      n := n - 15;
      i := i + 1;
    }
    retval := AddRemainder(i, n, retval);
  }

  /** The second loop of version 3: the numbers `15 i + n` down to
      `15 i + 3`, each added when `n` is a multiple of 3 or 5. */
  method AddRemainder(i: int, n0: int, retval0: int) returns (retval: int)
    requires i >= 0 && n0 <= 15 && (i > 0 ==> n0 > 0)
    ensures retval == retval0 + SumBelow(15 * i + n0 + 1) - SumBelow(15 * i + 1)
  {
    retval := retval0;
    var n := n0;
    while n >= 3
      invariant n <= n0 && (n >= 2 || n == n0)
      invariant retval == retval0 + SumBelow(15 * i + n0 + 1) - SumBelow(15 * i + n + 1)
      decreases n
    {
      BlockStep(i, n);
      if n % 3 == 0 || n % 5 == 0 {
        retval := retval + 15 * i + n;
      }
      n := n - 1;
    }
    TailIsEmpty(i, n);
  }

  // ---------------------------------------------------------------------
  // Version 4: inclusion-exclusion over arithmetic series
  // ---------------------------------------------------------------------

  /** The sum of the multiples of `d` in `[1, m)`. */
  function MultiplesBelow(d: int, m: int): int
    requires d > 0
    decreases m
  {
    if m <= 1 then 0
    else MultiplesBelow(d, m - 1) + (if (m - 1) % d == 0 then m - 1 else 0)
  }

  /** The multiples of `d` up to `n` are `0, d, ..., (n / d) d`. */
  lemma {:induction false} MultiplesBelowIsSeries(d: int, n: int)
    requires d > 0 && n >= 0
    ensures MultiplesBelow(d, n + 1) == Algebra.SeriesSum(0, d, n / d + 1)
    decreases n
  {
    if n == 0 {
      Algebra.DivModUnique(0, d, 0, 0);
    } else {
      MultiplesBelowIsSeries(d, n - 1);
      var q := (n - 1) / d;
      var j := (n - 1) % d;
      if j + 1 < d {
        Algebra.DivModUnique(n, d, q, j + 1);
      } else {
        Algebra.DivModUnique(n, d, q + 1, 0);
      }
    }
  }

  /** A multiple of 15 is exactly a multiple of both 3 and 5. */
  lemma Multiple15(y: int)
    ensures y % 15 == 0 <==> y % 3 == 0 && y % 5 == 0
  {
    var q := y / 15;
    var r := y % 15;
    Algebra.DivModUnique(y, 3, 5 * q + r / 3, r % 3);
    Algebra.DivModUnique(y, 5, 3 * q + r / 5, r % 5);
    assert 0 <= r < 15;
  }

  /** Multiples of 15 are counted among the multiples of 3 and among those
      of 5, so subtracting them once counts every number once. */
  lemma {:induction false} InclusionExclusion(m: int)
    ensures SumBelow(m) == MultiplesBelow(3, m) + MultiplesBelow(5, m) - MultiplesBelow(15, m)
    decreases m
  {
    if m > 1 {
      InclusionExclusion(m - 1);
      Multiple15(m - 1);
    }
  }

  /** `arithmetic_series_sum(0, k d, d)` is `d k (k + 1) / 2`; the helper
      of version 4 is the same computation as `arithmetic_sum`. */
  lemma MultiplesSum(k: int, d: int)
    requires k >= 0 && d > 0
    ensures Algebra.ArithmeticSum(0, k * d, d) == Ok(Algebra.SeriesSum(0, d, k + 1))
    ensures 2 * Algebra.ArithmeticSum(0, k * d, d).value == d * (k * (k + 1))
  {
    Algebra.ArithmeticSumIsSeriesSum(0, d, k);
    assert 0 + k * d == k * d;
    Algebra.SeriesSumClosedForm(0, d, k + 1);
    assert (k + 1) * k == k * (k + 1);
  }

  /** `n - n % d` is the largest multiple of `d` that is at most `n`. */
  lemma LargestMultiple(n: int, d: int)
    requires n >= 0 && d > 0
    ensures var m := n - n % d;
      && m == (n / d) * d && m % d == 0 && 0 <= m <= n && n < m + d
  {
    Algebra.DivModUnique(n - n % d, d, n / d, 0);
  }

  /** The sum of the multiples of `d` in `[0, n]`, as version 4 computes
      it. */
  function SumDivisibleBy(n: int, d: int): (s: int)
    requires d > 0
  {
    Algebra.ArithmeticSum(0, n - n % d, d).value
  }

  /** For `n >= 0` that sum is the sum of the multiples of `d` in `[1, n]`. */
  lemma SumDivisibleByIsMultiples(n: int, d: int)
    requires n >= 0 && d > 0
    ensures SumDivisibleBy(n, d) == MultiplesBelow(d, n + 1)
  {
    LargestMultiple(n, d);
    MultiplesSum(n / d, d);
    MultiplesBelowIsSeries(d, n);
  }

  /** Version 4 as written: the multiples of 3 plus those of 5 minus those
      of 15, the last only when `n >= 15`. */
  function Solution4(number: int): int {
    var n := number - 1;
    var s3 := SumDivisibleBy(n, 3);
    var s5 := SumDivisibleBy(n, 5);
    var s15 := if n >= 15 then SumDivisibleBy(n, 15) else 0;
    s3 + s5 - s15
  }

  /** The `n >= 15` guard does not change the result: below 15 the
      unguarded term is 0 anyway. */
  lemma GuardIsRedundant(n: int)
    requires 0 <= n < 15
    ensures SumDivisibleBy(n, 15) == 0
  {
    SumDivisibleByIsMultiples(n, 15);
    Algebra.DivModUnique(n, 15, 0, n);
  }

  /** For a positive limit version 4 is the reference sum. */
  lemma Solution4Correct(number: int)
    requires number >= 1
    ensures Solution4(number) == SumBelow(number)
  {
    var n := number - 1;
    var s3, s5, s15 := SumDivisibleBy(n, 3), SumDivisibleBy(n, 5), SumDivisibleBy(n, 15);
    if n < 15 {
      GuardIsRedundant(n);
    }
    assert Solution4(number) == s3 + s5 - s15;
    SumDivisibleByIsMultiples(n, 3);
    SumDivisibleByIsMultiples(n, 5);
    SumDivisibleByIsMultiples(n, 15);
    InclusionExclusion(number);
  }

  /** Below 1 the floor divisions go negative: version 4 answers 3 for the
      limit -3, where there is nothing to sum. */
  lemma Solution4NegativeLimit()
    ensures Solution4(-3) == 3
    ensures SumBelow(-3) == 0
  {
    assert SumDivisibleBy(-4, 3) == 3 by {
      assert -4 % 3 == 2;
      assert Algebra.FloorDiv(-6, 3) == -2;
    }
    assert SumDivisibleBy(-4, 5) == 0 by {
      assert -4 % 5 == 1;
      assert Algebra.FloorDiv(-5, 5) == -1;
    }
  }

  /** Version 4 with the empty range handled first. */
  function Solution4Corrected(number: int): (s: int)
    ensures s == SumBelow(number)
  {
    if number < 1 then 0
    else
      Solution4Correct(number);
      Solution4(number)
  }
}

=== FILE: problem002.dfy ===
/** Problem 2: the sum of the even Fibonacci numbers below a limit, in three
    versions. `EvenFibSum` is the reference the versions are proved
    against. */
module Problem002 {
  import opened Errors
  import Algebra

  /** The Fibonacci numbers 0, 1, 1, 2, 3, 5, ... */
  function Fib(j: nat): nat {
    if j < 2 then j else Fib(j - 1) + Fib(j - 2)
  }

  /** The Fibonacci numbers grow at least linearly, so only finitely many
      lie below any limit. */
  lemma {:induction false} FibLowerBound(j: nat)
    ensures Fib(j) + 1 >= j
    ensures j >= 1 ==> Fib(j + 1) >= Fib(j)
  {
    if j >= 2 {
      FibLowerBound(j - 1);
      FibLowerBound(j - 2);
    }
  }

  /** The sum of the even `Fib(i)` below `number` for `i >= j`, where
      `j >= 1`. */
  function EvenFibsFrom(number: int, j: nat): (s: int)
    requires j >= 1
    ensures s % 2 == 0
    decreases number + 1 - j
  {
    if Fib(j) >= number then 0
    else
      FibLowerBound(j);
      (if Fib(j) % 2 == 0 then Fib(j) else 0) + EvenFibsFrom(number, j + 1)
  }

  /** The reference: the sum of the even Fibonacci numbers less than
      `number`. */
  function EvenFibSum(number: int): int {
    EvenFibsFrom(number, 1)
  }

  /** The parities repeat with period three: even, odd, odd. */
  lemma FibParity(k: nat)
    ensures Fib(3 * k) % 2 == 0 && Fib(3 * k + 1) % 2 == 1 && Fib(3 * k + 2) % 2 == 1
  {
    FibEvenIff(3 * k);
    FibEvenIff(3 * k + 1);
    FibEvenIff(3 * k + 2);
    Algebra.DivModUnique(3 * k, 3, k, 0);
    Algebra.DivModUnique(3 * k + 1, 3, k, 1);
    Algebra.DivModUnique(3 * k + 2, 3, k, 2);
  }

  /** A Fibonacci number is even exactly at every third index. */
  lemma {:induction false} FibEvenIff(j: nat)
    ensures Fib(j) % 2 == 0 <==> j % 3 == 0
  {
    if j >= 2 {
      FibEvenIff(j - 1);
      FibEvenIff(j - 2);
      ParityRule(Fib(j - 1), Fib(j - 2), j);
    }
  }

  /** The step of the induction, on plain numbers: two terms whose
      evenness follows the residues of `j - 1` and `j - 2` modulo 3 add up
      to one whose evenness follows the residue of `j`. */
  lemma ParityRule(x: int, y: int, j: int)
    requires x % 2 == 0 <==> (j - 1) % 3 == 0
    requires y % 2 == 0 <==> (j - 2) % 3 == 0
    ensures (x + y) % 2 == 0 <==> j % 3 == 0
  {
    SumParity(x, y);
    BackOneAndTwo(j);
  }

  /** A sum is even exactly when its two terms have the same parity. */
  lemma SumParity(a: int, b: int)
    ensures (a + b) % 2 == 0 <==> a % 2 == b % 2
  {
    var qa, ra, qb, rb := a / 2, a % 2, b / 2, b % 2;
    if ra + rb < 2 {
      Algebra.DivModUnique(a + b, 2, qa + qb, ra + rb);
    } else {
      Algebra.DivModUnique(a + b, 2, qa + qb + 1, ra + rb - 2);
    }
  }

  /** Stepping back one or two places moves the residue modulo 3 by
      two or one. */
  lemma BackOneAndTwo(j: int)
    ensures (j - 1) % 3 == (j % 3 + 2) % 3 && (j - 2) % 3 == (j % 3 + 1) % 3
  {
    var q, r := j / 3, j % 3;
    if r == 0 {
      Algebra.DivModUnique(j - 1, 3, q - 1, 2);
      Algebra.DivModUnique(j - 2, 3, q - 1, 1);
    } else if r == 1 {
      Algebra.DivModUnique(j - 1, 3, q, 0);
      Algebra.DivModUnique(j - 2, 3, q - 1, 2);
    } else {
      Algebra.DivModUnique(j - 1, 3, q, 1);
      Algebra.DivModUnique(j - 2, 3, q, 0);
    }
  }

  /** An odd Fibonacci number adds nothing to the sum. */
  lemma SkipOdd(number: int, j: nat)
    requires j >= 1 && Fib(j) % 2 == 1
    ensures EvenFibsFrom(number, j) == EvenFibsFrom(number, j + 1)
  {
    FibLowerBound(j);
  }

  /** Below 3 there is no even Fibonacci number other than 0. */
  lemma NothingBelowThree(number: int)
    requires number <= 2
    ensures EvenFibSum(number) == 0
  {
    assert Fib(3) == 2;
    assert EvenFibsFrom(number, 3) == 0;
    SkipOdd(number, 2);
    SkipOdd(number, 1);
  }

  // ---------------------------------------------------------------------
  // Version 1: every Fibonacci number, tested for evenness
  // ---------------------------------------------------------------------

  /** Version 1 steps `fib1, fib2` through the sequence from `0, 1` and adds
      each even `fib2` below the limit. */
  method Solution1(number: int) returns (retval: int)
    ensures retval == EvenFibSum(number)
  {
    retval := 0;
    var fib1, fib2 := 0, 1;
    ghost var k: nat := 1;
    while fib2 < number
      invariant k >= 1 && fib1 == Fib(k - 1) && fib2 == Fib(k)
      invariant retval + EvenFibsFrom(number, k) == EvenFibSum(number)
      decreases number + 1 - k
    {
      FibLowerBound(k);
      if fib2 % 2 == 0 {
        retval := retval + fib2;
      }
      fib1, fib2 := fib2, fib1 + fib2;
      k := k + 1;
    }
  }

  // ---------------------------------------------------------------------
  // Version 2: every third Fibonacci number
  // ---------------------------------------------------------------------

  /** From one even Fibonacci number the sum continues at the next one,
      three places on. */
  lemma EvenStep(number: int, m: nat)
    requires m >= 1 && Fib(3 * m) < number
    ensures EvenFibsFrom(number, 3 * m) == Fib(3 * m) + EvenFibsFrom(number, 3 * m + 3)
  {
    FibParity(m);
    SkipOdd(number, 3 * m + 1);
    SkipOdd(number, 3 * m + 2);
  }

  /** Version 2 starts at `2, 3` and advances three places per step, adding
      `fib1` without testing it. */
  method Solution2(number: int) returns (retval: int)
    ensures retval == EvenFibSum(number)
  {
    retval := 0;
    var fib1, fib2 := 2, 3;
    ghost var m: nat := 1;
    FibLowerBound(2);
    if number > 1 {
      SkipOdd(number, 1);
    }
    SkipOdd(number, 2);
    while fib1 < number
      invariant m >= 1 && fib1 == Fib(3 * m) && fib2 == Fib(3 * m + 1)
      invariant retval + EvenFibsFrom(number, 3 * m) == EvenFibSum(number)
      decreases number + 1 - 3 * m
    {
      FibLowerBound(3 * m);
      EvenStep(number, m);
      retval := retval + fib1;
      fib1, fib2 := fib2, fib1 + fib2;
      fib1, fib2 := fib2, fib1 + fib2;
      fib1, fib2 := fib2, fib1 + fib2;
      m := m + 1;
    }
  }

  // ---------------------------------------------------------------------
  // Version 3: every third Fibonacci number by a matrix power
  // ---------------------------------------------------------------------

  /** A 2x2 integer matrix, row by row. */
  datatype Mat2 = Mat2(a: int, b: int, c: int, d: int)

  /** A column vector `[top, bottom]`. */
  datatype Vec2 = Vec2(top: int, bottom: int)

  function Mul(x: Mat2, y: Mat2): Mat2 {
    Mat2(x.a * y.a + x.b * y.c, x.a * y.b + x.b * y.d,
         x.c * y.a + x.d * y.c, x.c * y.b + x.d * y.d)
  }

  function Apply(x: Mat2, v: Vec2): Vec2 {
    Vec2(x.a * v.top + x.b * v.bottom, x.c * v.top + x.d * v.bottom)
  }

  /** The matrix taking `[F(n+1), F(n)]` to `[F(n+2), F(n+1)]`. */
  const A: Mat2 := Mat2(1, 1, 1, 0)

  /** The matrix of version 3. */
  const A3: Mat2 := Mat2(3, 2, 2, 1)

  /** `A3` is the cube of the Fibonacci step matrix. */
  lemma A3IsCube()
    ensures Mul(A, Mul(A, A)) == A3
  {
  }

  /** `A` advances the vector `[Fib(j + 1), Fib(j)]` by one place and `A3`
      by three. */
  lemma AdvanceFib(j: nat)
    ensures Apply(A, Vec2(Fib(j + 1), Fib(j))) == Vec2(Fib(j + 2), Fib(j + 1))
    ensures Apply(A3, Vec2(Fib(j + 1), Fib(j))) == Vec2(Fib(j + 4), Fib(j + 3))
  {
    assert Fib(j + 3) == 2 * Fib(j + 1) + Fib(j);
    assert Fib(j + 4) == 3 * Fib(j + 1) + 2 * Fib(j);
  }

  /** Version 3 as written. The running sum starts as the plain integer 0
      and only becomes a one-element array once an entry of `F` is added to
      it; the final `retval[0]` therefore raises `TypeError` when the loop
      never ran, that is when `number <= 2`. */
  method Solution3(number: int) returns (r: Result<int>)
    ensures r.Err? <==> number <= 2
    ensures r.Err? ==> r.error == TypeError
    ensures r.Ok? ==> r.value == EvenFibSum(number)
  {
    var retval := 0;
    var isArray := false;
    var F := Vec2(3, 2);
    ghost var m: nat := 1;
    FibLowerBound(2);
    if number > 1 {
      SkipOdd(number, 1);
    }
    SkipOdd(number, 2);
    while F.bottom < number
      invariant m >= 1 && F == Vec2(Fib(3 * m + 1), Fib(3 * m))
      invariant retval + EvenFibsFrom(number, 3 * m) == EvenFibSum(number)
      invariant isArray <==> m > 1
      invariant m == 1 ==> F.bottom == 2
      invariant m > 1 ==> number > 2
      decreases number + 1 - 3 * m
    {
      FibLowerBound(3 * m);
      EvenStep(number, m);
      AdvanceFib(3 * m);
      retval := retval + F.bottom;
      isArray := true;
      F := Apply(A3, F);
      m := m + 1;
    }
    if isArray {
      r := Ok(retval);
    } else {
      r := Err(TypeError);
    }
  }

  /** Version 3 with the running sum read out as a plain integer, so that an
      empty sum is 0. */
  method Solution3Corrected(number: int) returns (retval: int)
    ensures retval == EvenFibSum(number)
  {
    var r := Solution3(number);
    if r.Ok? {
      retval := r.value;
    } else {
      NothingBelowThree(number);
      retval := 0;
    }
  }
}

=== FILE: problem004.dfy ===
/** Problem 4: the pair of `digits`-digit factors whose product is the
    largest palindrome. Versions 1 and 2 run the same search and differ
    only in the palindrome check: version 1 compares `str(n)` with its
    reverse, version 2 reverses the digits arithmetically. Both checks are
    the ones of `Misc`. */
module Problem004 {
  import opened Misc

  /** `(x, y)` comes before `(a, b)` in the search order: by the first
      factor, then by the second. */
  predicate LexLess(x: int, y: int, a: int, b: int) {
    x < a || (x == a && y < b)
  }

  /** The product `x * y` is a palindrome greater than `m`: the pair would
      replace a best product of `m`. */
  predicate Beats(c: Checker, x: int, y: int, m: int) {
    Check(c, x * y) && x * y > m
  }

  /** The pairs the search visits: `lo <= x <= y < hi`. */
  predicate InSearch(lo: int, hi: int, x: int, y: int) {
    lo <= x <= y < hi
  }

  /** What the search returns: `[0, 0]` when no visited pair has a
      palindromic product, and otherwise a visited pair with the largest
      palindromic product, the first such pair in the search order. */
  ghost predicate LargestPalindromePair(c: Checker, lo: int, hi: int, pair: seq<int>) {
    || (&& pair == [0, 0]
        && forall x, y | InSearch(lo, hi, x, y) :: !Beats(c, x, y, 0))
    || (&& |pair| == 2 && InSearch(lo, hi, pair[0], pair[1])
        && Beats(c, pair[0], pair[1], 0)
        && (forall x, y | InSearch(lo, hi, x, y) :: !Beats(c, x, y, pair[0] * pair[1]))
        && (forall x, y | InSearch(lo, hi, x, y) && LexLess(x, y, pair[0], pair[1]) ::
              !Beats(c, x, y, pair[0] * pair[1] - 1)))
  }

  /** The state of the search before it looks at `(f1, f2)`: `maxnum` is
      the best palindromic product among the pairs already visited, and
      `pair` the first visited pair attaining it. */
  ghost predicate Progress(c: Checker, lo: int, hi: int, f1: int, f2: int, maxnum: int, pair: seq<int>) {
    && |pair| == 2
    && (|| (pair == [0, 0] && maxnum == 0)
        || (&& InSearch(lo, hi, pair[0], pair[1]) && LexLess(pair[0], pair[1], f1, f2)
            && maxnum == pair[0] * pair[1] && Beats(c, pair[0], pair[1], 0)))
    && (forall x, y | InSearch(lo, hi, x, y) && LexLess(x, y, f1, f2) :: !Beats(c, x, y, maxnum))
    && (forall x, y | InSearch(lo, hi, x, y) && LexLess(x, y, pair[0], pair[1]) :: !Beats(c, x, y, maxnum - 1))
  }

  /** Every pair visited so far falls short of a larger palindrome `num`. */
  lemma BelowImprovement(c: Checker, lo: int, hi: int, f1: int, f2: int, maxnum: int, num: int)
    requires forall x, y | InSearch(lo, hi, x, y) && LexLess(x, y, f1, f2) :: !Beats(c, x, y, maxnum)
    requires maxnum < num
    ensures forall x, y | InSearch(lo, hi, x, y) && LexLess(x, y, f1, f2) :: !Beats(c, x, y, num - 1)
  {
    forall x, y | InSearch(lo, hi, x, y) && LexLess(x, y, f1, f2)
      ensures !Beats(c, x, y, num - 1)
    {
      assert !Beats(c, x, y, maxnum);
    }
  }

  /** A visited pair with a larger palindromic product becomes the best
      pair. */
  lemma VisitImproves(c: Checker, lo: int, hi: int, f1: int, f2: int, maxnum: int, pair: seq<int>)
    requires InSearch(lo, hi, f1, f2)
    requires Progress(c, lo, hi, f1, f2, maxnum, pair)
    requires Beats(c, f1, f2, maxnum)
    ensures Progress(c, lo, hi, f1, f2 + 1, f1 * f2, [f1, f2])
  {
    var num := f1 * f2;
    BelowImprovement(c, lo, hi, f1, f2, maxnum, num);
    forall x, y | InSearch(lo, hi, x, y) && LexLess(x, y, f1, f2 + 1)
      ensures !Beats(c, x, y, num)
    {
      if LexLess(x, y, f1, f2) {
        assert !Beats(c, x, y, num - 1);
      } else {
        assert x == f1 && y == f2;
      }
    }
    assert maxnum >= 0 by {
      if pair != [0, 0] {
        assert Beats(c, pair[0], pair[1], 0);
      }
    }
    assert Beats(c, f1, f2, 0);
  }

  /** Any other visited pair leaves the best pair as it is. */
  lemma VisitKeeps(c: Checker, lo: int, hi: int, f1: int, f2: int, maxnum: int, pair: seq<int>)
    requires InSearch(lo, hi, f1, f2)
    requires Progress(c, lo, hi, f1, f2, maxnum, pair)
    requires !Beats(c, f1, f2, maxnum)
    ensures Progress(c, lo, hi, f1, f2 + 1, maxnum, pair)
  {
    forall x, y | InSearch(lo, hi, x, y) && LexLess(x, y, f1, f2 + 1)
      ensures !Beats(c, x, y, maxnum)
    {
      if LexLess(x, y, f1, f2) {
      }
    }
  }

  /** Finishing a row moves the search to the diagonal of the next one. */
  lemma NextRow(c: Checker, lo: int, hi: int, f1: int, maxnum: int, pair: seq<int>)
    requires Progress(c, lo, hi, f1, hi, maxnum, pair)
    ensures Progress(c, lo, hi, f1 + 1, f1 + 1, maxnum, pair)
  {
    forall x, y | InSearch(lo, hi, x, y) && LexLess(x, y, f1 + 1, f1 + 1)
      ensures !Beats(c, x, y, maxnum)
    {
      assert LexLess(x, y, f1, hi);
    }
  }

  /** The inner loop: `factor2` runs over `[factor1, maxfactor)`. */
  method SearchRow(c: Checker, lo: int, hi: int, f1: int, maxnum0: int, pair0: seq<int>)
    returns (maxnum: int, pair: seq<int>)
    requires 1 <= lo <= f1 < hi
    requires Progress(c, lo, hi, f1, f1, maxnum0, pair0)
    ensures Progress(c, lo, hi, f1 + 1, f1 + 1, maxnum, pair)
  {
    maxnum, pair := maxnum0, pair0;
    var f2 := f1;
    while f2 < hi
      invariant f1 <= f2 <= hi
      invariant Progress(c, lo, hi, f1, f2, maxnum, pair)
    {
      var num := f1 * f2;
      if Check(c, num) && num > maxnum {
        VisitImproves(c, lo, hi, f1, f2, maxnum, pair);
        maxnum := num;
        pair := [f1, f2];
      } else {
        VisitKeeps(c, lo, hi, f1, f2, maxnum, pair);
      }
      f2 := f2 + 1;
    }
    NextRow(c, lo, hi, f1, maxnum, pair);
  }

  /** Once every row is done, the best pair found is the answer. */
  lemma SearchComplete(c: Checker, lo: int, hi: int, maxnum: int, pair: seq<int>)
    requires Progress(c, lo, hi, hi, hi, maxnum, pair)
    ensures LargestPalindromePair(c, lo, hi, pair)
  {
    assert forall x, y | InSearch(lo, hi, x, y) :: LexLess(x, y, hi, hi);
  }

  /** The shared search of versions 1 and 2 over the `digits`-digit
      factors. The parser only admits `digits >= 1`. */
  method Search(c: Checker, digits: int) returns (pair: seq<int>)
    requires digits >= 1
    ensures LargestPalindromePair(c, Pow10(digits - 1), Pow10(digits), pair)
  {
    var minfactor := Pow10(digits - 1);
    var maxfactor := Pow10(digits);
    var maxnum := 0;
    pair := [0, 0];
    var f1 := minfactor;
    while f1 < maxfactor
      invariant minfactor <= f1 <= maxfactor
      invariant Progress(c, minfactor, maxfactor, f1, f1, maxnum, pair)
    {
      maxnum, pair := SearchRow(c, minfactor, maxfactor, f1, maxnum, pair);
      f1 := f1 + 1;
    }
    SearchComplete(c, minfactor, maxfactor, maxnum, pair);
  }

  /** Version 1: the search with the string check. */
  method Solution1(digits: int) returns (pair: seq<int>)
    requires digits >= 1
    ensures LargestPalindromePair(StrComp, Pow10(digits - 1), Pow10(digits), pair)
  {
    pair := Search(StrComp, digits);
  }

  /** Version 2: the search with the arithmetic check. */
  method Solution2(digits: int) returns (pair: seq<int>)
    requires digits >= 1
    ensures LargestPalindromePair(IntComp, Pow10(digits - 1), Pow10(digits), pair)
  {
    pair := Search(IntComp, digits);
  }

  /** The description determines the answer: at most one pair fits it. */
  lemma LargestPairIsUnique(c: Checker, lo: int, hi: int, p: seq<int>, q: seq<int>)
    requires LargestPalindromePair(c, lo, hi, p) && LargestPalindromePair(c, lo, hi, q)
    ensures p == q
  {
    if p != [0, 0] && q != [0, 0] {
      SameLargest(c, lo, hi, p, q);
    } else {
      NoPairOnlyIfNone(c, lo, hi, p, q);
      NoPairOnlyIfNone(c, lo, hi, q, p);
    }
  }

  /** When no pair is found, no pair fits the description. */
  lemma NoPairOnlyIfNone(c: Checker, lo: int, hi: int, p: seq<int>, q: seq<int>)
    requires LargestPalindromePair(c, lo, hi, p) && LargestPalindromePair(c, lo, hi, q)
    ensures p == [0, 0] ==> q == [0, 0]
  {
    assert q != [0, 0] ==> InSearch(lo, hi, q[0], q[1]) && Beats(c, q[0], q[1], 0);
  }

  /** Two found pairs have the same product, and neither comes first. */
  lemma SameLargest(c: Checker, lo: int, hi: int, p: seq<int>, q: seq<int>)
    requires LargestPalindromePair(c, lo, hi, p) && LargestPalindromePair(c, lo, hi, q)
    requires p != [0, 0] && q != [0, 0]
    ensures p == q
  {
    SameProduct(c, lo, hi, p, q);
    NotEarlier(c, lo, hi, p, q);
    NotEarlier(c, lo, hi, q, p);
    assert p == [p[0], p[1]] && q == [q[0], q[1]];
  }

  /** Neither found product beats the other. */
  lemma SameProduct(c: Checker, lo: int, hi: int, p: seq<int>, q: seq<int>)
    requires LargestPalindromePair(c, lo, hi, p) && LargestPalindromePair(c, lo, hi, q)
    requires p != [0, 0] && q != [0, 0]
    ensures |p| == 2 && |q| == 2 && p[0] * p[1] == q[0] * q[1]
  {
    assert !Beats(c, q[0], q[1], p[0] * p[1]);
    assert !Beats(c, p[0], p[1], q[0] * q[1]);
  }

  /** A found pair does not come before another found pair of the same
      product. */
  lemma NotEarlier(c: Checker, lo: int, hi: int, p: seq<int>, q: seq<int>)
    requires LargestPalindromePair(c, lo, hi, p) && LargestPalindromePair(c, lo, hi, q)
    requires p != [0, 0] && q != [0, 0] && p[0] * p[1] == q[0] * q[1]
    ensures !LexLess(p[0], p[1], q[0], q[1])
  {
    assert LexLess(p[0], p[1], q[0], q[1]) ==> !Beats(c, p[0], p[1], q[0] * q[1] - 1);
  }

  /** Versions 1 and 2 return the same pair for every number of digits. */
  lemma VersionsAgree(lo: int, hi: int, p: seq<int>, q: seq<int>)
    requires LargestPalindromePair(StrComp, lo, hi, p)
    requires LargestPalindromePair(IntComp, lo, hi, q)
    ensures p == q
  {
    forall x, y, m | true
      ensures Beats(IntComp, x, y, m) == Beats(StrComp, x, y, m)
    {
      CheckersAgree(x * y);
    }
    assert LargestPalindromePair(StrComp, lo, hi, q);
    LargestPairIsUnique(StrComp, lo, hi, p, q);
  }
}

=== FILE: problem005.dfy ===
/** Problem 5: the smallest positive number divisible by each of
    `1, ..., number`, by brute force over the multiples of `number`. */
module Problem005 {
  import Algebra

  /** Every `f` in `[1, n]` divides `p`. */
  predicate DividesAll(p: int, n: int) {
    forall f | 1 <= f <= n :: p % f == 0
  }

  function Factorial(n: nat): (r: nat)
    ensures r >= 1
  {
    if n == 0 then 1 else n * Factorial(n - 1)
  }

  /** `k * d` is a multiple of `d`. */
  lemma MultipleMod(k: int, d: int)
    requires d > 0
    ensures (k * d) % d == 0
  {
    Algebra.DivModUnique(k * d, d, k, 0);
  }

  /** A number divisible by `d` is its quotient times `d`. */
  lemma DivExact(g: int, d: int)
    requires d > 0 && g % d == 0
    ensures g == (g / d) * d
  {
  }

  /** `n!` is divisible by each of `1, ..., n`, so the search always ends. */
  lemma {:induction false} FactorialDividesAll(n: nat)
    ensures DividesAll(Factorial(n), n)
  {
    if n > 0 {
      FactorialDividesAll(n - 1);
      var g := Factorial(n - 1);
      forall f | 1 <= f <= n
        ensures Factorial(n) % f == 0
      {
        if f == n {
          MultipleMod(g, n);
        } else {
          assert g % f == 0;
          var q := g / f;
          DivExact(g, f);
          assert Factorial(n) == (n * q) * f;
          MultipleMod(n * q, f);
        }
      }
    }
  }

  /** The `for factor in range(1, number + 1)` loop: it breaks at the first
      factor that does not divide `product`, and falls through to the
      `else` when all do. */
  method DividesAllUpTo(product: int, number: int) returns (b: bool)
    ensures b <==> DividesAll(product, number)
  {
    var factor := 1;
    while factor < number + 1
      invariant 1 <= factor && (factor <= number + 1 || number < 1)
      invariant forall f | 1 <= f < factor :: product % f == 0
    {
      if product % factor != 0 {
        return false;
      }
      factor := factor + 1;
    }
    return true;
  }

  /** Between two consecutive multiples of `d` no number is divisible by
      `d`. */
  lemma BetweenMultiples(a: int, d: int, m: int)
    requires d > 0 && a * d < m < a * d + d
    ensures m % d != 0
  {
    Algebra.DivModUnique(m, d, a, m - a * d);
  }

  /** A multiple `k * number` that fails the test is passed over: the next
      multiple is still at most `bound`, and nothing up to it passes. */
  lemma NextMultiple(number: int, k: int, bound: int)
    requires number >= 1 && k >= 1 && k * number <= bound
    requires DividesAll(bound, number) && !DividesAll(k * number, number)
    ensures (k + 1) * number <= bound
    ensures forall m | k * number <= m < (k + 1) * number :: !DividesAll(m, number)
  {
    assert bound % number == 0;
    var b := bound / number;
    DivExact(bound, number);
    assert k != b;
    if b < k {
      Algebra.MulAtLeast(number, k - b);
    }
    Algebra.MulAtLeast(number, b - k);
    forall m | k * number <= m < (k + 1) * number
      ensures !DividesAll(m, number)
    {
      if m > k * number {
        BetweenMultiples(k, number, m);
      }
    }
  }

  /** Version 1. A non-positive `number` is returned as it is, because the
      range of factors is empty; otherwise the multiples of `number` are
      tried from `number` upwards. */
  method Solution(number: int) returns (product: int)
    ensures number <= 0 ==> product == number
    ensures number >= 1 ==> product >= 1 && DividesAll(product, number)
    ensures number >= 1 ==> forall m | 1 <= m < product :: !DividesAll(m, number)
  {
    product := number;
    if number <= 0 {
      var done := DividesAllUpTo(product, number);
      assert done;
      return;
    }
    ghost var bound := Factorial(number);
    ghost var k := 1;
    FactorialDividesAll(number);
    assert bound % number == 0;
    DivExact(bound, number);
    Algebra.MulAtLeast(number, bound / number);
    forall m | 1 <= m < number
      ensures !DividesAll(m, number)
    {
      Algebra.DivModUnique(m, number, 0, m);
    }
    while true
      invariant k >= 1 && product == k * number && product <= bound
      invariant forall m | 1 <= m < product :: !DividesAll(m, number)
      decreases bound - product
    {
      var done := DividesAllUpTo(product, number);
      if done {
        return;
      }
      NextMultiple(number, k, bound);
      product := product + number;
      k := k + 1;
    }
  }

  /** A positive multiple of 8, 9, 5 and 7 is at least their product
      2520. */
  lemma CoprimeFactors(m: int)
    requires m > 0 && m % 8 == 0 && m % 9 == 0 && m % 5 == 0 && m % 7 == 0
    ensures m >= 2520
  {
    Multiple72(m);
    Multiple360(m);
    Multiple2520(m);
    assert m == 2520 * (m / 2520);
  }

  /** Each step adds a factor that shares no prime with the product so
      far, so a multiple of both is a multiple of their product. */
  lemma Multiple72(m: int)
    requires m % 8 == 0 && m % 9 == 0
    ensures m % 72 == 0
  {
    var a := m / 8;
    var b := a / 9;
    var r := a % 9;
    assert m == 8 * a;
    assert a == 9 * b + r;
    assert m == 72 * b + 8 * r;
    assert m == 9 * (m / 9);
    assert r == 0;
    Algebra.DivModUnique(m, 72, b, 0);
  }

  lemma Multiple360(m: int)
    requires m % 72 == 0 && m % 5 == 0
    ensures m % 360 == 0
  {
    var a := m / 72;
    var b := a / 5;
    var r := a % 5;
    assert m == 72 * a;
    assert a == 5 * b + r;
    assert m == 360 * b + 72 * r;
    assert m == 5 * (m / 5);
    assert r == 0;
    Algebra.DivModUnique(m, 360, b, 0);
  }

  lemma Multiple2520(m: int)
    requires m % 360 == 0 && m % 7 == 0
    ensures m % 2520 == 0
  {
    var a := m / 360;
    var b := a / 7;
    var r := a % 7;
    assert m == 360 * a;
    assert a == 7 * b + r;
    assert m == 2520 * b + 360 * r;
    assert m == 7 * (m / 7);
    assert r == 0;
    Algebra.DivModUnique(m, 2520, b, 0);
  }

  /** The example of the problem statement: 2520 is the smallest positive
      number divisible by each of `1, ..., 10`. */
  lemma SmallestForTen()
    ensures DividesAll(2520, 10)
    ensures forall m | 1 <= m < 2520 :: !DividesAll(m, 10)
  {
    forall m | 1 <= m < 2520
      ensures !DividesAll(m, 10)
    {
      if DividesAll(m, 10) {
        assert m % 8 == 0 && m % 9 == 0 && m % 5 == 0 && m % 7 == 0;
        CoprimeFactors(m);
      }
    }
  }
}

=== FILE: problem006.dfy ===
/** Problem 6: the square of the sum of `1, ..., number` minus the sum of
    their squares. */
module Problem006 {

  /** `sum(range(1, n + 1))`: 0 for `n <= 0`. */
  function SumTo(n: int): int
    decreases n
  {
    if n <= 0 then 0 else SumTo(n - 1) + n
  }

  /** `sum(i * i for i in range(1, n + 1))`: 0 for `n <= 0`. */
  function SumSquares(n: int): int
    decreases n
  {
    if n <= 0 then 0 else SumSquares(n - 1) + n * n
  }

  /** Version 1: square of the sum minus the sum of squares. The docstring
      states the opposite difference; the code is modelled. */
  function Solution(number: int): int {
    SumTo(number) * SumTo(number) - SumSquares(number)
  }

  /** `2 * SumTo(n) == n * (n + 1)` for `n >= 0`. */
  lemma {:induction false} SumToClosedForm(n: int)
    ensures n >= 0 ==> 2 * SumTo(n) == n * (n + 1)
    decreases n
  {
    if n > 0 {
      SumToClosedForm(n - 1);
    }
  }

  /** Going from `n - 1` to `n` adds `2 n SumTo(n - 1)`, which is
      `n * n * (n - 1)`. */
  lemma Step(n: int)
    requires n >= 1
    ensures Solution(n) == Solution(n - 1) + n * n * (n - 1)
  {
    var s := SumTo(n - 1);
    assert SumTo(n) == s + n;
    SquareOfSum(s, n);
    SumToClosedForm(n - 1);
    assert 2 * s * n == ((n - 1) * n) * n;
  }

  /** `(a + b)^2 == a^2 + 2 a b + b^2`. */
  lemma SquareOfSum(a: int, b: int)
    ensures (a + b) * (a + b) == a * a + 2 * a * b + b * b
  {
  }

  /** The closed form grows by `12 n n (n - 1)` from `n - 1` to `n`. */
  lemma PolynomialStep(n: int)
    ensures n * (n + 1) * (n - 1) * (3 * n + 2)
      == (n - 1) * n * (n - 2) * (3 * n - 1) + 12 * (n * n * (n - 1))
  {
    var p := n * (n - 1);
    assert n * (n + 1) * (n - 1) * (3 * n + 2) == p * ((n + 1) * (3 * n + 2));
    assert (n - 1) * n * (n - 2) * (3 * n - 1) == p * ((n - 2) * (3 * n - 1));
    assert 12 * (n * n * (n - 1)) == p * (12 * n);
    assert (n + 1) * (3 * n + 2) == (n - 2) * (3 * n - 1) + 12 * n;
  }

  /** The closed form `n (n + 1) (n - 1) (3 n + 2) / 12`. */
  lemma {:induction false} ClosedForm(n: int)
    requires n >= 0
    ensures 12 * Solution(n) == n * (n + 1) * (n - 1) * (3 * n + 2)
    decreases n
  {
    if n > 0 {
      ClosedForm(n - 1);
      Step(n);
      PolynomialStep(n);
    }
  }

  /** The difference is never negative, and it is 0 for one number or
      none. */
  lemma {:induction false} NeverNegative(n: int)
    ensures Solution(n) >= 0
    ensures n <= 1 ==> Solution(n) == 0
    decreases n
  {
    if n >= 1 {
      NeverNegative(n - 1);
      Step(n);
      assert n * n * (n - 1) >= 0;
    }
  }

  /** The example of the problem statement: `3025 - 385 = 2640` for the
      first ten numbers. */
  lemma FirstTen()
    ensures SumTo(10) == 55 && SumSquares(10) == 385 && Solution(10) == 2640
  {
  }
}

=== FILE: problem008.dfy ===
/** Problem 8: the largest product of `digits` adjacent digits of a long
    number, given as its digit string. */
module Problem008 {
  import opened Errors
  import opened Text

  /** The product of the digit values of `w`; 1 for the empty string. */
  function DigitProduct(w: string): (p: int)
    requires AllDigits(w)
    ensures p >= 0
  {
    if |w| == 0 then 1 else DigitValue(w[0]) * DigitProduct(w[1..])
  }

  /** One window: `int` of each character, which raises `ValueError` on a
      non-digit, then `functools.reduce(operator.mul, ...)`, which raises
      `TypeError` on an empty list. */
  function WindowProduct(w: string): (r: Result<int>)
    ensures r.Err? <==> !AllDigits(w) || |w| == 0
    ensures r.Err? ==> r.error == (if AllDigits(w) then TypeError else ValueError)
    ensures r.Ok? ==> r.value == DigitProduct(w)
  {
    if !AllDigits(w) then Err(ValueError)
    else if |w| == 0 then Err(TypeError)
    else Ok(DigitProduct(w))
  }

  /** The window at `index`: `resources[index:index + digits]`, with
      Python's slice semantics (a negative `digits` counts from the end). */
  function Window(resources: string, digits: int, index: int): string {
    Slice(resources, index, index + digits)
  }

  /** The number of windows, `len(resources) - digits + 1`, when positive. */
  function WindowCount(resources: string, digits: int): int {
    |resources| - digits + 1
  }

  /** The loop from `index` on, with the best product so far. The first
      window that fails ends the loop with its error. */
  function Scan(resources: string, digits: int, index: int, best: int): (r: Result<int>)
    requires index >= 0 && best >= 0
    ensures r.Ok? ==> r.value >= best
    decreases WindowCount(resources, digits) - index
  {
    if index >= WindowCount(resources, digits) then Ok(best)
    else match WindowProduct(Window(resources, digits, index))
      case Err(e) => Err(e)
      case Ok(product) =>
        Scan(resources, digits, index + 1, if product >= best then product else best)
  }

  /** The window at `i` succeeds. */
  predicate GoodWindow(resources: string, digits: int, i: int) {
    WindowProduct(Window(resources, digits, i)).Ok?
  }

  /** The loop from `index` succeeds exactly when every window from
      `index` on succeeds. */
  lemma {:induction false} ScanOkIff(resources: string, digits: int, index: int, best: int)
    requires index >= 0 && best >= 0
    ensures Scan(resources, digits, index, best).Ok?
      <==> forall i | index <= i < WindowCount(resources, digits) :: GoodWindow(resources, digits, i)
    decreases WindowCount(resources, digits) - index
  {
    var w := WindowProduct(Window(resources, digits, index));
    var n := WindowCount(resources, digits);
    if index < n && w.Ok? {
      ScanOkIff(resources, digits, index + 1, if w.value >= best then w.value else best);
      assert GoodWindow(resources, digits, index);
      assert (forall i | index + 1 <= i < n :: GoodWindow(resources, digits, i))
        ==> (forall i | index <= i < n :: GoodWindow(resources, digits, i));
    } else if index < n {
      assert !GoodWindow(resources, digits, index);
    }
  }

  /** A failing loop reports the error of the first failing window. */
  lemma {:induction false} ScanFirstError(resources: string, digits: int, index: int, best: int)
    requires index >= 0 && best >= 0
    requires Scan(resources, digits, index, best).Err?
    ensures exists i | index <= i < WindowCount(resources, digits) ::
      && WindowProduct(Window(resources, digits, i)) == Scan(resources, digits, index, best)
      && forall j | index <= j < i :: GoodWindow(resources, digits, j)
    decreases WindowCount(resources, digits) - index
  {
    var w := WindowProduct(Window(resources, digits, index));
    if w.Ok? {
      var best' := if w.value >= best then w.value else best;
      ScanFirstError(resources, digits, index + 1, best');
      var i :| index + 1 <= i < WindowCount(resources, digits)
        && WindowProduct(Window(resources, digits, i)) == Scan(resources, digits, index + 1, best')
        && forall j | index + 1 <= j < i :: GoodWindow(resources, digits, j);
      assert forall j | index <= j < i :: GoodWindow(resources, digits, j);
    }
  }

  /** A successful loop ends with a value no window product exceeds. */
  lemma {:induction false} ScanBoundsAll(resources: string, digits: int, index: int, best: int)
    requires index >= 0 && best >= 0
    requires Scan(resources, digits, index, best).Ok?
    ensures forall i | index <= i < WindowCount(resources, digits) && GoodWindow(resources, digits, i) ::
      WindowProduct(Window(resources, digits, i)).value <= Scan(resources, digits, index, best).value
    decreases WindowCount(resources, digits) - index
  {
    if index < WindowCount(resources, digits) {
      var w := WindowProduct(Window(resources, digits, index));
      ScanBoundsAll(resources, digits, index + 1, if w.value >= best then w.value else best);
    }
  }

  /** A successful loop ends with `best` or with some window's product. */
  lemma {:induction false} ScanAttained(resources: string, digits: int, index: int, best: int)
    requires index >= 0 && best >= 0
    requires Scan(resources, digits, index, best).Ok?
    ensures var v := Scan(resources, digits, index, best).value;
      v == best || exists i | index <= i < WindowCount(resources, digits) ::
        WindowProduct(Window(resources, digits, i)) == Ok(v)
    decreases WindowCount(resources, digits) - index
  {
    if index < WindowCount(resources, digits) {
      var w := WindowProduct(Window(resources, digits, index));
      var best' := if w.value >= best then w.value else best;
      ScanAttained(resources, digits, index + 1, best');
      var v := Scan(resources, digits, index, best).value;
      if v != best' {
        var i :| index + 1 <= i < WindowCount(resources, digits)
          && WindowProduct(Window(resources, digits, i)) == Ok(v);
      }
    }
  }

  /** Version 1: the largest window product, 0 when there is no window. */
  function Solution(resources: string, digits: int): (r: Result<int>)
    ensures r.Ok? ==> r.value >= 0
  {
    Scan(resources, digits, 0, 0)
  }

  /** The answer is the largest product over all windows, and the error of
      the first bad window when there is one. */
  lemma SolutionIsMaximum(resources: string, digits: int)
    ensures var n := WindowCount(resources, digits);
      var r := Solution(resources, digits);
      && (r.Ok? <==> forall i | 0 <= i < n :: GoodWindow(resources, digits, i))
      && (r.Err? ==> exists i | 0 <= i < n ::
            && WindowProduct(Window(resources, digits, i)) == r
            && forall j | 0 <= j < i :: GoodWindow(resources, digits, j))
      && (r.Ok? ==> forall i | 0 <= i < n && GoodWindow(resources, digits, i) ::
            WindowProduct(Window(resources, digits, i)).value <= r.value)
      && (r.Ok? ==> r.value == 0 || exists i | 0 <= i < n :: WindowProduct(Window(resources, digits, i)) == Ok(r.value))
  {
    ScanOkIff(resources, digits, 0, 0);
    if Solution(resources, digits).Ok? {
      ScanBoundsAll(resources, digits, 0, 0);
      ScanAttained(resources, digits, 0, 0);
    } else {
      ScanFirstError(resources, digits, 0, 0);
    }
  }

  /** More digits than the number has: no window, and the answer is 0. */
  lemma TooManyDigits(resources: string, digits: int)
    requires digits > |resources|
    ensures Solution(resources, digits) == Ok(0)
  {
  }

  /** Zero digits: the first window is empty and the product of nothing
      raises `TypeError`. */
  lemma ZeroDigits(resources: string)
    ensures Solution(resources, 0) == Err(TypeError)
  {
    assert Window(resources, 0, 0) == [];
  }

  /** A non-digit character inside the first window raises `ValueError`. */
  lemma NonDigitInFirstWindow(resources: string, digits: int, k: int)
    requires 0 <= k < digits <= |resources| && !IsDigit(resources[k])
    ensures Solution(resources, digits) == Err(ValueError)
  {
    assert Window(resources, digits, 0) == resources[..digits];
    assert Window(resources, digits, 0)[k] == resources[k];
  }

  /** A window that holds a `0` contributes nothing. */
  lemma {:induction false} ZeroDigitZeroProduct(w: string, k: int)
    requires AllDigits(w) && 0 <= k < |w| && w[k] == '0'
    ensures DigitProduct(w) == 0
  {
    if k > 0 {
      ZeroDigitZeroProduct(w[1..], k - 1);
    }
  }

  /** The example of the problem statement: four adjacent 9, 9, 8, 9 give
      5832. */
  lemma FourDigits()
    ensures WindowProduct("9989") == Ok(5832)
  {
  }
}

=== FILE: problem009.dfy ===
/** Problem 9: a Pythagorean triple `a^2 + b^2 == c^2` with a given sum
    `a + b + c`. Version 1 searches by brute force; version 2 first tries
    multiples of a table of primitive triples and falls back on the same
    brute force. */
module Problem009 {
  import opened Errors

  /** A triple `(a, b, c)`. */
  type Triple = (int, int, int)

  /** `c = number - a - b` completes a Pythagorean triple. */
  predicate Hit(number: int, a: int, b: int) {
    a * a + b * b == (number - a - b) * (number - a - b)
  }

  /** The bound of `range(1, max_a)`: `number // 3 - 1`, plus one. */
  function MaxA(number: int): int {
    number / 3
  }

  /** The bound of `range(2, max_b)`: `(number - 1) // 2`, plus one. */
  function MaxB(number: int): int {
    (number - 1) / 2 + 1
  }

  /** The pairs the brute force tries. */
  predicate InRange(number: int, a: int, b: int) {
    1 <= a < MaxA(number) && 2 <= b < MaxB(number)
  }

  /** `(x, y)` is tried before `(a, b)`. */
  predicate LexLess(x: int, y: int, a: int, b: int) {
    x < a || (x == a && y < b)
  }

  /** `(a, b)` is the first pair the brute force tries that completes a
      triple. */
  ghost predicate FirstHit(number: int, a: int, b: int) {
    && InRange(number, a, b) && Hit(number, a, b)
    && forall x, y | InRange(number, x, y) && LexLess(x, y, a, b) :: !Hit(number, x, y)
  }

  /** The inner loop: `b` runs over `[b, max_b)` for a fixed `a`. */
  function SearchB(number: int, a: int, b: int): (r: Option<Triple>)
    decreases MaxB(number) - b
  {
    if b >= MaxB(number) then None
    else if Hit(number, a, b) then Some((a, b, number - a - b))
    else SearchB(number, a, b + 1)
  }

  /** The outer loop: `a` runs over `[a, max_a)`. */
  function SearchA(number: int, a: int): (r: Option<Triple>)
    decreases MaxA(number) - a
  {
    if a >= MaxA(number) then None
    else match SearchB(number, a, 2)
      case Some(t) => Some(t)
      case None => SearchA(number, a + 1)
  }

  /** Version 1, and `_bruteforce` of version 2: the first hit in the
      search order, or `None`. */
  function Bruteforce(number: int): Option<Triple> {
    SearchA(number, 1)
  }

  /** The inner loop finds the first `b` from `b0` on that completes a
      triple. */
  lemma {:induction false} SearchBResult(number: int, a: int, b0: int)
    ensures SearchB(number, a, b0).None? <==> forall y | b0 <= y < MaxB(number) :: !Hit(number, a, y)
    ensures SearchB(number, a, b0).Some? ==> exists b | b0 <= b < MaxB(number) ::
      && SearchB(number, a, b0) == Some((a, b, number - a - b))
      && Hit(number, a, b)
      && forall y | b0 <= y < b :: !Hit(number, a, y)
    decreases MaxB(number) - b0
  {
    if b0 < MaxB(number) && !Hit(number, a, b0) {
      SearchBResult(number, a, b0 + 1);
      if SearchB(number, a, b0).Some? {
        var b :| b0 + 1 <= b < MaxB(number) && SearchB(number, a, b0 + 1) == Some((a, b, number - a - b))
          && Hit(number, a, b) && forall y | b0 + 1 <= y < b :: !Hit(number, a, y);
        assert forall y | b0 <= y < b :: !Hit(number, a, y);
      }
    }
  }

  /** The outer loop finds the first hit from row `a0` on. */
  lemma {:induction false} SearchAResult(number: int, a0: int)
    requires a0 >= 1
    ensures SearchA(number, a0).None? <==>
      forall x, y | InRange(number, x, y) && a0 <= x :: !Hit(number, x, y)
    ensures SearchA(number, a0).Some? ==> exists a, b ::
      && a0 <= a && InRange(number, a, b)
      && SearchA(number, a0) == Some((a, b, number - a - b))
      && Hit(number, a, b)
      && forall x, y | InRange(number, x, y) && a0 <= x && LexLess(x, y, a, b) :: !Hit(number, x, y)
    decreases MaxA(number) - a0
  {
    if a0 < MaxA(number) {
      SearchBResult(number, a0, 2);
      if SearchB(number, a0, 2).Some? {
        var b :| 2 <= b < MaxB(number) && SearchB(number, a0, 2) == Some((a0, b, number - a0 - b))
          && Hit(number, a0, b) && forall y | 2 <= y < b :: !Hit(number, a0, y);
        assert InRange(number, a0, b);
      } else {
        SearchAResult(number, a0 + 1);
        if SearchA(number, a0).Some? {
          var a, b :| a0 + 1 <= a && InRange(number, a, b)
            && SearchA(number, a0 + 1) == Some((a, b, number - a - b)) && Hit(number, a, b)
            && forall x, y | InRange(number, x, y) && a0 + 1 <= x && LexLess(x, y, a, b) :: !Hit(number, x, y);
          assert a0 <= a;
        }
      }
    }
  }

  /** The brute force returns the first hit, and `None` exactly when no
      pair in range completes a triple. */
  lemma BruteforceIsFirstHit(number: int)
    ensures Bruteforce(number).None? <==> forall x, y | InRange(number, x, y) :: !Hit(number, x, y)
    ensures Bruteforce(number).Some? ==> exists a, b ::
      && FirstHit(number, a, b) && Bruteforce(number) == Some((a, b, number - a - b))
  {
    SearchAResult(number, 1);
    if Bruteforce(number).Some? {
      var a, b :| 1 <= a && InRange(number, a, b)
        && SearchA(number, 1) == Some((a, b, number - a - b)) && Hit(number, a, b)
        && forall x, y | InRange(number, x, y) && 1 <= x && LexLess(x, y, a, b) :: !Hit(number, x, y);
      assert FirstHit(number, a, b);
    }
  }

  /** A hit in range is a proper triple: `0 < a`, `0 < b < c`,
      `a^2 + b^2 == c^2` and `a + b + c == number`. */
  lemma HitIsTriple(number: int, a: int, b: int)
    requires InRange(number, a, b) && Hit(number, a, b)
    ensures var c := number - a - b;
      && a * a + b * b == c * c && a + b + c == number
      && 0 < a && 0 < b < c
  {
    var c := number - a - b;
    assert c > 0;
    MulMonotone(1, a);
    MulMonotone(c, b);
  }

  lemma MulMonotone(x: int, y: int)
    ensures 0 < x <= y ==> x * x <= y * y
  {
    if 0 < x <= y {
      assert x * x <= x * y;
    }
  }

  /** There is at most one first hit. */
  lemma FirstHitUnique(number: int, a: int, b: int, a': int, b': int)
    requires FirstHit(number, a, b) && FirstHit(number, a', b')
    ensures a == a' && b == b'
  {
    assert LexLess(a, b, a', b') ==> !Hit(number, a, b);
    assert LexLess(a', b', a, b) ==> !Hit(number, a', b');
  }

  /** The first hit has `a <= b`: a hit with `a > b` has its mirror image
      earlier in the search. */
  lemma FirstHitOrdered(number: int, a: int, b: int)
    requires FirstHit(number, a, b)
    ensures a <= b
  {
    assert Hit(number, b, a);
    assert b < a ==> InRange(number, b, a) && LexLess(b, a, a, b);
  }

  /** The example of the problem statement: 3, 4, 5 is the triple with sum
      12, and it is the first hit. */
  lemma SumTwelve()
    ensures FirstHit(12, 3, 4)
    ensures Bruteforce(12) == Some((3, 4, 5))
  {
    assert MaxA(12) == 4 && MaxB(12) == 6;
    forall x, y | InRange(12, x, y) && LexLess(x, y, 3, 4)
      ensures !Hit(12, x, y)
    {
      assert x == 1 || x == 2 || (x == 3 && y < 4);
    }
    BruteforceIsFirstHit(12);
    var a, b :| FirstHit(12, a, b) && Bruteforce(12) == Some((a, b, 12 - a - b));
    FirstHitUnique(12, a, b, 3, 4);
  }

  // ---------------------------------------------------------------------
  // Version 2: scaled primitive triples
  // ---------------------------------------------------------------------

  /** A row of the table: `(a, b, c, a + b + c)`. */
  type Row = (int, int, int, int)

  /** The 47 primitive triples with entries below 300, in the order of the
      source table, in four runs. */
  const Primitives: seq<Row> := Primitives1 + Primitives2 + Primitives3 + Primitives4

  const Primitives1: seq<Row> := [
    (3, 4, 5, 12), (5, 12, 13, 30), (8, 15, 17, 40),
    (7, 24, 25, 56), (20, 21, 29, 70), (12, 35, 37, 84),
    (9, 40, 41, 90), (28, 45, 53, 126), (11, 60, 61, 132),
    (16, 63, 65, 144), (33, 56, 65, 154), (48, 55, 73, 176)]

  const Primitives2: seq<Row> := [
    (13, 84, 85, 182), (36, 77, 85, 198), (39, 80, 89, 208),
    (65, 72, 97, 234), (20, 99, 101, 220), (60, 91, 109, 260),
    (15, 112, 113, 240), (44, 117, 125, 286), (88, 105, 137, 330),
    (17, 144, 145, 306), (24, 143, 145, 312), (51, 140, 149, 340)]

  const Primitives3: seq<Row> := [
    (85, 132, 157, 374), (119, 120, 169, 408), (52, 165, 173, 390),
    (19, 180, 181, 380), (57, 176, 185, 418), (104, 153, 185, 442),
    (95, 168, 193, 456), (28, 195, 197, 420), (84, 187, 205, 476),
    (133, 156, 205, 494), (21, 220, 221, 462), (140, 171, 221, 532)]

  const Primitives4: seq<Row> := [
    (60, 221, 229, 510), (105, 208, 233, 546), (120, 209, 241, 570),
    (32, 255, 257, 544), (23, 264, 265, 552), (96, 247, 265, 608),
    (69, 260, 269, 598), (115, 252, 277, 644), (160, 231, 281, 672),
    (161, 240, 289, 690), (68, 285, 293, 646)]

  /** A row is a Pythagorean triple of positive numbers with its sum in the
      last column. */
  predicate ValidRow(row: Row) {
    && 0 < row.0 < row.2 && 0 < row.1 < row.2
    && row.0 * row.0 + row.1 * row.1 == row.2 * row.2
    && row.0 + row.1 + row.2 == row.3
  }

  predicate ValidRows(rows: seq<Row>) {
    forall i | 0 <= i < |rows| :: ValidRow(rows[i])
  }

  lemma ValidRowsConcat(x: seq<Row>, y: seq<Row>)
    requires ValidRows(x) && ValidRows(y)
    ensures ValidRows(x + y)
  {
    forall i | 0 <= i < |x + y|
      ensures ValidRow((x + y)[i])
    {
      if i >= |x| {
        assert (x + y)[i] == y[i - |x|];
      }
    }
  }

  /** The table holds what its comment promises. */
  lemma TableIsValid()
    ensures |Primitives| == 47
    ensures ValidRows(Primitives)
  {
    assert ValidRows(Primitives1);
    assert ValidRows(Primitives2);
    assert ValidRows(Primitives3);
    assert ValidRows(Primitives4);
    ValidRowsConcat(Primitives1, Primitives2);
    ValidRowsConcat(Primitives1 + Primitives2, Primitives3);
    ValidRowsConcat(Primitives1 + Primitives2 + Primitives3, Primitives4);
  }

  /** `tuple(i * multiplier for i in primitive[:3])`. */
  function Scale(row: Row, k: int): Triple {
    (row.0 * k, row.1 * k, row.2 * k)
  }

  /** The loop over `table` from row `i`: the first row whose sum divides
      `number` gives the scaled triple; past the table, the brute force. */
  function FromTable(number: int, table: seq<Row>, i: nat): (r: Option<Triple>)
    requires ValidRows(table) && i <= |table|
    decreases |table| - i
  {
    if i == |table| then Bruteforce(number)
    else if number % table[i].3 == 0 then Some(Scale(table[i], number / table[i].3))
    else FromTable(number, table, i + 1)
  }

  /** Version 2. */
  function Solution2(number: int): Option<Triple> {
    TableIsValid();
    FromTable(number, Primitives, 0)
  }

  /** `i` is the first row of `table` whose sum divides `number`. */
  ghost predicate FirstDividingRow(number: int, table: seq<Row>, i: int)
    requires ValidRows(table)
  {
    && 0 <= i < |table| && number % table[i].3 == 0
    && forall j | 0 <= j < i :: number % table[j].3 != 0
  }

  /** No row of `table` from `i0` on has a sum dividing `number`. */
  ghost predicate NoDividingRow(number: int, table: seq<Row>, i0: nat)
    requires ValidRows(table)
  {
    forall j | i0 <= j < |table| :: number % table[j].3 != 0
  }

  /** The loop scales the first row from `i0` on whose sum divides
      `number`, and falls back on the brute force when there is none. */
  lemma {:induction false} FromTableResult(number: int, table: seq<Row>, i0: nat)
    requires ValidRows(table) && i0 <= |table|
    ensures NoDividingRow(number, table, i0) ==> FromTable(number, table, i0) == Bruteforce(number)
    ensures forall i | i0 <= i < |table| && FirstDividingRow(number, table, i) ::
      FromTable(number, table, i0) == Some(Scale(table[i], number / table[i].3))
    decreases |table| - i0
  {
    if i0 < |table| && number % table[i0].3 != 0 {
      FromTableResult(number, table, i0 + 1);
    }
  }

  /** A dividing row means there is a first one. */
  lemma {:induction false} FirstDividingExists(number: int, table: seq<Row>, j: int)
    requires ValidRows(table) && 0 <= j < |table| && number % table[j].3 == 0
    ensures exists i :: FirstDividingRow(number, table, i)
    decreases j
  {
    if forall k | 0 <= k < j :: number % table[k].3 != 0 {
      assert FirstDividingRow(number, table, j);
    } else {
      var k :| 0 <= k < j && number % table[k].3 == 0;
      FirstDividingExists(number, table, k);
    }
  }

  /** A valid row whose sum divides `number`, scaled by the quotient, is a
      triple with sum `number`. */
  lemma ScaledRow(row: Row, number: int)
    requires ValidRow(row) && number % row.3 == 0
    ensures var t := Scale(row, number / row.3);
      && t.0 * t.0 + t.1 * t.1 == t.2 * t.2
      && t.0 + t.1 + t.2 == number
  {
    var k := number / row.3;
    assert number == row.3 * k;
    var a, b, c := row.0, row.1, row.2;
    assert a * k + b * k + c * k == (a + b + c) * k;
    assert (a * k) * (a * k) == (a * a) * (k * k);
    assert (b * k) * (b * k) == (b * b) * (k * k);
    assert (c * k) * (c * k) == (c * c) * (k * k);
    assert (a * a) * (k * k) + (b * b) * (k * k) == (a * a + b * b) * (k * k);
  }

  /** Whatever the brute force returns is a triple with the requested
      sum. */
  lemma BruteforceIsTriple(number: int)
    requires Bruteforce(number).Some?
    ensures var t := Bruteforce(number).value;
      && t.0 * t.0 + t.1 * t.1 == t.2 * t.2 && t.0 + t.1 + t.2 == number
      && 0 < t.0 && 0 < t.1 < t.2
  {
    BruteforceIsFirstHit(number);
    var a, b :| FirstHit(number, a, b) && Bruteforce(number) == Some((a, b, number - a - b));
    HitIsTriple(number, a, b);
  }

  /** Without a first dividing row, no row divides. */
  lemma NoFirstDividingRow(number: int, table: seq<Row>)
    requires ValidRows(table) && forall i :: !FirstDividingRow(number, table, i)
    ensures NoDividingRow(number, table, 0)
  {
    forall j | 0 <= j < |table|
      ensures number % table[j].3 != 0
    {
      if number % table[j].3 == 0 {
        FirstDividingExists(number, table, j);
      }
    }
  }

  /** Whatever the loop returns is a triple with the requested sum, whether
      it comes from the table or from the brute force. */
  lemma FromTableIsTriple(number: int, table: seq<Row>)
    requires ValidRows(table) && FromTable(number, table, 0).Some?
    ensures var t := FromTable(number, table, 0).value;
      t.0 * t.0 + t.1 * t.1 == t.2 * t.2 && t.0 + t.1 + t.2 == number
  {
    FromTableResult(number, table, 0);
    if i :| FirstDividingRow(number, table, i) {
      var row := table[i];
      ScaledRow(row, number);
    } else {
      NoFirstDividingRow(number, table);
      BruteforceIsTriple(number);
    }
  }

  /** Version 2 scales the first dividing row of the table, falls back on
      the brute force, and always answers with a triple of the requested
      sum. */
  lemma Solution2Result(number: int)
    ensures ValidRows(Primitives)
    ensures NoDividingRow(number, Primitives, 0) ==> Solution2(number) == Bruteforce(number)
    ensures forall i | FirstDividingRow(number, Primitives, i) ::
      Solution2(number) == Some(Scale(Primitives[i], number / Primitives[i].3))
    ensures Solution2(number).Some? ==> var t := Solution2(number).value;
      t.0 * t.0 + t.1 * t.1 == t.2 * t.2 && t.0 + t.1 + t.2 == number
  {
    TableIsValid();
    FromTableResult(number, Primitives, 0);
    if Solution2(number).Some? {
      FromTableIsTriple(number, Primitives);
    }
  }

  /** The example of the problem statement, through the first row. */
  lemma Solution2SumTwelve()
    ensures Solution2(12) == Some((3, 4, 5))
  {
    assert Primitives[0] == (3, 4, 5, 12);
  }

  /** The versions can disagree: for 60 the table scales 3, 4, 5 to
      15, 20, 25, where the brute force reaches 10, 24, 26 first. */
  lemma VersionsDisagreeAtSixty()
    ensures Solution2(60) == Some((15, 20, 25))
    ensures Hit(60, 10, 24) && InRange(60, 10, 24)
  {
    assert Primitives[0] == (3, 4, 5, 12);
  }

  /** For a sum of 0 the table answers with the degenerate `(0, 0, 0)`,
      where the brute force finds nothing. */
  lemma ZeroSum()
    ensures Solution2(0) == Some((0, 0, 0))
    ensures Bruteforce(0) == None
  {
    assert Primitives[0] == (3, 4, 5, 12);
  }
}

=== FILE: run_examples.dfy ===
/** The harness running problem 6, whose only version declares
    `solution(resources, args)`, while `run_solution` passes the arguments
    alone. */
module RunExamples {
  import opened Errors
  import opened Classes
  import opened Euler
  import Problem006

  /** `version001.solution` of problem 6 applied to the parsed `--number`;
      a missing argument object fails on `args.number`. */
  function SumSquareDifference(args: Option<int>): Result<int> {
    if args.Some? then Ok(Problem006.Solution(args.value)) else Err(AttributeError)
  }

  /** Problem 6 as loaded for `--number 10`: one version, declaring two
      parameters. */
  function ProblemSix(): (p: Problem<int, int>)
    ensures p.versions.Valid() && p.versions.keys == ["version001"]
  {
    Problem(Some(10), "Problem 006 - Sum square difference", "", "",
            Dict(["version001"], map["version001" := Solution(2, SumSquareDifference)]))
  }

  /** `run -p 6 -n 10` raises `TypeError` before printing any version line, where
      the corrected call yields 2640. */
  lemma ProblemSixRunRaises(fmt: Formats)
    ensures RunSolution(ProblemSix(), "version001") == Err(TypeError)
    ensures RunSolutionCorrected(ProblemSix(), "version001") == Ok(2640)
    ensures WorkloadRun(ProblemSix(), None, fmt) == RunOutcome([], Some(TypeError))
  {
    Problem006.FirstTen();
    var p := ProblemSix();
    assert SelectedVersions(p, None, fmt) == ["version001"];
  }
}

=== FILE: sorting.dfy ===
/** Sorted sequences of integers: Python's `sorted` and `bisect.insort`.

    Both are modelled on `seq<int>`; `InsertSorted` is the insertion
    `bisect.insort` performs (to the right of any equal entries) and `Sort` is
    the ascending sort `sorted` returns. */
module Sorting {

  ghost predicate Sorted(xs: seq<int>) {
    forall i, j | 0 <= i < j < |xs| :: xs[i] <= xs[j]
  }

  /** The index `bisect.bisect_right` finds: every entry before it is at most
      `x`, every entry from it on is greater than `x`. */
  function BisectRight(xs: seq<int>, x: int): (k: nat)
    requires Sorted(xs)
    ensures k <= |xs|
    ensures forall i | 0 <= i < k :: xs[i] <= x
    ensures forall i | k <= i < |xs| :: x < xs[i]
  {
    if |xs| == 0 then 0
    else if xs[|xs| - 1] <= x then |xs|
    else BisectRight(xs[..|xs| - 1], x)
  }

  /** `bisect.insort(xs, x)`: `x` enters after every entry not greater than
      it, so the list stays sorted and gains exactly `x`. */
  function InsertSorted(xs: seq<int>, x: int): (r: seq<int>)
    requires Sorted(xs)
    ensures Sorted(r)
    ensures multiset(r) == multiset(xs) + multiset{x}
    ensures |r| == |xs| + 1
  {
    var k := BisectRight(xs, x);
    assert xs == xs[..k] + xs[k..];
    xs[..k] + [x] + xs[k..]
  }

  /** Python's `sorted` on a list of integers. */
  function Sort(xs: seq<int>): (r: seq<int>)
    ensures Sorted(r)
    ensures multiset(r) == multiset(xs)
    ensures |r| == |xs|
  {
    if |xs| == 0 then []
    else
      assert xs == xs[..|xs| - 1] + [xs[|xs| - 1]];
      InsertSorted(Sort(xs[..|xs| - 1]), xs[|xs| - 1])
  }

  /** A sorted permutation is unique: whatever sorts a list ascending yields
      the same list as `Sort`. */
  lemma {:induction false} SortedPermutationUnique(a: seq<int>, b: seq<int>)
    requires Sorted(a) && Sorted(b)
    requires multiset(a) == multiset(b)
    ensures a == b
  {
    if |a| == 0 {
      assert |multiset(b)| == 0;
    } else {
      SameLength(a, b);
      SameFirst(a, b);
      SameRest(a, b);
      SortedPermutationUnique(a[1..], b[1..]);
      assert a == [a[0]] + a[1..];
      assert b == [b[0]] + b[1..];
    }
  }

  lemma SameLength(a: seq<int>, b: seq<int>)
    requires multiset(a) == multiset(b)
    ensures |a| == |b|
  {
    assert |a| == |multiset(a)| && |b| == |multiset(b)|;
  }

  /** Two sorted permutations of each other start with the same value: the
      minimum. */
  lemma SameFirst(a: seq<int>, b: seq<int>)
    requires Sorted(a) && Sorted(b) && |a| > 0 && |b| > 0
    requires multiset(a) == multiset(b)
    ensures a[0] == b[0]
  {
    assert a[0] in multiset(b) by { assert a[0] in multiset(a); }
    assert b[0] in multiset(a) by { assert b[0] in multiset(b); }
    var i :| 0 <= i < |b| && b[i] == a[0];
    var j :| 0 <= j < |a| && a[j] == b[0];
  }

  /** Removing the same first value leaves permutations of each other. */
  lemma SameRest(a: seq<int>, b: seq<int>)
    requires |a| > 0 && |b| > 0 && a[0] == b[0]
    requires multiset(a) == multiset(b)
    ensures multiset(a[1..]) == multiset(b[1..])
  {
    assert a == [a[0]] + a[1..];
    assert b == [b[0]] + b[1..];
    assert multiset(a[1..]) == multiset(a) - multiset{a[0]};
    assert multiset(b[1..]) == multiset(b) - multiset{b[0]};
  }

  function Sum(xs: seq<int>): int {
    if |xs| == 0 then 0 else Sum(xs[..|xs| - 1]) + xs[|xs| - 1]
  }

  /** The first entry of a non-empty sorted list is its minimum and the last
      entry its maximum. */
  lemma EndsAreExtremes(xs: seq<int>)
    requires Sorted(xs) && |xs| > 0
    ensures forall i | 0 <= i < |xs| :: xs[0] <= xs[i] <= xs[|xs| - 1]
  {
  }
}

=== FILE: text.dfy ===
/** Character classes and string helpers with Python's `str` semantics:
    `str.strip()`, `str.split(",")`, `str.lower()` and the decimal value of a
    digit run. */
module Text {

  predicate IsDigit(c: char) {
    '0' <= c <= '9'
  }

  predicate AllDigits(s: string) {
    forall i | 0 <= i < |s| :: IsDigit(s[i])
  }

  /** The characters Python's `str.isspace` accepts, and so the ones
      `str.strip()` with no argument removes. */
  predicate IsSpace(c: char) {
    var n := c as int;
    || n == 0x20 || 0x09 <= n <= 0x0D || 0x1C <= n <= 0x1F
    || n == 0x85 || n == 0xA0 || n == 0x1680 || 0x2000 <= n <= 0x200A
    || n == 0x2028 || n == 0x2029 || n == 0x202F || n == 0x205F || n == 0x3000
  }

  /** The number of white-space characters `s` starts with. */
  function LeadingSpace(s: string): (k: nat)
    ensures k <= |s|
    ensures forall i | 0 <= i < k :: IsSpace(s[i])
    ensures k < |s| ==> !IsSpace(s[k])
  {
    if |s| > 0 && IsSpace(s[0]) then 1 + LeadingSpace(s[1..]) else 0
  }

  /** The number of white-space characters `s` ends with. */
  function TrailingSpace(s: string): (k: nat)
    ensures k <= |s|
    ensures forall i | |s| - k <= i < |s| :: IsSpace(s[i])
    ensures k < |s| ==> !IsSpace(s[|s| - 1 - k])
  {
    if |s| > 0 && IsSpace(s[|s| - 1]) then 1 + TrailingSpace(s[..|s| - 1]) else 0
  }

  /** The leading white space is the run of white space that ends at the
      end of `s` or before a character that is not white space. */
  lemma LeadingSpaceUnique(s: string, k: nat)
    requires k <= |s|
    requires forall i | 0 <= i < k :: IsSpace(s[i])
    requires k < |s| ==> !IsSpace(s[k])
    ensures LeadingSpace(s) == k
  {
    var n := LeadingSpace(s);
    assert n < |s| ==> !IsSpace(s[n]);
  }

  /** The trailing white space, characterised in the same way. */
  lemma TrailingSpaceUnique(s: string, k: nat)
    requires k <= |s|
    requires forall i | |s| - k <= i < |s| :: IsSpace(s[i])
    requires k < |s| ==> !IsSpace(s[|s| - 1 - k])
    ensures TrailingSpace(s) == k
  {
    var n := TrailingSpace(s);
    assert n < |s| ==> !IsSpace(s[|s| - 1 - n]);
  }

  /** `s.lstrip()`. */
  function StripLeft(s: string): (r: string)
    ensures |r| <= |s| && r == s[|s| - |r|..]
    ensures |r| > 0 ==> !IsSpace(r[0])
    ensures forall i | 0 <= i < |s| - |r| :: IsSpace(s[i])
  {
    s[LeadingSpace(s)..]
  }

  /** `s.rstrip()`. */
  function StripRight(s: string): (r: string)
    ensures |r| <= |s| && r == s[..|r|]
    ensures |r| > 0 ==> !IsSpace(r[|r| - 1])
    ensures forall i | |r| <= i < |s| :: IsSpace(s[i])
  {
    s[..|s| - TrailingSpace(s)]
  }

  /** `s.strip()`: the longest infix of `s` with no white space at either
      end, obtained by removing only white space. */
  function Strip(s: string): (r: string)
    ensures |r| > 0 ==> !IsSpace(r[0]) && !IsSpace(r[|r| - 1])
    ensures var off := |s| - |StripLeft(s)|;
      && off + |r| <= |s|
      && r == s[off..off + |r|]
      && (forall i | 0 <= i < off :: IsSpace(s[i]))
      && (forall i | off + |r| <= i < |s| :: IsSpace(s[i]))
  {
    StripShape(s);
    StripRight(StripLeft(s))
  }

  /** Where `Strip` cuts: white space before the offset of the left strip,
      then the result, then white space. */
  lemma StripShape(s: string)
    ensures var l := StripLeft(s);
      var r := StripRight(l);
      var off := |s| - |l|;
      && off + |r| <= |s|
      && r == s[off..off + |r|]
      && (forall i | off + |r| <= i < |s| :: IsSpace(s[i]))
  {
    var l := StripLeft(s);
    var r := StripRight(l);
    var off := |s| - |l|;
    assert s[off..off + |r|] == l[..|r|];
    forall i | off + |r| <= i < |s|
      ensures IsSpace(s[i])
    {
      assert s[i] == l[i - off];
    }
  }

  /** Stripping touches only white space: padding a string that has no
      white space at its ends, by white space on either side, strips back to
      that string. */
  lemma StripPadded(pre: string, t: string, post: string)
    requires forall i | 0 <= i < |pre| :: IsSpace(pre[i])
    requires forall i | 0 <= i < |post| :: IsSpace(post[i])
    requires |t| > 0 ==> !IsSpace(t[0]) && !IsSpace(t[|t| - 1])
    ensures Strip(pre + t + post) == t
  {
    var s := pre + t + post;
    if |t| == 0 {
      LeadingSpaceUnique(s, |s|);
      assert StripLeft(s) == [];
    } else {
      LeadingSpaceUnique(s, |pre|);
      assert StripLeft(s) == t + post;
      StripRightPadded(t, post);
    }
  }

  lemma StripLeftPadded(pre: string, s: string)
    requires forall i | 0 <= i < |pre| :: IsSpace(pre[i])
    requires |s| > 0 ==> !IsSpace(s[0])
    ensures StripLeft(pre + s) == s
  {
    LeadingSpaceUnique(pre + s, |pre|);
    assert (pre + s)[|pre|..] == s;
  }

  lemma StripRightPadded(s: string, post: string)
    requires forall i | 0 <= i < |post| :: IsSpace(post[i])
    requires |s| > 0 ==> !IsSpace(s[|s| - 1])
    ensures StripRight(s + post) == s
  {
    TrailingSpaceUnique(s + post, |post|);
    assert (s + post)[..|s|] == s;
  }

  /** A string with no white space at its ends is its own stripped form. */
  lemma StripClean(t: string)
    requires |t| > 0 ==> !IsSpace(t[0]) && !IsSpace(t[|t| - 1])
    ensures Strip(t) == t
  {
    LeadingSpaceUnique(t, 0);
    TrailingSpaceUnique(t, 0);
  }

  /** Stripping twice is stripping once. */
  lemma StripIdempotent(s: string)
    ensures Strip(Strip(s)) == Strip(s)
  {
    StripClean(Strip(s));
  }

  /** Index of the first `c` in `s`, or `|s|` when there is none. */
  function IndexOf(s: string, c: char): (k: nat)
    ensures k <= |s|
    ensures k < |s| ==> s[k] == c
    ensures forall i | 0 <= i < k :: s[i] != c
  {
    if |s| == 0 then 0
    else if s[0] == c then 0
    else 1 + IndexOf(s[1..], c)
  }

  /** `s.split(sep)` for a one-character separator: the pieces between
      separators, including empty ones; there is always at least one. */
  function Split(s: string, sep: char): (parts: seq<string>)
    ensures |parts| >= 1
    ensures forall p | p in parts :: sep !in p
    decreases |s|
  {
    var k := IndexOf(s, sep);
    if k == |s| then [s] else [s[..k]] + Split(s[k + 1..], sep)
  }

  function Join(parts: seq<string>, sep: char): string
    requires |parts| >= 1
  {
    if |parts| == 1 then parts[0] else parts[0] + [sep] + Join(parts[1..], sep)
  }

  /** Splitting loses nothing: joining the pieces with the separator gives
      back the original string. */
  lemma {:induction false} SplitJoin(s: string, sep: char)
    ensures Join(Split(s, sep), sep) == s
    decreases |s|
  {
    var k := IndexOf(s, sep);
    if k < |s| {
      var rest := s[k + 1..];
      SplitJoin(rest, sep);
      JoinCons(s[..k], Split(rest, sep), sep);
      Around(s, k);
    }
  }

  /** A string is what comes before position `k`, the character at `k`,
      and what comes after. */
  lemma Around(s: string, k: nat)
    requires k < |s|
    ensures s == s[..k] + [s[k]] + s[k + 1..]
  {
  }

  lemma JoinCons(head: string, tail: seq<string>, sep: char)
    requires |tail| >= 1
    ensures Join([head] + tail, sep) == head + [sep] + Join(tail, sep)
  {
    assert ([head] + tail)[1..] == tail;
  }

  /** A string without the separator splits into itself alone. */
  lemma SplitNoSeparator(s: string, sep: char)
    requires sep !in s
    ensures Split(s, sep) == [s]
  {
  }

  /** `c.lower()` restricted to ASCII letters. */
  function LowerChar(c: char): (r: char)
    ensures 'A' <= c <= 'Z' ==> 'a' <= r <= 'z'
    ensures !('A' <= c <= 'Z') ==> r == c
  {
    if 'A' <= c <= 'Z' then (c as int - 'A' as int + 'a' as int) as char else c
  }

  /** `c.upper()` restricted to ASCII letters. */
  function UpperChar(c: char): (r: char)
    ensures 'a' <= c <= 'z' ==> 'A' <= r <= 'Z' && LowerChar(r) == c
    ensures !('a' <= c <= 'z') ==> r == c
  {
    if 'a' <= c <= 'z' then (c as int - 'a' as int + 'A' as int) as char else c
  }

  function Lower(s: string): (r: string)
    ensures |r| == |s|
    ensures forall i | 0 <= i < |s| :: r[i] == LowerChar(s[i])
  {
    seq(|s|, i requires 0 <= i < |s| => LowerChar(s[i]))
  }

  /** A slice bound as Python normalises it for a sequence of length `n`:
      negative bounds count from the end, and the result is clamped to
      `[0, n]`. */
  function SliceBound(i: int, n: nat): (k: nat)
    ensures k <= n
    ensures 0 <= i <= n ==> k == i
    ensures i < 0 && 0 <= n + i ==> k == n + i
    ensures n + i < 0 ==> k == 0
    ensures n < i ==> k == n
  {
    if i < 0 then (if i + n < 0 then 0 else i + n)
    else if i > n then n
    else i
  }

  /** `s[i:j]` with Python's slice semantics. */
  function Slice(s: string, i: int, j: int): (r: string)
    ensures 0 <= i <= j <= |s| ==> r == s[i..j]
    ensures |r| <= |s|
  {
    var a := SliceBound(i, |s|);
    var b := SliceBound(j, |s|);
    if a < b then s[a..b] else []
  }

  /** `s[i:]` with Python's slice semantics. */
  function SliceFrom(s: string, i: int): (r: string)
    ensures 0 <= i <= |s| ==> r == s[i..]
    ensures |r| <= |s| && r == s[|s| - |r|..]
  {
    s[SliceBound(i, |s|)..]
  }

  /** `s[:j]` with Python's slice semantics. */
  function SliceTo(s: string, j: int): (r: string)
    ensures 0 <= j <= |s| ==> r == s[..j]
    ensures j > |s| ==> r == s
    ensures |r| <= |s| && r == s[..|r|]
    ensures j >= 0 ==> |r| <= j
  {
    s[..SliceBound(j, |s|)]
  }

  function DigitValue(c: char): nat
    requires IsDigit(c)
  {
    c as int - '0' as int
  }

  /** `int(s)` on a run of ASCII digits (leading zeros allowed). */
  function DigitsValue(s: string): nat
    requires AllDigits(s)
  {
    if |s| == 0 then 0 else DigitsValue(s[..|s| - 1]) * 10 + DigitValue(s[|s| - 1])
  }

  /** `s[::-1]`. */
  function Reverse(s: string): (r: string)
    ensures |r| == |s|
    ensures forall i | 0 <= i < |s| :: r[i] == s[|s| - 1 - i]
  {
    seq(|s|, i requires 0 <= i < |s| => s[|s| - 1 - i])
  }
}
